=== FILE: README.md ===
# scrapper_zameen_backend: a Dafny model of the query layer

The system is a small Express/Sequelize REST service over one Postgres table
of scraped real-estate listings. This project models the parts of it that
decide what a request means and which rows come back:

- **Query-parameter handling.** The `splitAndTrimString` and
  `isInvalidNumber` helpers, `parseSortParams`, the pagination and sort
  middlewares, and the city, search-query, search-filter, property-id and
  purpose middlewares. Each is a pure function from the query map (plus
  the lists those middlewares look up) to a normalised map or value, or
  to an `HttpError(status, message)`.
- **The `where` clauses of `PropertyService`.** A clause is a record of
  optional constraints. `Readable` says when Postgres can read every literal
  in it. The purpose and the types must be labels of their enums, the `IN`
  lists must hold numbers, and every numeric bound must be a number Postgres
  accepts (`SqlInput.Float8`, which refuses a blank bound that JavaScript
  reads as 0). A query with an unreadable clause is answered 500. `Matches`
  gives the rows a readable clause admits: NULL never satisfies a
  comparison, a later `price` key replaces `price > 0`, and `city_id: null`
  is `IS NULL`.
- **Listings.** `findAllProperties` and `searchProperties` (filter, ORDER BY,
  OFFSET/LIMIT, count), the grouped count map, `findPropertyById` with the
  enrichment of a property by three remote lookups, and `getBestProperties`.
- **The ranking views.** The two materialized views of
  `src/migrations/20240716012345-create-best-properties-view.js` are modelled
  like this, over the table as it was when a view was last refreshed:
  - they partition one purpose's properties by location;
  - they order each partition by price ascending, then area, bath and
    bedroom descending, with NULL last in ascending and first in descending
    order;
  - they number the rows, keep ranks 1 to 3, and join the location name.
- **Static facts.** The 19 property types and their three category lists,
  and the environment-variable schema read as a validator.

The database, Redis and HTTP are not executed. They become inputs:
- the table is a `seq<Property>` and the locations a `seq<Location>`;
- the case-insensitive city lookup and `Date.parse` are function parameters;
- the lists of known types and purposes are passed in;
- the grouped counts and the settled outcomes of the remote requests are
  passed in as values.

JavaScript `Number(s)` is modelled on the plain decimal grammar after `trim`
(`[+|-]digits[.digits]`, `[+|-].digits`, `[+|-]digits.`). A blank string is
0 and anything else is NaN (`None`).

Rows that tie on every ORDER BY key may come back in any order. The
contracts say what every admissible answer satisfies (`Ordering.IsOrdering`:
the same multiset, and sorted). `Ordering.SortRows` is one such answer,
proved admissible.

Files, one module each: `wrappers.dfy` (Option, Result, HttpError),
`strings.dfy`, `numbers.dfy`, `sqlinput.dfy` (how Postgres reads a numeric
literal), `pagination.dfy`, `validation.dfy`,
`catalog.dfy`, `filters.dfy`, `ordering.dfy`, `ranking.dfy`, `service.dfy`
(module `PropertyService`), `env.dfy` (module `EnvSchema`).

## Model

| member | source | states |
|---|---|---|
| Strings.SplitAndTrim | src/utils/index.ts:4-5 | with the input defaulting to "" and the separator to ',', the result has one more piece than the input has separators, so it is never empty and "" gives [""] |
| Strings.SplitAndTrimPieces | src/utils/index.ts:5 | piece i is the i-th separator-delimited segment with white space trimmed, order kept; no piece has blank ends or contains the separator |
| Strings.SplitAndTrimIdempotent | src/utils/index.ts:5 | trimming the pieces again changes nothing |
| Strings.TrimFacts | src/utils/index.ts:5 | `trim` leaves no blank ends, adds no characters, and gives "" exactly for blank input |
| Strings.TrimUnique | src/utils/index.ts:5 | removing blank ends from lead + t + trail gives back t when t has no blank ends |
| Strings.TrimIdempotent | src/utils/index.ts:5 | `trim` is idempotent |
| Strings.SplitCount | src/utils/index.ts:5 | `split` on one character gives occurrences + 1 segments |
| Strings.SplitSepFree | src/utils/index.ts:5 | no segment contains the separator |
| Strings.JoinSplit | src/utils/index.ts:5 | joining the segments with the separator rebuilds the input |
| Strings.SplitJoin | src/utils/index.ts:5 | splitting a join of separator-free segments gives the segments back |
| Numbers.ToNumber | src/utils/validation.helpers.ts:1 | JavaScript `Number` of a string; what it gives is stated by `LiteralRoundTrip`, `PlusLiteralRoundTrip`, `BlankIsZero`, `ForeignCharIsNaN` and, conversely, `ToNumberIsLiteral` |
| Numbers.IsInvalidNumber | src/utils/validation.helpers.ts:1 | NaN or below zero; stated on literals by `NonNegativeLiteralValid` and `NegativeLiteralInvalid` |
| Numbers.LiteralRoundTrip | src/utils/validation.helpers.ts:1 | every decimal literal, signed or not, with or without a fraction, converts to exactly its value |
| Numbers.PlusLiteralRoundTrip | src/utils/validation.helpers.ts:1 | an unsigned literal written with a leading `+` converts to its value too |
| Numbers.ToNumberIsLiteral | src/utils/validation.helpers.ts:1 | the converse: a string that converts to a number is blank or, once trimmed, the text of a literal (possibly after `+`) and converts to that literal's value; anything else, such as "1.2.3", "." or "+-1", is NaN |
| Numbers.NonNegativeLiteralValid | src/utils/validation.helpers.ts:1 | a non-negative literal, "0" and decimals included, is never an invalid number |
| Numbers.NegativeLiteralInvalid | src/utils/validation.helpers.ts:1 | a negative literal is invalid exactly when its magnitude is above zero ("-0" is not below zero) |
| Numbers.MinusOneInvalid | src/test/property.test.ts:30-34 | "-1" is an invalid number, so `page_size=-1` is refused |
| Numbers.MinusZeroValid | src/utils/validation.helpers.ts:1 | "-0" converts to a value not below zero and so is valid |
| Numbers.BlankIsZero | src/utils/validation.helpers.ts:1 | "" and white space convert to 0, so they are not invalid |
| Numbers.ForeignCharIsNaN | src/utils/validation.helpers.ts:1 | a character other than digits, point and signs makes the value NaN and the string invalid |
| Numbers.WordInvalid | src/utils/validation.helpers.ts:1 | a word such as "abc" is invalid |
| Numbers.DigitsValueZero | src/utils/validation.helpers.ts:1 | a digit string has value 0 exactly when all its digits are '0' |
| Numbers.MagnitudePositive | src/utils/validation.helpers.ts:1 | a literal's magnitude is positive exactly when its whole or fractional digits are not all zero |
| SqlInput.Float8 | src/services/property.service.ts:213-214 | Postgres reads a range bound of a `double precision` column; an empty or blank bound is refused |
| SqlInput.BlankReadDifferently | src/utils/validation.helpers.ts:1 | a blank bound is a valid number for the middleware, which reads it as 0, but Postgres refuses it |
| SqlInput.Float8AgreesWithNumber | src/services/property.service.ts:213-214 | whatever bound Postgres reads, `Number` reads as the same value, so the middleware checks the value Postgres compares |
| SqlInput.Float8OfLiteral | src/services/property.service.ts:213-214 | Postgres reads every decimal literal as exactly its value |
| Pagination.ParseColumnName | src/types/index.ts:6-9 | each of `price`, `id` is recognised as its own column |
| Pagination.ParseDirectionName | src/types/index.ts:1-4 | each of `ASC`, `DESC` is recognised as its own direction; recognition is exact and case-sensitive |
| Pagination.PairUp | src/utils/pagination.helpers.ts:15-27 | on success there is one pair per column |
| Pagination.PairUpSucceeds | src/utils/pagination.helpers.ts:15-27 | pairing succeeds exactly when every column is in SORT_COLUMNS and every direction in SORT_ORDER |
| Pagination.PairUpNames | src/utils/pagination.helpers.ts:26 | on success pair i names column i and direction i |
| Pagination.PairUpFirstOffence | src/utils/pagination.helpers.ts:15-24 | the error is for the first offending index, and at that index the column is checked before the direction |
| Pagination.ParseSortParams | src/utils/pagination.helpers.ts:5-14 | both parameters are split and trimmed; unequal counts give 400 "same number of elements", and otherwise the answer is the pairing |
| Pagination.ParseSortSuccess | src/utils/pagination.helpers.ts:5-27 | on success the order has as many pairs as `sort_by` has pieces, and pair i names piece i of each |
| Pagination.EmptySortParamsRejected | src/utils/pagination.helpers.ts:12-14 | the `[[id, ASC]]` branch is unreachable: `parseSortParams('', '')` fails with the invalid-`sort_by` error for "" |
| Pagination.ValidatePaginationParams | src/middlewares/pagination.middleware.ts:8-17 | an absent or empty `page_size` becomes "10" and `page_number` "1"; 400 exactly when either is an invalid number; no other key changes |
| Pagination.PaginationDefaults | src/middlewares/pagination.middleware.ts:10-11 | without paging parameters the request passes with `page_size=10`, `page_number=1` |
| Pagination.PaginationZeroAndNegative | src/middlewares/pagination.middleware.ts:13-16 | 0 is admitted for both parameters, and a negative page size is refused |
| Pagination.PaginationIdempotent | src/middlewares/pagination.middleware.ts:8-17 | running the check on its own output changes nothing |
| Pagination.PaginationFixed | src/middlewares/pagination.middleware.ts:8-17 | a query whose `page_size` and `page_number` are present, non-empty and valid passes exactly as it is |
| Pagination.ValidateSortParams | src/middlewares/pagination.middleware.ts:19-30 | `req.order` is exactly `parseSortParams` of the defaulted `sort_by`/`sort_order`; its failure is passed on unchanged |
| Pagination.SortDefaulted | src/middlewares/pagination.middleware.ts:22-23 | an absent or empty `sort_by` becomes "id" and `sort_order` "ASC" |
| Pagination.SortQueryFrame | src/middlewares/pagination.middleware.ts:21-24 | only the two sort keys are added or replaced; every other parameter keeps its value |
| Pagination.SortDefaults | src/middlewares/pagination.middleware.ts:22-25 | with neither parameter the order is `[[id, ASC]]` |
| Pagination.SortOrderOmittedWithSeveralColumns | src/middlewares/pagination.middleware.ts:23 | several columns with `sort_order` omitted give the count-mismatch 400 |
| Pagination.SortIdempotent | src/middlewares/pagination.middleware.ts:19-30 | re-running the sort check on its output gives the same request |
| Validation.SetIfAbsent | src/middlewares/validation.middleware.ts:59-61 | `== null` defaulting: a present value, even "", is kept; an absent one gets the default; other keys are untouched |
| Validation.ValidateCityParam | src/middlewares/validation.middleware.ts:34-42 | a rejection is a 400 whose message lists islamabad, rawalpindi, lahore, karachi |
| Validation.CityAccepted | src/middlewares/validation.middleware.ts:37 | a given city passes exactly when it is the name of an AVAILABLE_CITIES member |
| Validation.CityExamples | src/middlewares/validation.middleware.ts:37 | an absent city passes; "Lahore" and "" are refused because the comparison is exact |
| Validation.ValidateSearchQueryParam | src/middlewares/validation.middleware.ts:44-54 | passes exactly when `query` is absent or a string, and then `query` is a string; a repeated `query` gives 400 |
| Validation.SearchQueryNormalised | src/middlewares/validation.middleware.ts:45-47 | a missing `query` becomes "" and nothing else changes |
| Validation.FilterDefaults | src/middlewares/validation.middleware.ts:74-80 | `bedrooms` becomes "" exactly when it is absent, empty, or "all"/"studio" in any letter case |
| Validation.FilterDefaultValues | src/middlewares/validation.middleware.ts:59-87 | the defaults are property_type "", area_min "0", area_max "", price_min "1", price_max "", bedrooms "", start_date "", end_date "" |
| Validation.FilterDefaultsKeepSupplied | src/middlewares/validation.middleware.ts:62-70 | a supplied value is kept even when empty |
| Validation.BedroomsAnyCase | src/middlewares/validation.middleware.ts:76-77 | "All" and "STUDIO" clear the bedroom filter |
| Validation.SomeInvalidNumber | src/middlewares/validation.middleware.ts:103 | true exactly when some comma token is an invalid number |
| Validation.CheckFilters | src/middlewares/validation.middleware.ts:99-117 | every answer the `switch` sends is a 400 |
| Validation.ValidateSearchFilters | src/middlewares/validation.middleware.ts:58-119 | on success the result is the defaulted filters; it fails exactly when some check rejects them, and then with the 400 of the first check, in source order, that rejects |
| Validation.FiltersPass | src/middlewares/validation.middleware.ts:99-118 | the filters pass exactly when no check rejects them: empty price_max, area_max, bedrooms and dates skip their checks, and property_type must equal a known type as a whole string |
| Validation.FiltersFirstFailure | src/middlewares/validation.middleware.ts:99-117 | checks run price, bedrooms, area, start_date, end_date, property_type, and the first that rejects gives the message |
| Validation.EmptyPriceMinAdmitted | src/middlewares/validation.middleware.ts:68-70 | an explicitly empty `price_min` converts to 0 and passes, where an absent one becomes "1" |
| Validation.ValidatePropertyId | src/middlewares/validation.middleware.ts:121-128 | a rejection is the 400 "Invalid property id parameter" |
| Validation.PropertyIdAcceptsLiterals | src/middlewares/validation.middleware.ts:123 | every decimal literal passes, negatives included, since only NaN is refused |
| Validation.PropertyIdExamples | src/middlewares/validation.middleware.ts:122-123 | a missing id and "abc" are refused; "" and " " convert to 0 and pass |
| Validation.ValidatePurposeFilter | src/middlewares/validation.middleware.ts:130-144 | a missing purpose is read as for_sale; it passes exactly when it is a known purpose, else 400 listing them; a failed lookup is answered 500 with its message; on success the query is handed on with `purpose` set to for_sale when it was missing and every other parameter unchanged |
| Validation.PurposeDefault | src/middlewares/validation.middleware.ts:132-134 | with no purpose the request passes exactly when for_sale is known, and then carries `purpose=for_sale`; a known supplied purpose leaves the query unchanged |
| Catalog.ParseType | src/models/models.ts:8-27 | a recognised type name is the name of the type returned |
| Catalog.ParseName | src/models/models.ts:8-27 | every type is recognised by its own name |
| Catalog.NameInjective | src/models/models.ts:8-27 | distinct types have distinct names |
| Catalog.AllTypesComplete | src/models/models.ts:8-27 | there are 19 types, each listed once |
| Catalog.CategoriesPartition | src/constants/index.ts:9-18 | a type is in a category list exactly when its kind of use is that category |
| Catalog.CategoryListsDisjointAndCovering | src/constants/index.ts:9-18 | the plot, commercial and home lists are pairwise disjoint and together contain every type |
| Catalog.CategoryListSizes | src/constants/index.ts:9-18 | sizes 6, 6 and 7 add up to the 19 types, with no repetition inside a list |
| Filters.BuildWhere | src/services/property.service.ts:189-217 | the clause keeps the requested purpose; its other keys are stated by the presence lemmas below |
| Filters.Matches | src/services/property.service.ts:207-217 | every row a clause admits has the clause's purpose |
| Filters.RangeOf | src/services/property.service.ts:213 | a range key is present exactly when the min or the max is truthy; `gte` only for a truthy min, `lte` only for a truthy max, each holding the given string |
| Filters.NumberList | src/services/property.service.ts:203-204 | the `IN` list holds `Number` of each split and trimmed piece, in order |
| Filters.PricePositiveUnlessBounded | src/services/property.service.ts:209-214 | `price > 0` survives exactly when neither price bound is given, since the later `price` key replaces it |
| Filters.InFiltersPresence | src/services/property.service.ts:210-215 | the type, location and bedroom `IN` filters are present exactly for non-empty parameters; the types are the trimmed pieces |
| Filters.CityConstraintPresence | src/services/property.service.ts:212 | `city_id` is constrained exactly when a city is given, to the looked-up id, which may be null |
| Filters.FindCityId | src/services/property.service.ts:23-31 | no lookup and null for a falsy city |
| Filters.MatchesFixesPurpose | src/services/property.service.ts:208 | every matching row has the requested purpose |
| Filters.UnfilteredClause | src/services/property.service.ts:207-209 | with no optional filter a row matches exactly when it has the purpose and a positive price |
| Filters.ZeroPriceMinAdmitsFree | src/services/property.service.ts:214 | `price_min=0` replaces `price > 0`, so a listing priced 0 matches |
| Filters.UnknownCityMatchesCityless | src/services/property.service.ts:30 | an unknown city looks up as null, and only rows without a city match |
| Filters.AreaMinimumHolds | src/services/property.service.ts:213 | a given area minimum excludes smaller areas and rows without an area |
| Filters.FindAllIsBuildWhere | src/services/property.service.ts:79-85 | the clause of `findAllProperties` is `getWhereClause` of purpose and city alone |
| Filters.CountWhereWidens | src/services/property.service.ts:157-168 | the count clause drops only the type filter, so it admits every row the search admits |
| Filters.BlankPriceMinRefused | src/services/property.service.ts:214 | a blank `price_min`, which passes the middleware, makes Postgres refuse the clause |
| Filters.UnknownPurposeRefused | src/services/property.service.ts:208 | a purpose outside the enum labels for_sale and for_rent makes the clause unreadable |
| Filters.UnknownTypeRefused | src/services/property.service.ts:210 | a `property_type` piece that is not a `type` enum label, such as the empty piece of "house,", makes the clause unreadable |
| Filters.NaNLocationRefused | src/services/property.service.ts:211 | a `location_ids` piece that `Number` reads as NaN makes the clause unreadable |
| Filters.FindAllWhereReadable | src/services/property.service.ts:79-85 | the clause of `findAllProperties` is readable exactly when its purpose is an enum label |
| Filters.LiteralBoundsReadable | src/services/property.service.ts:213-214 | bounds written as decimal literals are readable, and a value is within them exactly when it lies between their values |
| Ordering.SortRows | src/migrations/20240716012345-create-best-properties-view.js:11 | the sorted rows are a permutation of the input rows |
| Ordering.CompareRowsFlip | src/migrations/20240716012345-create-best-properties-view.js:11 | swapping two rows negates their ORDER BY comparison |
| Ordering.CompareRowsTrans | src/migrations/20240716012345-create-best-properties-view.js:11 | the ORDER BY comparison is transitive, strictly so when either step is strict |
| Ordering.RowLeTotal | src/migrations/20240716012345-create-best-properties-view.js:11 | any two rows are comparable |
| Ordering.InsertRow | src/migrations/20240716012345-create-best-properties-view.js:11 | insertion adds exactly the one row |
| Ordering.InsertRowSorted | src/migrations/20240716012345-create-best-properties-view.js:11 | inserting into a sorted list keeps it sorted |
| Ordering.SortRowsIsOrdering | src/migrations/20240716012345-create-best-properties-view.js:11 | the sort is an admissible ORDER BY answer: the same rows, in key order |
| Ordering.IdOrderStrict | src/services/property.service.ts:71 | the default order by id has no ties between distinct ids |
| Ranking.RankWindow | src/migrations/20240716012345-create-best-properties-view.js:11-20 | a ranked window keeps min(n, 3) of its n rows |
| Ranking.Block | src/migrations/20240716012345-create-best-properties-view.js:9-20 | a location's block has at most three rows, ranked 1, 2, ..., each of the view's purpose and that location and named after it |
| Ranking.View | src/migrations/20240716012345-create-best-properties-view.js:7-20 | the view has at most three times as many rows as there are listed locations; the cap for each single location is stated by `ViewPerLocationCap` |
| Ranking.Partition | src/migrations/20240716012345-create-best-properties-view.js:11-13 | every row of a window has the view's purpose and the window's location |
| Ranking.PartitionMembers | src/migrations/20240716012345-create-best-properties-view.js:11-13 | a window holds exactly the table's rows of that purpose and location |
| Ranking.RankWindowSpec | src/migrations/20240716012345-create-best-properties-view.js:11-20 | for any admissible order a window keeps min(n, 3) rows, numbered 1, 2, ... in key order, all drawn from the window |
| Ranking.RankWindowComplete | src/migrations/20240716012345-create-best-properties-view.js:20 | every row left out ranks no better than every row kept |
| Ranking.ViewRows | src/migrations/20240716012345-create-best-properties-view.js:15-19 | every view row has the view's purpose, comes from the table, and carries the name of its own location |
| Ranking.ViewDropsUnknownLocation | src/migrations/20240716012345-create-best-properties-view.js:19 | the inner join drops rows whose location does not exist |
| Ranking.ViewAtLocation | src/migrations/20240716012345-create-best-properties-view.js:11-20 | a location's rows in the view are exactly its own ranked window |
| Ranking.ViewLocationRanks | src/migrations/20240716012345-create-best-properties-view.js:28-37 | per location the view keeps min(n, 3) of the n rows, ranks restart at 1 and are consecutive, and the rows follow the key order |
| Ranking.ViewPerLocationCap | src/migrations/20240716012345-create-best-properties-view.js:11-20 | with distinct location ids, no location id, listed or not, has more than three rows in the view |
| PropertyService.Page | src/services/property.service.ts:87-88 | a page is the rows from the offset on, at most limit of them; a negative offset or limit is refused by Postgres and answered 500 |
| PropertyService.PagesTile | src/services/property.service.ts:87-88 | pages 1..k of one size, one after another, are exactly the first k * size ordered rows |
| PropertyService.PageZeroFails | src/services/property.service.ts:87 | for a positive page size, page 0, which the pagination middleware admits, gives a negative offset and a 500 |
| PropertyService.Select | src/services/property.service.ts:264-265 | the selected rows are at most the table's rows, each satisfying the clause |
| PropertyService.FindAndCountAll | src/services/property.service.ts:78-88 | the query succeeds exactly when its clause is readable and the offset and limit are not negative; any failure is a 500, an unreadable clause first; on success the count is the number of matching rows whatever the page, and a page holds at most `limit` rows |
| PropertyService.FindAllProperties | src/services/property.service.ts:67-103 | succeeds exactly when the purpose is an enum label and the page window is not negative; an unknown purpose is answered 500; the count is the number of rows the clause admits |
| PropertyService.SearchProperties | src/services/property.service.ts:231-283 | succeeds exactly when the `getWhereClause` clause is readable and the page window is not negative, with the count of the rows it admits; every failure is a 500 |
| PropertyService.SearchRefused | src/services/property.service.ts:250-264 | a purpose outside the enum or a blank `price_min` makes the search fail with 500 |
| PropertyService.ListingRows | src/services/property.service.ts:264-268 | a page is the window at the offset of an admissible ORDER BY answer over the matching rows |
| PropertyService.ListingRowsMatch | src/services/property.service.ts:264-265 | every row of a page comes from the table and satisfies the clause |
| PropertyService.FindAllDefaults | src/services/property.service.ts:70-71 | for an enum purpose, without page size or order, page 1 is the first 10 matching rows by ascending id |
| PropertyService.FindAllIsSearch | src/services/property.service.ts:67-103 | `findAllProperties` is `searchProperties` with only city and purpose |
| PropertyService.CountIgnoresPage | src/services/property.service.ts:264-268 | the count does not depend on the page number |
| PropertyService.CountMap | src/services/property.service.ts:140-143 | the key of the last grouped row is always in the map |
| PropertyService.GetPropertiesCountMap | src/services/property.service.ts:145-170 | succeeds exactly when the count clause, which has no type filter, is readable; otherwise it is refused with 500 |
| PropertyService.CountMapKeys | src/services/property.service.ts:140-143 | the map's keys are exactly the keys of the grouped rows, with a null type as "null" |
| PropertyService.CountMapLastWins | src/services/property.service.ts:140-143 | a key holds the count of the last grouped row with that key |
| PropertyService.CountMapDistinct | src/services/property.service.ts:140-143 | with distinct keys every grouped row keeps its own count |
| PropertyService.CountMapCovers | src/services/property.service.ts:134-143 | when the grouped rows answer GROUP BY type over the admitted rows, every admitted row's type has a key |
| PropertyService.CountMapOnly | src/services/property.service.ts:134-143 | every key is the key of some admitted row's type |
| PropertyService.CountMapOfClause | src/services/property.service.ts:145-170 | for a readable clause the map has a key exactly for the types of the rows the count clause admits, with no type filter applied |
| PropertyService.ExternalId | src/services/property.service.ts:43 | an id exactly when the row has a url, and it contains no '-' |
| PropertyService.ExternalIdOfSegments | src/services/property.service.ts:43 | for a url of three or more segments the id is the third segment from the end |
| PropertyService.ExternalIdOfShortUrl | src/services/property.service.ts:43 | with fewer than three segments the id is the first segment |
| PropertyService.FormatResponse | src/services/property.service.ts:49-54 | the data of a fulfilled request, null for a rejected one |
| PropertyService.Enrich | src/services/property.service.ts:55-61 | the property is kept with its external id; each of the three fields holds exactly its own request's data when that request was fulfilled and is null when it was rejected, independently of the other two |
| PropertyService.Combine | src/services/property.service.ts:64 | never more values than outcomes |
| PropertyService.CombineSingle | src/services/property.service.ts:64 | a fulfilled outcome contributes its value and a rejected one nothing |
| PropertyService.CombineAppend | src/services/property.service.ts:64 | combining distributes over concatenation, so kept values stay in order |
| PropertyService.CombineAllFulfilled | src/services/property.service.ts:64 | nothing is dropped when nothing is rejected |
| PropertyService.MapPropertiesDetails | src/services/property.service.ts:40-65 | one enriched object per property, in the same order, each the property with its own three lookups |
| PropertyService.FindByPk | src/services/property.service.ts:105 | a found row is a row of the table with that id |
| PropertyService.FindByPkFinds | src/services/property.service.ts:105 | a row is found exactly when the table has one with that id |
| PropertyService.FindPropertyById | src/services/property.service.ts:104-128 | at most one enriched object, and its property is a row of the table with that id |
| PropertyService.FindPropertyByIdResult | src/services/property.service.ts:104-128 | a known id gives a one-element list holding that property enriched; an unknown id gives [] |
| PropertyService.ViewPurpose | src/services/property.service.ts:286 | the for-sale view exactly when purpose is 'for_sale', else the for-rent view |
| PropertyService.GetBestProperties | src/services/property.service.ts:284-302 | succeeds exactly when the clause is readable and the page window is not negative; every failure is a 500; on success the count is the number of selected view rows and the page is the selection's window at the offset |
| PropertyService.BestRefusesUnknownPurpose | src/services/property.service.ts:284-286 | a purpose outside the enum is refused with 500 rather than read as for_rent |
| PropertyService.BestPageOrdered | src/services/property.service.ts:293-298 | with locations listed by ascending id, a page is strictly ordered by location id and then rank, and holds the selected rows from its offset on |
| PropertyService.BestSelectionComplete | src/services/property.service.ts:285-292 | a view row is selected exactly when it satisfies the clause and its rank is within the limit, 5 by default |
| PropertyService.BestPurpose | src/services/property.service.ts:285-288 | every selected row has the requested purpose and comes from the view of that purpose; only for_sale and for_rent can select anything, and any other purpose is refused before selection (`BestRefusesUnknownPurpose`) |
| PropertyService.BestPerLocationCap | src/services/property.service.ts:289-291 | per location at most min(limit, 3) rows are selected |
| PropertyService.BestOrdered | src/services/property.service.ts:293-296 | with locations listed by ascending id, the selection is strictly ordered by location id and then rank |
| EnvSchema.ParseEnv | src/models/env-vars.schema.ts:4-26 | a failure names at least one variable |
| EnvSchema.ParseEnvSucceeds | src/models/env-vars.schema.ts:4-26 | parsing succeeds exactly when every variable passes its rule, and a failure names exactly the failing variables |
| EnvSchema.InvalidComplete | src/models/env-vars.schema.ts:4-26 | a variable is reported exactly when it fails its rule |
| EnvSchema.AllKeysComplete | src/models/env-vars.schema.ts:4-26 | the schema has 19 variables, each once |
| EnvSchema.NodeEnvDefault | src/models/env-vars.schema.ts:5 | an absent NODE_ENV is development, and a present one is the environment it names |
| EnvSchema.NodeEnvRejected | src/models/env-vars.schema.ts:5 | any NODE_ENV other than development, production and test is refused |
| EnvSchema.NumbersConverted | src/models/env-vars.schema.ts:6 | PORT, POSTGRES_PORT and CACHE_EXPIRY_SECONDS are non-empty digit strings converted to their decimal value |
| EnvSchema.DigitsRejected | src/models/env-vars.schema.ts:15 | an absent, empty or non-digit numeric variable is refused |
| EnvSchema.ThresholdKept | src/models/env-vars.schema.ts:21 | FEATURED_PROPERTY_PRICE_THRESHOLD must be digits but keeps its text |
| EnvSchema.CredentialsFlag | src/models/env-vars.schema.ts:23-25 | CREDENTIALS must be non-empty and is true exactly for "true" |
| EnvSchema.StringsKept | src/models/env-vars.schema.ts:7-20 | the string variables are present, non-empty, URLs where required, and passed through unchanged |
| EnvSchema.DecimalRoundTrip | src/models/env-vars.schema.ts:22 | a fact about the digit reading that `transform(Number)` performs, not an operation of the program: reading back the decimal spelling of a number gives the number |
| EnvSchema.LeadingZero | src/models/env-vars.schema.ts:22 | a fact about the digit reading that `transform(Number)` performs, not an operation of the program: a leading zero does not change the converted value |

## Left out

- Database, Redis and HTTP execution. Rows, the locations, the city lookup, the grouped counts and the settled request outcomes are inputs.
- Concurrency. `Promise.all` and `Promise.allSettled` are modelled only by how their settled outcomes are combined.
- `autoCompleteLocation` and `getLocationId`: raw SQL on pg_trgm `similarity` and ILIKE patterns, evaluated in the database.
- `getPropertyTypes` and `getPropertyPurpose` (Redis-cached lookups) are not part of this model. Their lists are parameters.
- A failure of the known-types lookup inside the search-filter middleware. The model takes the list as given.
- Zod's `url()` check is the parameter `isUrl`. The class-validator `ValidationMiddleware` is library behaviour and is left out.
- Express wiring (`app.ts`, routes, controllers). The controller calls `findAllProperties` with positional arguments against an object parameter. The model follows the service signature.
- src/test/property.test.ts:109-115 expects 200 for an invalid city, which `validateCityParam` answers with 400. The model follows the code.
- Numbers.ToNumber: exponents, hexadecimal, `Infinity` and IEEE rounding are not modelled. Such strings are NaN here.
- Validation.ValidateSearchFilters: `Date.parse` is the parameter `dateParse`, and the Postgres cast of date strings in `added` ranges is the parameter `timeOf`.
- Validation.FilterDefaults: lower-casing is ASCII only. The middleware mutates `req.query`, and the model returns the defaulted filters as a record.
- Validation.ValidateSearchQueryParam: only `query` may be array-valued. Every other parameter is a plain string.
- Strings.SplitAndTrim: separators are single characters, which is what every caller passes.
- SqlInput.Float8: exponents and the `Infinity` and `NaN` spellings count as unreadable here. The program and Postgres both accept them; the model refuses them in both places, because it keeps the grammar of `Numbers.ToNumber`.
- Filters.Readable: a date bound is readable when the parameter `timeOf` reads it. Postgres's own timestamp grammar is not modelled.
- PropertyService.FindAndCountAll: listing rows are whole `Property` records, not the projected columns. The listings (`selectAttributes`, src/services/property.service.ts:33-38, 99, 279) return `id`, `description`, `header`, `type`, `price`, `cover_photo_url`, `available`, `area`, `added`, `bedroom` and `bath`, plus the joined `location` and `city` names. `getBestProperties` (line 299) returns the same eleven columns plus `location_id` and `rank`, and not the view's `location` name that `RankedRow` carries. `findPropertyById` (lines 116-121) adds `location`, `city` and `location_id`. The joined names are not modelled. A refused query carries the fixed message "invalid input syntax", not Postgres's own text.
- PropertyService.Page: page numbers and sizes are integers. Fractional values, which the pagination middleware admits, are not modelled.
- PropertyService.GetBestProperties: the `table` and `locations` given to `View` stand for the contents of the materialized views as of their last refresh, not the live table. The program never issues `REFRESH MATERIALIZED VIEW`, so rows added since then are absent from `/best` while the listings already show them. The model does not separate the two states.
- PropertyService.GetBestProperties: `page_size` is required here. Without it Sequelize sends neither OFFSET nor LIMIT. `ORDER BY location_id, rank` is reproduced by listing the locations in ascending id order (`BestOrdered`). Any other listing gives the view's rows in that listing's order.
- PropertyService.CountMap: the counts come from the database as given. What `COUNT(type)` counts for the null type is not modelled.
- EnvSchema.ParseEnv: a failure lists the failing keys in schema order, not zod's issue messages. Numbers are unbounded, not IEEE doubles.
- Users, authentication, sessions, e-mail, the backup script, DDL migrations and triggers, and the response schemas are outside the query layer.

=== FILE: catalog.dfy ===
/**
 * The property-type vocabulary: the `PropertyType` union of
 * src/models/models.ts and the three category lists of
 * src/constants/index.ts, which split the types into plots, commercial
 * premises and homes.
 */
module Catalog {
  import opened Wrappers

  /** `PropertyType`, in declaration order. */
  datatype PropertyType =
    | AgriculturalLand | Building | CommercialPlot | Factory | FarmHouse
    | Flat | House | IndustrialLand | Office | Other
    | Penthouse | PlotFile | PlotForm | ResidentialPlot | Room
    | Shop | LowerPortion | UpperPortion | Warehouse
  {
    /** The string stored in the `type` column. */
    function Name(): string {
      match this
      case AgriculturalLand => "agricultural_land"
      case Building => "building"
      case CommercialPlot => "commercial_plot"
      case Factory => "factory"
      case FarmHouse => "farm_house"
      case Flat => "flat"
      case House => "house"
      case IndustrialLand => "industrial_land"
      case Office => "office"
      case Other => "other"
      case Penthouse => "penthouse"
      case PlotFile => "plot_file"
      case PlotForm => "plot_form"
      case ResidentialPlot => "residential_plot"
      case Room => "room"
      case Shop => "shop"
      case LowerPortion => "lower_portion"
      case UpperPortion => "upper_portion"
      case Warehouse => "warehouse"
    }
  }

  /** Every `PropertyType`, in declaration order. */
  const AllTypes: seq<PropertyType> := [
    AgriculturalLand, Building, CommercialPlot, Factory, FarmHouse,
    Flat, House, IndustrialLand, Office, Other,
    Penthouse, PlotFile, PlotForm, ResidentialPlot, Room,
    Shop, LowerPortion, UpperPortion, Warehouse]

  /** The type a `type` column value names, if any. */
  function ParseType(s: string): (t: Option<PropertyType>)
    ensures t.Some? ==> t.value.Name() == s
  {
    if s == "agricultural_land" then Some(AgriculturalLand)
    else if s == "building" then Some(Building)
    else if s == "commercial_plot" then Some(CommercialPlot)
    else if s == "factory" then Some(Factory)
    else if s == "farm_house" then Some(FarmHouse)
    else if s == "flat" then Some(Flat)
    else if s == "house" then Some(House)
    else if s == "industrial_land" then Some(IndustrialLand)
    else if s == "office" then Some(Office)
    else if s == "other" then Some(Other)
    else if s == "penthouse" then Some(Penthouse)
    else if s == "plot_file" then Some(PlotFile)
    else if s == "plot_form" then Some(PlotForm)
    else if s == "residential_plot" then Some(ResidentialPlot)
    else if s == "room" then Some(Room)
    else if s == "shop" then Some(Shop)
    else if s == "lower_portion" then Some(LowerPortion)
    else if s == "upper_portion" then Some(UpperPortion)
    else if s == "warehouse" then Some(Warehouse)
    else None
  }

  /** `PROPERTY_TYPE_CATEGORIES`. */
  datatype Category = Home | Plot | Commercial

  /** `PROPERTY_TYPE_PLOT_CATEGORIES`. */
  const PlotTypes: seq<PropertyType> :=
    [PlotFile, PlotForm, IndustrialLand, CommercialPlot, ResidentialPlot, AgriculturalLand]

  /** `PROPERTY_TYPE_COMMERCIAL_CATEGORIES`. */
  const CommercialTypes: seq<PropertyType> := [Shop, Office, Warehouse, Factory, Building, Other]

  /** `PROPERTY_TYPE_HOME_CATEGORIES`. */
  const HomeTypes: seq<PropertyType> := [House, UpperPortion, LowerPortion, Flat, Room, FarmHouse, Penthouse]

  function CategoryList(c: Category): seq<PropertyType> {
    match c
    case Home => HomeTypes
    case Plot => PlotTypes
    case Commercial => CommercialTypes
  }

  /** The category of a type, decided by its kind of use rather than by list lookup. */
  function CategoryOf(t: PropertyType): Category {
    match t
    case AgriculturalLand | CommercialPlot | IndustrialLand | PlotFile | PlotForm | ResidentialPlot => Plot
    case Building | Factory | Office | Other | Shop | Warehouse => Commercial
    case FarmHouse | Flat | House | LowerPortion | Penthouse | Room | UpperPortion => Home
  }

  predicate NoDuplicates<T(==)>(s: seq<T>) {
    forall i, j :: 0 <= i < j < |s| ==> s[i] != s[j]
  }

  /** A type is in exactly one list, the one of its category. */
  lemma CategoriesPartition(t: PropertyType, c: Category)
    ensures t in CategoryList(c) <==> CategoryOf(t) == c
  {
  }

  /** The lists are pairwise disjoint and together name every type. */
  lemma CategoryListsDisjointAndCovering(t: PropertyType)
    ensures !(t in PlotTypes && t in CommercialTypes)
    ensures !(t in PlotTypes && t in HomeTypes)
    ensures !(t in CommercialTypes && t in HomeTypes)
    ensures t in PlotTypes + CommercialTypes + HomeTypes
  {
    CategoriesPartition(t, Plot);
    CategoriesPartition(t, Commercial);
    CategoriesPartition(t, Home);
  }

  /** Sizes 6, 6 and 7, without repetition, adding up to the 19 types. */
  lemma CategoryListSizes()
    ensures |PlotTypes| == 6 && |CommercialTypes| == 6 && |HomeTypes| == 7
    ensures |PlotTypes| + |CommercialTypes| + |HomeTypes| == |AllTypes|
    ensures NoDuplicates(PlotTypes) && NoDuplicates(CommercialTypes) && NoDuplicates(HomeTypes)
  {
  }

  /** `AllTypes` lists every type once. */
  lemma AllTypesComplete(t: PropertyType)
    ensures t in AllTypes
    ensures |AllTypes| == 19 && NoDuplicates(AllTypes)
  {
  }

  /** Parsing a type's name gives the type back, so distinct types have distinct names. */
  lemma ParseName(t: PropertyType)
    ensures ParseType(t.Name()) == Some(t)
  {
  }

  lemma NameInjective(a: PropertyType, b: PropertyType)
    ensures a.Name() == b.Name() ==> a == b
  {
    ParseName(a);
    ParseName(b);
  }
}

=== FILE: env.dfy ===
/**
 * The environment-variable schema of src/models/env-vars.schema.ts, read
 * as a validator from `process.env` (a string map; an absent key is
 * `undefined`) to a typed configuration or the list of offending keys.
 *
 * Each variable follows one of five rules: an enumerated value with a
 * default, a non-empty string, a non-empty all-digit string converted to a
 * number, a non-empty URL (the URL check is a parameter), or a non-empty
 * flag that is true exactly for "true".
 */
module EnvSchema {
  import opened Wrappers
  import Numbers

  type Env = map<string, string>

  datatype NodeEnv = Development | Production | Test {
    function Name(): string {
      match this
      case Development => "development"
      case Production => "production"
      case Test => "test"
    }
  }

  function ParseNodeEnv(s: string): (r: Option<NodeEnv>)
    ensures r.Some? ==> r.value.Name() == s
  {
    if s == "development" then Some(Development)
    else if s == "production" then Some(Production)
    else if s == "test" then Some(Test)
    else None
  }

  /** The validation applied to one variable. */
  datatype Rule = EnumWithDefault | NonEmpty | Digits | Url | Flag

  /** The schema's keys, in declaration order. */
  datatype Key =
    | NodeEnvKey | Port | SecretKey | LogFormat | LogDir | Origin
    | PostgresDb | PostgresUser | PostgresPassword | PostgresHost | PostgresPort
    | SessionSecretKey | ZameenBaseUrl | PopularityTrendUrl | AreaTrendUrl | ContactUrl
    | FeaturedPropertyPriceThreshold | CacheExpirySeconds | Credentials
  {
    function Name(): string {
      match this
      case NodeEnvKey => "NODE_ENV"
      case Port => "PORT"
      case SecretKey => "SECRET_KEY"
      case LogFormat => "LOG_FORMAT"
      case LogDir => "LOG_DIR"
      case Origin => "ORIGIN"
      case PostgresDb => "POSTGRES_DB"
      case PostgresUser => "POSTGRES_USER"
      case PostgresPassword => "POSTGRES_PASSWORD"
      case PostgresHost => "POSTGRES_HOST"
      case PostgresPort => "POSTGRES_PORT"
      case SessionSecretKey => "SESSION_SECRET_KEY"
      case ZameenBaseUrl => "ZAMEEN_BASE_URL"
      case PopularityTrendUrl => "POPULARITY_TREND_URL"
      case AreaTrendUrl => "AREA_TREND_URL"
      case ContactUrl => "CONTACT_URL"
      case FeaturedPropertyPriceThreshold => "FEATURED_PROPERTY_PRICE_THRESHOLD"
      case CacheExpirySeconds => "CACHE_EXPIRY_SECONDS"
      case Credentials => "CREDENTIALS"
    }

    function Rule(): Rule {
      match this
      case NodeEnvKey => EnumWithDefault
      case Port | PostgresPort | CacheExpirySeconds | FeaturedPropertyPriceThreshold => Digits
      case ZameenBaseUrl | PopularityTrendUrl | AreaTrendUrl | ContactUrl => Url
      case Credentials => Flag
      case _ => NonEmpty
    }
  }

  const AllKeys: seq<Key> := [
    NodeEnvKey, Port, SecretKey, LogFormat, LogDir, Origin,
    PostgresDb, PostgresUser, PostgresPassword, PostgresHost, PostgresPort,
    SessionSecretKey, ZameenBaseUrl, PopularityTrendUrl, AreaTrendUrl, ContactUrl,
    FeaturedPropertyPriceThreshold, CacheExpirySeconds, Credentials]

  // ------------------------------------------------------------------ digits

  /** `/^\d+$/` (JavaScript's `\d` is the ASCII digits and `$` is the end of input). */
  predicate DigitString(s: string) {
    |s| >= 1 && Numbers.AllDigits(s)
  }

  /** The shortest decimal spelling of a number. */
  function Decimal(n: nat): (s: string)
    ensures DigitString(s)
  {
    if n < 10 then [(n + '0' as int) as char]
    else Decimal(n / 10) + [(n % 10 + '0' as int) as char]
  }

  /** Reading back the decimal spelling of a number gives the number. */
  lemma {:induction false} DecimalRoundTrip(n: nat)
    ensures Numbers.DigitsValue(Decimal(n)) == n
  {
    var s := Decimal(n);
    if n >= 10 {
      DecimalRoundTrip(n / 10);
      assert s[..|s| - 1] == Decimal(n / 10);
    }
  }

  /** Leading zeros do not change the value, so several spellings give one port. */
  lemma {:induction false} LeadingZero(s: string)
    requires Numbers.AllDigits(s)
    ensures Numbers.DigitsValue("0" + s) == Numbers.DigitsValue(s)
    decreases |s|
  {
    if |s| > 0 {
      var t := "0" + s;
      assert t[..|t| - 1] == "0" + s[..|s| - 1];
      LeadingZero(s[..|s| - 1]);
    }
  }

  // ------------------------------------------------------------------ schema

  /** Whether the value of a key passes its rule; `isUrl` is zod's `url()` check. */
  predicate Valid(env: Env, k: Key, isUrl: string -> bool) {
    var present := k.Name() in env;
    var v := if present then env[k.Name()] else "";
    match k.Rule()
    case EnumWithDefault => !present || ParseNodeEnv(v).Some?
    case NonEmpty => present && |v| >= 1
    case Flag => present && |v| >= 1
    case Digits => present && DigitString(v)
    case Url => present && isUrl(v) && |v| >= 1
  }

  /** The keys among `keys` whose values fail their rule, in schema order. */
  function Invalid(env: Env, keys: seq<Key>, isUrl: string -> bool): (r: seq<Key>)
    ensures |r| <= |keys|
    ensures forall i :: 0 <= i < |r| ==> r[i] in keys && !Valid(env, r[i], isUrl)
  {
    if |keys| == 0 then []
    else
      var rest := Invalid(env, keys[1..], isUrl);
      if Valid(env, keys[0], isUrl) then rest else [keys[0]] + rest
  }

  /** The parsed configuration. */
  datatype Config = Config(
    nodeEnv: NodeEnv,
    port: nat,
    secretKey: string,
    logFormat: string,
    logDir: string,
    origin: string,
    postgresDb: string,
    postgresUser: string,
    postgresPassword: string,
    postgresHost: string,
    postgresPort: nat,
    sessionSecretKey: string,
    zameenBaseUrl: string,
    popularityTrendUrl: string,
    areaTrendUrl: string,
    contactUrl: string,
    featuredPropertyPriceThreshold: string,
    cacheExpirySeconds: nat,
    credentials: bool)

  function Get(env: Env, k: Key): string {
    if k.Name() in env then env[k.Name()] else ""
  }

  /** The number a valid digit variable converts to. */
  function Number(env: Env, k: Key, isUrl: string -> bool): nat
    requires k.Rule() == Digits && Valid(env, k, isUrl)
  {
    Numbers.DigitsValue(env[k.Name()])
  }

  /** The configuration of an environment whose every variable passes its rule. */
  function BuildConfig(env: Env, isUrl: string -> bool): Config
    requires forall k :: Valid(env, k, isUrl)
  {
    assert Valid(env, NodeEnvKey, isUrl);
    assert Valid(env, Port, isUrl) && Valid(env, PostgresPort, isUrl) && Valid(env, CacheExpirySeconds, isUrl);
    Config(
      if NodeEnvKey.Name() in env then ParseNodeEnv(env[NodeEnvKey.Name()]).value else Development,
      Number(env, Port, isUrl),
      Get(env, SecretKey),
      Get(env, LogFormat),
      Get(env, LogDir),
      Get(env, Origin),
      Get(env, PostgresDb),
      Get(env, PostgresUser),
      Get(env, PostgresPassword),
      Get(env, PostgresHost),
      Number(env, PostgresPort, isUrl),
      Get(env, SessionSecretKey),
      Get(env, ZameenBaseUrl),
      Get(env, PopularityTrendUrl),
      Get(env, AreaTrendUrl),
      Get(env, ContactUrl),
      Get(env, FeaturedPropertyPriceThreshold),
      Number(env, CacheExpirySeconds, isUrl),
      Get(env, Credentials) == "true")
  }

  /** `envVarsSchema.parse(process.env)`: the configuration, or every key that failed. */
  function ParseEnv(env: Env, isUrl: string -> bool): (r: Result<Config, seq<Key>>)
    ensures r.Failure? ==> |r.error| > 0
  {
    var bad := Invalid(env, AllKeys, isUrl);
    if |bad| > 0 then Failure(bad)
    else
      NoneInvalid(env, isUrl);
      Success(BuildConfig(env, isUrl))
  }

  // ------------------------------------------------------------------ lemmas

  /** A key of the list is reported exactly when its value fails its rule. */
  lemma {:induction false} InvalidComplete(env: Env, keys: seq<Key>, isUrl: string -> bool, k: Key)
    ensures k in Invalid(env, keys, isUrl) <==> k in keys && !Valid(env, k, isUrl)
  {
    if |keys| > 0 {
      InvalidComplete(env, keys[1..], isUrl, k);
      assert keys == [keys[0]] + keys[1..];
    }
  }

  /** With nothing reported, every variable passes its rule. */
  lemma NoneInvalid(env: Env, isUrl: string -> bool)
    requires |Invalid(env, AllKeys, isUrl)| == 0
    ensures forall k :: Valid(env, k, isUrl)
  {
    forall k ensures Valid(env, k, isUrl) {
      InvalidComplete(env, AllKeys, isUrl, k);
      AllKeysComplete(k);
    }
  }

  /** The schema lists all nineteen keys, once each. */
  lemma AllKeysComplete(k: Key)
    ensures k in AllKeys
    ensures |AllKeys| == 19
    ensures forall i, j :: 0 <= i < j < |AllKeys| ==> AllKeys[i] != AllKeys[j]
  {
  }

  /** Parsing succeeds exactly when every variable passes its rule, and otherwise names each failing one. */
  lemma ParseEnvSucceeds(env: Env, isUrl: string -> bool, k: Key)
    ensures ParseEnv(env, isUrl).Success? <==> forall key :: key in AllKeys ==> Valid(env, key, isUrl)
    ensures ParseEnv(env, isUrl).Failure? ==> (k in ParseEnv(env, isUrl).error <==> !Valid(env, k, isUrl))
  {
    AllKeysComplete(k);
    InvalidComplete(env, AllKeys, isUrl, k);
    var bad := Invalid(env, AllKeys, isUrl);
    if |bad| > 0 {
      InvalidComplete(env, AllKeys, isUrl, bad[0]);
    } else {
      forall key | key in AllKeys ensures Valid(env, key, isUrl) {
        InvalidComplete(env, AllKeys, isUrl, key);
      }
    }
  }

  /** `NODE_ENV` defaults to development when absent and is kept when it names an environment. */
  lemma NodeEnvDefault(env: Env, isUrl: string -> bool)
    requires ParseEnv(env, isUrl).Success?
    ensures "NODE_ENV" !in env ==> ParseEnv(env, isUrl).value.nodeEnv == Development
    ensures "NODE_ENV" in env ==> ParseEnv(env, isUrl).value.nodeEnv.Name() == env["NODE_ENV"]
  {
  }

  /** Any other `NODE_ENV`, such as "staging" or "", is rejected. */
  lemma NodeEnvRejected(env: Env, isUrl: string -> bool)
    requires "NODE_ENV" in env && env["NODE_ENV"] !in ["development", "production", "test"]
    ensures ParseEnv(env, isUrl).Failure? && NodeEnvKey in ParseEnv(env, isUrl).error
  {
    ParseEnvSucceeds(env, isUrl, NodeEnvKey);
    AllKeysComplete(NodeEnvKey);
  }

  /** After a successful parse every variable has passed its rule. */
  lemma ValidOnSuccess(env: Env, isUrl: string -> bool, k: Key)
    requires ParseEnv(env, isUrl).Success?
    ensures Valid(env, k, isUrl)
  {
    ParseEnvSucceeds(env, isUrl, k);
    AllKeysComplete(k);
  }

  /** The numeric variables hold the decimal value of their digits. */
  lemma NumbersConverted(env: Env, isUrl: string -> bool)
    requires ParseEnv(env, isUrl).Success?
    ensures var c := ParseEnv(env, isUrl).value;
      && "PORT" in env && "POSTGRES_PORT" in env && "CACHE_EXPIRY_SECONDS" in env
      && DigitString(env["PORT"]) && c.port == Numbers.DigitsValue(env["PORT"])
      && DigitString(env["POSTGRES_PORT"]) && c.postgresPort == Numbers.DigitsValue(env["POSTGRES_PORT"])
      && DigitString(env["CACHE_EXPIRY_SECONDS"]) && c.cacheExpirySeconds == Numbers.DigitsValue(env["CACHE_EXPIRY_SECONDS"])
  {
    ValidOnSuccess(env, isUrl, Port);
    ValidOnSuccess(env, isUrl, PostgresPort);
    ValidOnSuccess(env, isUrl, CacheExpirySeconds);
  }

  /** The price threshold must be digits but keeps its text. */
  lemma ThresholdKept(env: Env, isUrl: string -> bool)
    requires ParseEnv(env, isUrl).Success?
    ensures "FEATURED_PROPERTY_PRICE_THRESHOLD" in env && DigitString(env["FEATURED_PROPERTY_PRICE_THRESHOLD"])
    ensures ParseEnv(env, isUrl).value.featuredPropertyPriceThreshold == env["FEATURED_PROPERTY_PRICE_THRESHOLD"]
  {
    ValidOnSuccess(env, isUrl, FeaturedPropertyPriceThreshold);
  }

  /** A digit variable that is empty, signed or not a whole number is rejected. */
  lemma DigitsRejected(env: Env, isUrl: string -> bool, k: Key)
    requires k.Rule() == Digits
    requires k.Name() !in env || !DigitString(env[k.Name()])
    ensures ParseEnv(env, isUrl).Failure? && k in ParseEnv(env, isUrl).error
  {
    ParseEnvSucceeds(env, isUrl, k);
    AllKeysComplete(k);
  }

  /** `CREDENTIALS` is true exactly for "true": "TRUE", "1" and "yes" all give false. */
  lemma CredentialsFlag(env: Env, isUrl: string -> bool)
    requires ParseEnv(env, isUrl).Success?
    ensures "CREDENTIALS" in env && env["CREDENTIALS"] != ""
    ensures ParseEnv(env, isUrl).value.credentials <==> env["CREDENTIALS"] == "true"
  {
    ValidOnSuccess(env, isUrl, Credentials);
  }

  /** The configuration field of a string variable. */
  function TextOf(c: Config, k: Key): string
    requires k.Rule() == NonEmpty || k.Rule() == Url
  {
    match k
    case SecretKey => c.secretKey
    case LogFormat => c.logFormat
    case LogDir => c.logDir
    case Origin => c.origin
    case PostgresDb => c.postgresDb
    case PostgresUser => c.postgresUser
    case PostgresPassword => c.postgresPassword
    case PostgresHost => c.postgresHost
    case SessionSecretKey => c.sessionSecretKey
    case ZameenBaseUrl => c.zameenBaseUrl
    case PopularityTrendUrl => c.popularityTrendUrl
    case AreaTrendUrl => c.areaTrendUrl
    case ContactUrl => c.contactUrl
  }

  /** The string variables are present and non-empty, and are passed through unchanged. */
  lemma StringsKept(env: Env, isUrl: string -> bool, k: Key)
    requires ParseEnv(env, isUrl).Success?
    requires k.Rule() == NonEmpty || k.Rule() == Url
    ensures k.Name() in env && |env[k.Name()]| >= 1
    ensures k.Rule() == Url ==> isUrl(env[k.Name()])
    ensures TextOf(ParseEnv(env, isUrl).value, k) == env[k.Name()]
  {
    ValidOnSuccess(env, isUrl, k);
  }
}

=== FILE: filters.dfy ===
/**
 * The `where` clauses of src/services/property.service.ts: `getWhereClause`,
 * the fixed clause of `findAllProperties` and the `findCityId` lookup, with
 * the meaning Postgres gives them.  `Readable` says when Postgres can read
 * every literal of a clause (otherwise it refuses the query), and `Matches`
 * says which property rows a readable clause admits.
 *
 * A clause is a record of optional constraints: an absent field is a key the
 * object literal does not contain.  Range bounds keep the request's strings,
 * as Sequelize passes them on; Postgres reads them with `Float8` for the
 * numeric columns and with an abstract `timeOf` for the `added` timestamp.
 */
module Filters {
  import opened Wrappers
  import opened Strings
  import opened Numbers
  import opened SqlInput
  import opened Catalog

  /** A row of the `properties` table; nullable columns are `Option`s. */
  datatype Property = Property(
    id: int,
    propertyType: Option<string>,
    price: Option<real>,
    locationId: Option<int>,
    bath: Option<int>,
    area: Option<real>,
    purpose: Option<string>,
    bedroom: Option<int>,
    added: Option<int>,
    url: Option<string>,
    cityId: Option<int>)

  /** The arguments of `getWhereClause`; `None` is `undefined`. */
  datatype WhereParams = WhereParams(
    city: Option<string>,
    locationIds: Option<string>,
    areaMin: Option<string>,
    areaMax: Option<string>,
    priceMin: Option<string>,
    priceMax: Option<string>,
    bedrooms: Option<string>,
    startDate: Option<string>,
    endDate: Option<string>,
    purpose: string,
    propertyType: Option<string>)

  /** JavaScript truthiness of an optional string: defined and not "". */
  predicate Truthy(v: Option<string>) {
    v.Some? && v.value != ""
  }

  /** `{ [Op.gte]: min, [Op.lte]: max }` with either side possibly missing. */
  datatype Bounds = Bounds(gte: Option<string>, lte: Option<string>)

  /** The `price` key: the initial `> 0`, or the range that replaces it. */
  datatype PriceConstraint = Positive | PriceWithin(bounds: Bounds)

  datatype Where = Where(
    purpose: string,
    price: PriceConstraint,
    types: Option<seq<string>>,
    locationIds: Option<seq<Option<real>>>,
    city: Option<Option<int>>,
    area: Option<Bounds>,
    bedrooms: Option<seq<Option<real>>>,
    added: Option<Bounds>)

  /** `(min || max) && { ...(min && { gte: min }), ...(max && { lte: max }) }`. */
  function RangeOf(min: Option<string>, max: Option<string>): (b: Option<Bounds>)
    ensures b.Some? <==> Truthy(min) || Truthy(max)
    ensures b.Some? ==> (b.value.gte.Some? <==> Truthy(min)) && (b.value.lte.Some? <==> Truthy(max))
    ensures b.Some? && b.value.gte.Some? ==> b.value.gte == min
    ensures b.Some? && b.value.lte.Some? ==> b.value.lte == max
  {
    if Truthy(min) || Truthy(max) then
      Some(Bounds(if Truthy(min) then min else None, if Truthy(max) then max else None))
    else
      None
  }

  /** `splitAndTrimString(s).map(Number)`; `None` entries are NaN. */
  function NumberList(s: Option<string>): (r: seq<Option<real>>)
    ensures |r| == |SplitAndTrim(s, None)|
    ensures forall i :: 0 <= i < |r| ==> r[i] == ToNumber(SplitAndTrim(s, None)[i])
  {
    var pieces := SplitAndTrim(s, None);
    seq(|pieces|, i requires 0 <= i < |pieces| => ToNumber(pieces[i]))
  }

  /** `getWhereClause`, given what `findCityId(city)` returned. */
  function BuildWhere(p: WhereParams, cityId: Option<int>): (w: Where)
    ensures w.purpose == p.purpose
  {
    Where(
      p.purpose,
      if Truthy(p.priceMin) || Truthy(p.priceMax) then PriceWithin(RangeOf(p.priceMin, p.priceMax).value) else Positive,
      if Truthy(p.propertyType) then Some(SplitAndTrim(p.propertyType, None)) else None,
      if Truthy(p.locationIds) then Some(NumberList(p.locationIds)) else None,
      if Truthy(p.city) then Some(cityId) else None,
      RangeOf(p.areaMin, p.areaMax),
      if Truthy(p.bedrooms) then Some(NumberList(p.bedrooms)) else None,
      RangeOf(p.startDate, p.endDate))
  }

  /** `findCityId`: no lookup for a falsy city; otherwise the id found, or null. */
  function FindCityId(city: Option<string>, lookup: string -> Option<int>): (r: Option<int>)
    ensures !Truthy(city) ==> r.None?
  {
    if Truthy(city) then lookup(city.value) else None
  }

  /** The clause of `findAllProperties`: positive price, the purpose, and the city if given. */
  function FindAllWhere(purpose: string, city: Option<string>, cityId: Option<int>): (w: Where)
    ensures w.price == Positive && w.types.None? && w.area.None? && w.added.None?
  {
    Where(purpose, Positive, None, None, if Truthy(city) then Some(cityId) else None, None, None, None)
  }

  /** The clause of `getPropertiesCountMap`: `property_type` is not passed on. */
  function CountWhere(p: WhereParams, cityId: Option<int>): (w: Where)
    ensures w.types.None?
  {
    BuildWhere(p.(propertyType := None), cityId)
  }

  // ------------------------------------------------------------ semantics

  /** The labels of the `purpose` enum (src/migrations/20240715121921-create-properties.js). */
  const PurposeLabels: seq<string> := ["for_sale", "for_rent"]

  /** Postgres reads every bound given for a `double precision` column. */
  predicate BoundsReadable(b: Bounds) {
    && (b.gte.Some? ==> Float8(b.gte.value).Some?)
    && (b.lte.Some? ==> Float8(b.lte.value).Some?)
  }

  /** Postgres reads every bound given for the `added` timestamp. */
  predicate TimesReadable(b: Bounds, timeOf: string -> Option<int>) {
    && (b.gte.Some? ==> timeOf(b.gte.value).Some?)
    && (b.lte.Some? ==> timeOf(b.lte.value).Some?)
  }

  /** No `NaN` in an `IN` list: Sequelize writes it unquoted, and Postgres reads it as a missing column. */
  predicate NoNaN(list: seq<Option<real>>) {
    forall i :: 0 <= i < |list| ==> list[i].Some?
  }

  /**
   * Postgres can read every literal of the clause: the purpose and the types
   * are labels of their enums, the `IN` lists hold numbers, and every range
   * bound is a number or a timestamp.  Otherwise the query is refused.
   */
  predicate Readable(w: Where, timeOf: string -> Option<int>) {
    && w.purpose in PurposeLabels
    && (w.types.Some? ==> forall i :: 0 <= i < |w.types.value| ==> ParseType(w.types.value[i]).Some?)
    && (w.locationIds.Some? ==> NoNaN(w.locationIds.value))
    && (w.bedrooms.Some? ==> NoNaN(w.bedrooms.value))
    && (w.price.PriceWithin? ==> BoundsReadable(w.price.bounds))
    && (w.area.Some? ==> BoundsReadable(w.area.value))
    && (w.added.Some? ==> TimesReadable(w.added.value, timeOf))
  }

  /** SQL comparison of a nullable column with the bounds: NULL satisfies no bound. */
  predicate WithinReal(v: Option<real>, b: Bounds) {
    && v.Some?
    && (b.gte.Some? ==> Float8(b.gte.value).Some? && v.value >= Float8(b.gte.value).value)
    && (b.lte.Some? ==> Float8(b.lte.value).Some? && v.value <= Float8(b.lte.value).value)
  }

  predicate WithinTime(v: Option<int>, b: Bounds, timeOf: string -> Option<int>) {
    && v.Some?
    && (b.gte.Some? ==> timeOf(b.gte.value).Some? && v.value >= timeOf(b.gte.value).value)
    && (b.lte.Some? ==> timeOf(b.lte.value).Some? && v.value <= timeOf(b.lte.value).value)
  }

  /** `column IN (...)` for an integer column against converted numbers. */
  predicate InNumbers(v: Option<int>, list: seq<Option<real>>) {
    v.Some? && Some(v.value as real) in list
  }

  /** Whether a row satisfies a readable clause, as Postgres evaluates it. */
  predicate Matches(r: Property, w: Where, timeOf: string -> Option<int>)
    ensures Matches(r, w, timeOf) ==> r.purpose == Some(w.purpose)
  {
    && r.purpose == Some(w.purpose)
    && (match w.price
        case Positive => r.price.Some? && r.price.value > 0.0
        case PriceWithin(b) => WithinReal(r.price, b))
    && (w.types.Some? ==> r.propertyType.Some? && r.propertyType.value in w.types.value)
    && (w.locationIds.Some? ==> InNumbers(r.locationId, w.locationIds.value))
    && (w.city.Some? ==> r.cityId == w.city.value)
    && (w.area.Some? ==> WithinReal(r.area, w.area.value))
    && (w.bedrooms.Some? ==> InNumbers(r.bedroom, w.bedrooms.value))
    && (w.added.Some? ==> WithinTime(r.added, w.added.value, timeOf))
  }

  // --------------------------------------------------------------- lemmas

  /** `price > 0` survives exactly when neither price bound is supplied; a bound replaces it. */
  lemma PricePositiveUnlessBounded(p: WhereParams, cityId: Option<int>)
    ensures BuildWhere(p, cityId).price == Positive <==> !Truthy(p.priceMin) && !Truthy(p.priceMax)
    ensures var w := BuildWhere(p, cityId);
      w.price.PriceWithin? ==> Some(w.price.bounds) == RangeOf(p.priceMin, p.priceMax)
  {
  }

  /** The `IN` filters are present exactly for non-empty parameters and hold the trimmed pieces. */
  lemma InFiltersPresence(p: WhereParams, cityId: Option<int>)
    ensures var w := BuildWhere(p, cityId);
      && (w.types.Some? <==> Truthy(p.propertyType))
      && (w.types.Some? ==> w.types.value == SplitAndTrim(p.propertyType, None))
      && (w.locationIds.Some? <==> Truthy(p.locationIds))
      && (w.bedrooms.Some? <==> Truthy(p.bedrooms))
  {
  }

  /** A city constraint is present exactly when a city is given, and it holds the looked-up id. */
  lemma CityConstraintPresence(p: WhereParams, cityId: Option<int>)
    ensures var w := BuildWhere(p, cityId);
      (w.city.Some? <==> Truthy(p.city)) && (w.city.Some? ==> w.city.value == cityId)
  {
  }

  /** A matching row always has the requested purpose. */
  lemma MatchesFixesPurpose(r: Property, p: WhereParams, cityId: Option<int>, timeOf: string -> Option<int>)
    requires Matches(r, BuildWhere(p, cityId), timeOf)
    ensures r.purpose == Some(p.purpose)
  {
  }

  /** With no optional filter, a row matches exactly when it has the purpose and a positive price. */
  lemma UnfilteredClause(r: Property, purpose: string, cityId: Option<int>, timeOf: string -> Option<int>)
    ensures var p := WhereParams(None, None, None, None, None, None, None, None, None, purpose, None);
      Matches(r, BuildWhere(p, cityId), timeOf) <==> r.purpose == Some(purpose) && r.price.Some? && r.price.value > 0.0
  {
  }

  /** `findAllProperties` builds the same clause `getWhereClause` would from purpose and city alone. */
  lemma FindAllIsBuildWhere(purpose: string, city: Option<string>, cityId: Option<int>)
    ensures FindAllWhere(purpose, city, cityId) ==
      BuildWhere(WhereParams(city, None, None, None, None, None, None, None, None, purpose, None), cityId)
  {
  }

  /** An explicit `price_min=0` replaces `price > 0`, so a free listing matches. */
  lemma ZeroPriceMinAdmitsFree(r: Property, purpose: string, cityId: Option<int>, timeOf: string -> Option<int>)
    requires r.purpose == Some(purpose) && r.price == Some(0.0)
    ensures var p := WhereParams(None, None, None, None, Some("0"), None, None, None, None, purpose, None);
      Matches(r, BuildWhere(p, cityId), timeOf)
  {
    ZeroIsReadable();
    var p := WhereParams(None, None, None, None, Some("0"), None, None, None, None, purpose, None);
    assert BuildWhere(p, cityId) == Where(purpose, PriceWithin(Bounds(Some("0"), None)), None, None, None, None, None, None);
  }

  /** Postgres reads `'0'` as zero. */
  lemma ZeroIsReadable()
    ensures Float8("0") == Some(0.0)
  {
    assert SkipTrailing(SkipLeading("0")) == "0" by {
      assert !IsCSpace('0');
      assert SkipLeading("0") == "0";
    }
    assert ParseTrimmed("0") == Some(0.0) by {
      assert '.' !in "0" && AllDigits("0");
      assert DigitsValue("0") == 0;
    }
  }

  /** When the city is unknown the lookup gives null, and only rows without a city match. */
  lemma UnknownCityMatchesCityless(r: Property, p: WhereParams, timeOf: string -> Option<int>)
    requires Truthy(p.city)
    requires Matches(r, BuildWhere(p, None), timeOf)
    ensures r.cityId.None?
  {
  }

  /** The count clause only drops the type filter, so it admits every row the search admits. */
  lemma CountWhereWidens(r: Property, p: WhereParams, cityId: Option<int>, timeOf: string -> Option<int>)
    requires Matches(r, BuildWhere(p, cityId), timeOf)
    ensures Matches(r, CountWhere(p, cityId), timeOf)
  {
  }

  /** A supplied area minimum excludes rows below it and rows without an area. */
  lemma AreaMinimumHolds(r: Property, p: WhereParams, cityId: Option<int>, timeOf: string -> Option<int>)
    requires Truthy(p.areaMin) && Matches(r, BuildWhere(p, cityId), timeOf)
    ensures r.area.Some? && Float8(p.areaMin.value).Some? && r.area.value >= Float8(p.areaMin.value).value
  {
  }

  /**
   * A blank `price_min`, which the search-filter middleware lets through as
   * 0, makes the clause unreadable: Postgres refuses `price >= ' '`.
   */
  lemma BlankPriceMinRefused(p: WhereParams, cityId: Option<int>, timeOf: string -> Option<int>)
    requires p.priceMin.Some? && p.priceMin.value != "" && AllCSpace(p.priceMin.value)
    ensures !Readable(BuildWhere(p, cityId), timeOf)
  {
    var w := BuildWhere(p, cityId);
    assert w.price.PriceWithin? && w.price.bounds.gte == p.priceMin;
  }

  /** A purpose that is not a label of the enum makes every clause unreadable. */
  lemma UnknownPurposeRefused(p: WhereParams, cityId: Option<int>, timeOf: string -> Option<int>)
    requires p.purpose !in PurposeLabels
    ensures !Readable(BuildWhere(p, cityId), timeOf)
  {
  }

  /**
   * A `property_type` piece that is not a label of the `type` enum, such as
   * the empty piece of `"house,"`, makes the clause unreadable.
   */
  lemma UnknownTypeRefused(p: WhereParams, cityId: Option<int>, timeOf: string -> Option<int>, i: nat)
    requires Truthy(p.propertyType)
    requires i < |SplitAndTrim(p.propertyType, None)| && ParseType(SplitAndTrim(p.propertyType, None)[i]).None?
    ensures !Readable(BuildWhere(p, cityId), timeOf)
  {
    var w := BuildWhere(p, cityId);
    assert w.types == Some(SplitAndTrim(p.propertyType, None));
    assert ParseType(w.types.value[i]).None?;
  }

  /** A `location_ids` piece that `Number` reads as NaN makes the clause unreadable. */
  lemma NaNLocationRefused(p: WhereParams, cityId: Option<int>, timeOf: string -> Option<int>, i: nat)
    requires Truthy(p.locationIds)
    requires i < |SplitAndTrim(p.locationIds, None)| && ToNumber(SplitAndTrim(p.locationIds, None)[i]).None?
    ensures !Readable(BuildWhere(p, cityId), timeOf)
  {
    var w := BuildWhere(p, cityId);
    assert w.locationIds == Some(NumberList(p.locationIds));
    assert w.locationIds.value[i].None?;
  }

  /** The clause of `findAllProperties` is readable exactly when its purpose is a label. */
  lemma FindAllWhereReadable(purpose: string, city: Option<string>, cityId: Option<int>, timeOf: string -> Option<int>)
    ensures Readable(FindAllWhere(purpose, city, cityId), timeOf) <==> purpose in PurposeLabels
  {
  }

  /** Bounds written as decimal literals are readable and are compared by their values. */
  lemma LiteralBoundsReadable(v: Option<real>, lo: Literal, hi: Literal)
    requires lo.Valid() && hi.Valid()
    ensures var b := Bounds(Some(lo.Text()), Some(hi.Text()));
      && BoundsReadable(b)
      && (WithinReal(v, b) <==> v.Some? && lo.Value() <= v.value <= hi.Value())
  {
    Float8OfLiteral(lo);
    Float8OfLiteral(hi);
  }
}

=== FILE: numbers.dfy ===
/**
 * JavaScript's `Number(string)` conversion, abstracted to plain decimal
 * literals, and the `isInvalidNumber` helper (src/utils/validation.helpers.ts)
 * that every numeric query parameter goes through.
 *
 * `ToNumber` accepts, after JavaScript `trim`, the empty string (which
 * converts to 0) and `[+|-](digits[.digits] | digits. | .digits)`; every
 * other string converts to NaN, written `None`.  Values are exact reals.
 */
module Numbers {
  import opened Wrappers
  import opened Strings

  predicate IsDigit(c: char) {
    '0' <= c <= '9'
  }

  predicate AllDigits(s: string) {
    forall i :: 0 <= i < |s| ==> IsDigit(s[i])
  }

  /** The value of a string of decimal digits ("" counts as 0). */
  function DigitsValue(s: string): nat
    requires AllDigits(s)
  {
    if |s| == 0 then 0
    else DigitsValue(s[..|s| - 1]) * 10 + (s[|s| - 1] as int - '0' as int)
  }

  function Pow10(n: nat): (p: nat)
    ensures p >= 1
  {
    if n == 0 then 1 else 10 * Pow10(n - 1)
  }

  /** Position of the first `c` in `s`. */
  function IndexOf(s: string, c: char): (k: nat)
    requires c in s
    ensures k < |s| && s[k] == c
    ensures forall j :: 0 <= j < k ==> s[j] != c
  {
    if s[0] == c then 0
    else
      assert c in s[1..] by {
        var j :| 0 <= j < |s| && s[j] == c;
        assert s[1..][j - 1] == c;
      }
      IndexOf(s[1..], c) + 1
  }

  /** The value of `whole.frac`: the whole part plus the scaled fraction. */
  function PointValue(whole: string, frac: string): real
    requires AllDigits(whole) && AllDigits(frac)
  {
    DigitsValue(whole) as real + DigitsValue(frac) as real / Pow10(|frac|) as real
  }

  /** The magnitude of an unsigned literal `whole[.frac]`, or `None` (NaN). */
  function UnsignedDecimal(t: string): Option<real>
  {
    if '.' !in t then
      if |t| > 0 && AllDigits(t) then Some(DigitsValue(t) as real) else None
    else
      var k := IndexOf(t, '.');
      var whole, frac := t[..k], t[k + 1..];
      if AllDigits(whole) && AllDigits(frac) && |whole| + |frac| > 0 then
        Some(PointValue(whole, frac))
      else
        None
  }

  /** JavaScript `Number(s)` on plain decimal literals; `None` is NaN. */
  function ToNumber(s: string): Option<real>
  {
    ParseTrimmed(Trim(s))
  }

  /** The conversion proper, on an already trimmed string. */
  function ParseTrimmed(t: string): Option<real>
  {
    if |t| == 0 then Some(0.0)
    else if t[0] == '-' then
      match UnsignedDecimal(t[1..])
      case Some(v) => Some(-v)
      case None => None
    else if t[0] == '+' then UnsignedDecimal(t[1..])
    else UnsignedDecimal(t)
  }

  /** `isInvalidNumber(value)`: `Number(value)` is NaN or below zero. */
  predicate IsInvalidNumber(s: string) {
    ToNumber(s).None? || ToNumber(s).value < 0.0
  }

  /*
   * An independent description of the accepted literals: a sign, the digits
   * before the point, and optionally a point followed by more digits.
   */
  datatype Literal = Literal(negative: bool, whole: string, frac: Option<string>)
  {
    ghost predicate Valid() {
      && AllDigits(whole)
      && (frac.Some? ==> AllDigits(frac.value))
      && |whole| + |frac.GetOr("")| > 0
    }

    function Text(): string {
      (if negative then "-" else "") + whole + (if frac.Some? then "." + frac.value else "")
    }

    ghost function Magnitude(): real
      requires Valid()
    {
      PointValue(whole, frac.GetOr(""))
    }

    ghost function Value(): real
      requires Valid()
    {
      if negative then -Magnitude() else Magnitude()
    }
  }

  lemma DigitsValueZero(s: string)
    requires AllDigits(s)
    ensures DigitsValue(s) == 0 <==> forall i :: 0 <= i < |s| ==> s[i] == '0'
  {
    if |s| > 0 {
      DigitsValueZero(s[..|s| - 1]);
      assert forall i :: 0 <= i < |s| - 1 ==> s[..|s| - 1][i] == s[i];
    }
  }

  lemma {:induction false} UnsignedRoundTrip(lit: Literal)
    requires lit.Valid() && !lit.negative
    ensures UnsignedDecimal(lit.Text()) == Some(lit.Magnitude())
  {
    if lit.frac.None? {
      var w := lit.whole;
      assert lit.Text() == w by {
        assert lit.Text() == "" + w + "";
      }
      assert lit.Magnitude() == PointValue(w, "");
      assert PointValue(w, "") == DigitsValue(w) as real by {
        assert DigitsValue("") == 0 && Pow10(0) == 1;
      }
      UnsignedOfWhole(w);
    } else {
      var w, f := lit.whole, lit.frac.value;
      assert lit.Text() == w + ("." + f) by {
        assert lit.Text() == "" + w + ("." + f);
      }
      assert lit.Magnitude() == PointValue(w, f);
      UnsignedOfPoint(w, f);
    }
  }

  /** In digits, the point and more digits, the first point follows the digits. */
  lemma PointAfterDigits(w: string, f: string) returns (k: nat)
    requires AllDigits(w)
    ensures '.' in w + ("." + f) && k == IndexOf(w + ("." + f), '.') && k == |w|
  {
    var t := w + ("." + f);
    assert t[|w|] == '.';
    k := IndexOf(t, '.');
    assert forall j :: 0 <= j < |w| ==> t[j] == w[j] && t[j] != '.';
  }

  /** Digits alone read as their value. */
  lemma UnsignedOfWhole(w: string)
    requires AllDigits(w) && |w| > 0
    ensures UnsignedDecimal(w) == Some(DigitsValue(w) as real)
  {
    assert forall j :: 0 <= j < |w| ==> w[j] != '.';
  }

  /** Digits, the point and digits read as the whole part plus the scaled fraction. */
  lemma UnsignedOfPoint(w: string, f: string)
    requires AllDigits(w) && AllDigits(f) && |w| + |f| > 0
    ensures UnsignedDecimal(w + ("." + f)) ==
      Some(PointValue(w, f))
  {
    var t := w + ("." + f);
    var k := PointAfterDigits(w, f);
    assert t[..k] == w;
    assert t[k + 1..] == f;
    UnsignedAtPoint(t, k);
  }

  /** With digits around its first point, a literal reads as the whole part plus the scaled fraction. */
  lemma UnsignedAtPoint(t: string, k: nat)
    requires '.' in t && k == IndexOf(t, '.')
    requires AllDigits(t[..k]) && AllDigits(t[k + 1..]) && |t[..k]| + |t[k + 1..]| > 0
    ensures UnsignedDecimal(t) == Some(PointValue(t[..k], t[k + 1..]))
  {
  }

  /** Every rendered literal converts back to exactly its value. */
  lemma {:induction false} LiteralRoundTrip(lit: Literal)
    requires lit.Valid()
    ensures ToNumber(lit.Text()) == Some(lit.Value())
  {
    var t := lit.Text();
    LiteralTrimmed(lit);
    if lit.negative {
      var body := Literal(false, lit.whole, lit.frac);
      UnsignedRoundTrip(body);
      assert t == "-" + body.Text();
      assert t[1..] == body.Text();
      assert body.Magnitude() == lit.Magnitude();
      ParseSigned(t, body.Magnitude());
    } else {
      UnsignedRoundTrip(lit);
      LiteralEnds(lit);
      ParseUnsigned(t, lit.Magnitude());
    }
  }

  /** A non-negative literal written with a leading `+` converts to its value too. */
  lemma PlusLiteralRoundTrip(lit: Literal)
    requires lit.Valid() && !lit.negative
    ensures ToNumber("+" + lit.Text()) == Some(lit.Value())
  {
    var b := lit.Text();
    var t := "+" + b;
    UnsignedRoundTrip(lit);
    LiteralEnds(lit);
    assert t[|t| - 1] == b[|b| - 1];
    NotSpace(t[0]);
    NotSpace(t[|t| - 1]);
    TrimOfTrimmed(t);
    assert t[1..] == b;
  }

  /**
   * The converse of the round trips: a string that converts to a number is
   * blank, or after trimming is the text of a decimal literal, possibly
   * after a `+`, and its value is that literal's value.  So "1.2.3", ".",
   * "-", "1-2" and "+-1" are all NaN.
   */
  lemma ToNumberIsLiteral(s: string) returns (lit: Literal)
    requires ToNumber(s).Some? && !AllSpace(s)
    ensures lit.Valid()
    ensures Trim(s) == lit.Text() || (!lit.negative && Trim(s) == "+" + lit.Text())
    ensures ToNumber(s) == Some(lit.Value())
  {
    TrimFacts(s);
    lit := SignedLiteral(Trim(s));
  }

  lemma SignedLiteral(t: string) returns (lit: Literal)
    requires |t| > 0 && ParseTrimmed(t).Some?
    ensures lit.Valid()
    ensures t == lit.Text() || (!lit.negative && t == "+" + lit.Text())
    ensures ParseTrimmed(t) == Some(lit.Value())
  {
    if t[0] == '-' {
      var u := UnsignedLiteral(t[1..]);
      assert ParseTrimmed(t) == Some(-u.Magnitude());
      lit := Negated(u);
      assert t == "-" + t[1..];
    } else if t[0] == '+' {
      lit := UnsignedLiteral(t[1..]);
      assert t == "+" + t[1..];
    } else {
      lit := UnsignedLiteral(t);
    }
  }

  /** The same digits with a leading minus sign. */
  lemma Negated(u: Literal) returns (lit: Literal)
    requires u.Valid() && !u.negative
    ensures lit.Valid() && lit.negative
    ensures lit.Text() == "-" + u.Text() && lit.Value() == -u.Magnitude()
  {
    lit := Literal(true, u.whole, u.frac);
    assert lit.Magnitude() == u.Magnitude();
  }

  /** A string the unsigned reading accepts is the text of a literal with that magnitude. */
  lemma UnsignedLiteral(u: string) returns (lit: Literal)
    requires UnsignedDecimal(u).Some?
    ensures lit.Valid() && !lit.negative && lit.Text() == u
    ensures UnsignedDecimal(u) == Some(lit.Magnitude())
  {
    if '.' !in u {
      lit := WholeLiteral(u);
    } else {
      var k := IndexOf(u, '.');
      var whole, frac := u[..k], u[k + 1..];
      assert AllDigits(whole) && AllDigits(frac) && |whole| + |frac| > 0;
      assert UnsignedDecimal(u) == Some(PointValue(whole, frac));
      assert u == whole + ("." + frac) by {
        assert u == u[..k] + [u[k]] + u[k + 1..];
      }
      lit := PointLiteral(whole, frac);
    }
  }

  lemma WholeLiteral(u: string) returns (lit: Literal)
    requires '.' !in u && UnsignedDecimal(u).Some?
    ensures lit.Valid() && !lit.negative && lit.Text() == u
    ensures UnsignedDecimal(u) == Some(lit.Magnitude())
  {
    assert |u| > 0 && AllDigits(u);
    lit := Literal(false, u, None);
    assert lit.Text() == "" + u + "";
    assert DigitsValue("") == 0 && Pow10(0) == 1;
  }

  lemma PointLiteral(whole: string, frac: string) returns (lit: Literal)
    requires AllDigits(whole) && AllDigits(frac) && |whole| + |frac| > 0
    ensures lit.Valid() && !lit.negative && lit.Text() == whole + ("." + frac)
    ensures lit.Magnitude() == PointValue(whole, frac)
  {
    lit := Literal(false, whole, Some(frac));
    assert lit.Text() == "" + whole + ("." + frac);
  }

  /** A rendered literal has no surrounding white space. */
  lemma LiteralTrimmed(lit: Literal)
    requires lit.Valid()
    ensures Trim(lit.Text()) == lit.Text()
  {
    var t := lit.Text();
    var body := Literal(false, lit.whole, lit.frac);
    var b := body.Text();
    assert t == (if lit.negative then "-" else "") + b;
    LiteralEnds(body);
    var first, last := t[0], t[|t| - 1];
    assert first == (if lit.negative then '-' else b[0]);
    assert last == b[|b| - 1];
    NotSpace(first);
    NotSpace(last);
    TrimOfTrimmed(t);
  }

  lemma NotSpace(c: char)
    requires IsDigit(c) || c == '.' || c == '-' || c == '+'
    ensures !IsSpace(c)
  {
  }

  lemma TrimOfTrimmed(t: string)
    requires Trimmed(t)
    ensures Trim(t) == t
  {
    assert "" + t + "" == t;
    TrimUnique("", t, "");
  }

  lemma ParseSigned(t: string, m: real)
    requires |t| > 0 && t[0] == '-' && UnsignedDecimal(t[1..]) == Some(m)
    ensures ParseTrimmed(t) == Some(-m)
  {
  }

  lemma ParseUnsigned(t: string, m: real)
    requires |t| > 0 && (IsDigit(t[0]) || t[0] == '.') && UnsignedDecimal(t) == Some(m)
    ensures ParseTrimmed(t) == Some(m)
  {
  }

  /** An unsigned literal starts and ends with a digit or the point. */
  lemma LiteralEnds(lit: Literal)
    requires lit.Valid() && !lit.negative
    ensures var b := lit.Text();
      && |b| > 0
      && (IsDigit(b[0]) || b[0] == '.')
      && (IsDigit(b[|b| - 1]) || b[|b| - 1] == '.')
  {
    var b := lit.Text();
    if lit.frac.Some? {
      var f := lit.frac.value;
      assert b == lit.whole + ("." + f);
      if |f| > 0 {
        assert b[|b| - 1] == f[|f| - 1];
      }
    } else {
      assert b == lit.whole;
    }
  }

  lemma FractionBounds(a: nat, b: nat)
    requires b >= 1
    ensures a as real / b as real >= 0.0
    ensures a > 0 ==> a as real / b as real > 0.0
  {
  }

  /** A non-negative literal, integral or decimal, is never an invalid number. */
  lemma NonNegativeLiteralValid(lit: Literal)
    requires lit.Valid() && !lit.negative
    ensures !IsInvalidNumber(lit.Text())
  {
    LiteralRoundTrip(lit);
    var f := lit.frac.GetOr("");
    FractionBounds(DigitsValue(f), Pow10(|f|));
  }

  /**
   * A minus sign makes a literal invalid exactly when some digit is non-zero:
   * `"-1"` is rejected but `"-0"` and `"-0.0"` convert to -0, which is not below zero.
   */
  lemma NegativeLiteralInvalid(lit: Literal)
    requires lit.Valid() && lit.negative
    ensures IsInvalidNumber(lit.Text()) <==>
      (exists i :: 0 <= i < |lit.whole| && lit.whole[i] != '0') ||
      (lit.frac.Some? && exists i :: 0 <= i < |lit.frac.value| && lit.frac.value[i] != '0')
  {
    LiteralRoundTrip(lit);
    var f := lit.frac.GetOr("");
    assert IsInvalidNumber(lit.Text()) <==> lit.Magnitude() > 0.0;
    MagnitudePositive(lit);
    DigitsValueZero(lit.whole);
    DigitsValueZero(f);
  }

  lemma MagnitudePositive(lit: Literal)
    requires lit.Valid()
    ensures lit.Magnitude() > 0.0 <==> DigitsValue(lit.whole) > 0 || DigitsValue(lit.frac.GetOr("")) > 0
  {
    var f := lit.frac.GetOr("");
    FractionBounds(DigitsValue(f), Pow10(|f|));
  }

  /** The empty string and any run of white space convert to 0, so they are valid. */
  lemma BlankIsZero(s: string)
    requires AllSpace(s)
    ensures ToNumber(s) == Some(0.0)
    ensures !IsInvalidNumber(s)
  {
    TrimFacts(s);
  }

  /** A character outside digits, point and signs (after trimming) makes the value NaN. */
  lemma {:induction false} ForeignCharIsNaN(s: string, i: nat)
    requires i < |Trim(s)|
    requires var c := Trim(s)[i]; !IsDigit(c) && c != '.' && c != '+' && c != '-'
    ensures ToNumber(s).None?
    ensures IsInvalidNumber(s)
  {
    var t := Trim(s);
    var body := if t[0] == '-' || t[0] == '+' then t[1..] else t;
    assert t[i] in body by {
      if t[0] == '-' || t[0] == '+' {
        assert i > 0;
        assert body[i - 1] == t[i];
      }
    }
    UnsignedOnlyDigitsAndPoint(body, t[i]);
  }

  lemma UnsignedOnlyDigitsAndPoint(t: string, c: char)
    requires c in t && !IsDigit(c) && c != '.'
    ensures UnsignedDecimal(t).None?
  {
    var j :| 0 <= j < |t| && t[j] == c;
    if '.' in t {
      var k := IndexOf(t, '.');
      if j < k {
        assert t[..k][j] == c;
      } else {
        assert j > k;
        assert t[k + 1..][j - k - 1] == c;
      }
    }
  }

  /** `"-1"` is invalid, as the pagination test with `page_size=-1` expects. */
  lemma MinusOneInvalid()
    ensures IsInvalidNumber("-1")
  {
    var lit := Literal(true, "1", None);
    assert lit.Text() == "-1";
    NegativeLiteralInvalid(lit);
    assert lit.whole[0] != '0';
  }

  /** `"-0"` converts to negative zero, which is not below zero. */
  lemma MinusZeroValid()
    ensures !IsInvalidNumber("-0")
  {
    var lit := Literal(true, "0", None);
    assert lit.Text() == "-0";
    NegativeLiteralInvalid(lit);
  }

  /** A word is NaN. */
  lemma WordInvalid()
    ensures IsInvalidNumber("abc")
  {
    TrimOfTrimmed("abc");
    ForeignCharIsNaN("abc", 0);
  }
}

=== FILE: ordering.dfy ===
/**
 * `ORDER BY` over property rows, as Postgres evaluates it: a list of
 * (column, direction) pairs compared lexicographically, where NULL sorts
 * after every value in ascending order and before every value in
 * descending order (the NULLS LAST / NULLS FIRST defaults).
 *
 * Rows that compare equal on every listed column may come back in any
 * order; `IsOrdering` says what every admissible answer satisfies and
 * `SortRows` computes one of them.
 */
module Ordering {
  import opened Wrappers
  import opened Pagination
  import opened Filters

  /** The numeric columns the service and the ranking view sort on. */
  datatype Column = PriceColumn | IdColumn | AreaColumn | BathColumn | BedroomColumn | LocationColumn

  type OrderBy = seq<(Column, SortDirection)>

  function ColumnValue(p: Property, c: Column): Option<real> {
    match c
    case PriceColumn => p.price
    case IdColumn => Some(p.id as real)
    case AreaColumn => p.area
    case BathColumn => if p.bath.Some? then Some(p.bath.value as real) else None
    case BedroomColumn => if p.bedroom.Some? then Some(p.bedroom.value as real) else None
    case LocationColumn => if p.locationId.Some? then Some(p.locationId.value as real) else None
  }

  /** The `sorting_order` of a request, as columns of the table. */
  function FromSortingOrder(order: SortingOrder): (ob: OrderBy)
    ensures |ob| == |order|
    ensures forall i :: 0 <= i < |ob| ==> ob[i].1 == order[i].1
  {
    seq(|order|, i requires 0 <= i < |order| => (if order[i].0 == Price then PriceColumn else IdColumn, order[i].1))
  }

  /** Ascending comparison of nullable values, NULL largest: -1, 0 or 1. */
  function CompareValues(a: Option<real>, b: Option<real>): int {
    match (a, b)
    case (None, None) => 0
    case (None, Some(_)) => 1
    case (Some(_), None) => -1
    case (Some(x), Some(y)) => if x < y then -1 else if x > y then 1 else 0
  }

  /** One `column direction` item: descending reverses the ascending comparison. */
  function CompareBy(a: Property, b: Property, item: (Column, SortDirection)): int {
    var x, y := ColumnValue(a, item.0), ColumnValue(b, item.0);
    if item.1 == Asc then CompareValues(x, y) else CompareValues(y, x)
  }

  /** Lexicographic comparison over the whole `ORDER BY` list. */
  function CompareRows(a: Property, b: Property, ob: OrderBy): int {
    if |ob| == 0 then 0
    else
      var c := CompareBy(a, b, ob[0]);
      if c != 0 then c else CompareRows(a, b, ob[1..])
  }

  predicate RowLe(a: Property, b: Property, ob: OrderBy) {
    CompareRows(a, b, ob) <= 0
  }

  predicate Sorted(rows: seq<Property>, ob: OrderBy) {
    forall i, j :: 0 <= i < j < |rows| ==> RowLe(rows[i], rows[j], ob)
  }

  /** An admissible answer of `ORDER BY ob` over `rows`: the same rows, sorted. */
  predicate IsOrdering(result: seq<Property>, rows: seq<Property>, ob: OrderBy) {
    multiset(result) == multiset(rows) && Sorted(result, ob)
  }

  // ------------------------------------------------- comparison is a total preorder

  lemma CompareValuesFlip(a: Option<real>, b: Option<real>)
    ensures CompareValues(a, b) == -CompareValues(b, a)
  {
  }

  lemma CompareValuesTrans(a: Option<real>, b: Option<real>, c: Option<real>)
    ensures CompareValues(a, b) <= 0 && CompareValues(b, c) <= 0 ==> CompareValues(a, c) <= 0
    ensures CompareValues(a, b) == 0 && CompareValues(b, c) == 0 ==> CompareValues(a, c) == 0
    ensures CompareValues(a, b) < 0 && CompareValues(b, c) <= 0 ==> CompareValues(a, c) < 0
    ensures CompareValues(a, b) <= 0 && CompareValues(b, c) < 0 ==> CompareValues(a, c) < 0
  {
  }

  /** Swapping the rows negates the comparison, so any two rows are comparable. */
  lemma {:induction false} CompareRowsFlip(a: Property, b: Property, ob: OrderBy)
    ensures CompareRows(a, b, ob) == -CompareRows(b, a, ob)
  {
    if |ob| > 0 {
      var x, y := ColumnValue(a, ob[0].0), ColumnValue(b, ob[0].0);
      CompareValuesFlip(x, y);
      CompareRowsFlip(a, b, ob[1..]);
    }
  }

  lemma {:induction false} CompareRowsTrans(a: Property, b: Property, c: Property, ob: OrderBy)
    requires RowLe(a, b, ob) && RowLe(b, c, ob)
    ensures RowLe(a, c, ob)
    ensures CompareRows(a, b, ob) < 0 || CompareRows(b, c, ob) < 0 ==> CompareRows(a, c, ob) < 0
  {
    if |ob| > 0 {
      var x, y, z := ColumnValue(a, ob[0].0), ColumnValue(b, ob[0].0), ColumnValue(c, ob[0].0);
      if ob[0].1 == Asc {
        CompareValuesTrans(x, y, z);
      } else {
        CompareValuesTrans(z, y, x);
      }
      if CompareBy(a, b, ob[0]) == 0 && CompareBy(b, c, ob[0]) == 0 {
        CompareRowsTrans(a, b, c, ob[1..]);
      }
    }
  }

  lemma RowLeTotal(a: Property, b: Property, ob: OrderBy)
    ensures RowLe(a, b, ob) || RowLe(b, a, ob)
  {
    CompareRowsFlip(a, b, ob);
  }

  // ------------------------------------------------------------ insertion sort

  function InsertRow(x: Property, rows: seq<Property>, ob: OrderBy): (r: seq<Property>)
    ensures |r| == |rows| + 1
    ensures multiset(r) == multiset(rows) + multiset{x}
  {
    if |rows| == 0 then [x]
    else if RowLe(x, rows[0], ob) then [x] + rows
    else
      assert rows == [rows[0]] + rows[1..];
      [rows[0]] + InsertRow(x, rows[1..], ob)
  }

  /** One admissible answer of `ORDER BY`: ties keep the table's order. */
  function SortRows(rows: seq<Property>, ob: OrderBy): (r: seq<Property>)
    ensures multiset(r) == multiset(rows)
  {
    if |rows| == 0 then []
    else
      assert rows == [rows[0]] + rows[1..];
      InsertRow(rows[0], SortRows(rows[1..], ob), ob)
  }

  /** Inserting into a sorted list keeps it sorted. */
  lemma {:induction false} InsertRowSorted(x: Property, rows: seq<Property>, ob: OrderBy)
    requires Sorted(rows, ob)
    ensures Sorted(InsertRow(x, rows, ob), ob)
  {
    if |rows| == 0 {
    } else if RowLe(x, rows[0], ob) {
      forall k | 0 <= k < |rows| ensures RowLe(x, rows[k], ob) {
        if k > 0 {
          CompareRowsTrans(x, rows[0], rows[k], ob);
        }
      }
      ConsSorted(x, rows, ob);
    } else {
      var rest := rows[1..];
      InsertRowSorted(x, rest, ob);
      RowLeTotal(x, rows[0], ob);
      assert forall k :: 0 <= k < |rest| ==> RowLe(rows[0], rest[k], ob) by {
        forall k | 0 <= k < |rest| ensures RowLe(rows[0], rest[k], ob) {
          assert rest[k] == rows[k + 1];
        }
      }
      LowerBoundInsert(rows[0], x, rest, ob);
      ConsSorted(rows[0], InsertRow(x, rest, ob), ob);
    }
  }

  /** A head no greater than every element of a sorted tail gives a sorted list. */
  lemma ConsSorted(h: Property, t: seq<Property>, ob: OrderBy)
    requires Sorted(t, ob)
    requires forall k :: 0 <= k < |t| ==> RowLe(h, t[k], ob)
    ensures Sorted([h] + t, ob)
  {
    var r := [h] + t;
    forall i, j | 0 <= i < j < |r| ensures RowLe(r[i], r[j], ob) {
      if i == 0 {
        assert r[j] == t[j - 1];
      } else {
        assert r[i] == t[i - 1] && r[j] == t[j - 1];
      }
    }
  }

  /** A lower bound of a list and of `x` stays a lower bound after inserting `x`. */
  lemma LowerBoundInsert(h: Property, x: Property, rest: seq<Property>, ob: OrderBy)
    requires RowLe(h, x, ob)
    requires forall k :: 0 <= k < |rest| ==> RowLe(h, rest[k], ob)
    ensures forall k :: 0 <= k < |InsertRow(x, rest, ob)| ==> RowLe(h, InsertRow(x, rest, ob)[k], ob)
  {
    var tail := InsertRow(x, rest, ob);
    forall k | 0 <= k < |tail| ensures RowLe(h, tail[k], ob) {
      assert tail[k] in multiset(tail);
      if tail[k] != x {
        assert tail[k] in multiset(rest);
        var m :| 0 <= m < |rest| && rest[m] == tail[k];
      }
    }
  }

  /** `SortRows` is an admissible answer of `ORDER BY`. */
  lemma {:induction false} SortRowsIsOrdering(rows: seq<Property>, ob: OrderBy)
    ensures IsOrdering(SortRows(rows, ob), rows, ob)
  {
    if |rows| > 0 {
      SortRowsIsOrdering(rows[1..], ob);
      InsertRowSorted(rows[0], SortRows(rows[1..], ob), ob);
    }
  }

  /** Ordering by `id` is total: the admissible answer is unique when ids are distinct. */
  lemma IdOrderStrict(a: Property, b: Property)
    requires a.id != b.id
    ensures CompareRows(a, b, [(IdColumn, Asc)]) != 0
  {
  }
}

=== FILE: pagination.dfy ===
/**
 * Paging and sorting parameters of the listing endpoints:
 * `parseSortParams` (src/utils/pagination.helpers.ts) and the two Express
 * middlewares of src/middlewares/pagination.middleware.ts, modelled as pure
 * transformers of the request's query bag.
 *
 * A query bag maps parameter names to their string values; a name that is
 * not in the map is `undefined` in the request.
 */
module Pagination {
  import opened Wrappers
  import opened Strings
  import opened Numbers

  type Query = map<string, string>

  /** `SORT_COLUMNS`, in declaration order. */
  datatype SortColumn = Price | Id {
    function Name(): string {
      match this
      case Price => "price"
      case Id => "id"
    }
  }

  /** `SORT_ORDER`, in declaration order. */
  datatype SortDirection = Asc | Desc {
    function Name(): string {
      match this
      case Asc => "ASC"
      case Desc => "DESC"
    }
  }

  type SortingOrder = seq<(SortColumn, SortDirection)>

  /** `Object.values(SORT_COLUMNS).includes(s)`, with the member found. */
  function ParseColumn(s: string): (c: Option<SortColumn>)
    ensures c.Some? ==> c.value.Name() == s
  {
    if s == "price" then Some(Price)
    else if s == "id" then Some(Id)
    else None
  }

  /** `Object.values(SORT_ORDER).includes(s)`: exact, case-sensitive match. */
  function ParseDirection(s: string): (d: Option<SortDirection>)
    ensures d.Some? ==> d.value.Name() == s
  {
    if s == "ASC" then Some(Asc)
    else if s == "DESC" then Some(Desc)
    else None
  }

  /** Every column is recognised by its own name. */
  lemma ParseColumnName(col: SortColumn)
    ensures ParseColumn(col.Name()) == Some(col)
  {
  }

  /** Every direction is recognised by its own name. */
  lemma ParseDirectionName(dir: SortDirection)
    ensures ParseDirection(dir.Name()) == Some(dir)
  {
  }

  const CountMismatchMessage: string :=
    "sort_by and sort_order must have the same number of elements"

  function InvalidSortBy(value: string): HttpError {
    HttpError(BadRequest, "Invalid sort_by value \"" + value + "\". Valid values are: price, id")
  }

  function InvalidSortOrder(value: string): HttpError {
    HttpError(BadRequest, "Invalid sort_order value \"" + value + "\". Valid values are: ASC, DESC")
  }

  /** Position `i` is the first one where a column or a direction is not recognised. */
  predicate FirstOffence(cols: seq<string>, dirs: seq<string>, i: nat)
    requires |cols| == |dirs|
  {
    && i < |cols|
    && (forall j :: 0 <= j < i ==> ParseColumn(cols[j]).Some? && ParseDirection(dirs[j]).Some?)
    && (ParseColumn(cols[i]).None? || ParseDirection(dirs[i]).None?)
  }

  /** The error reported for position `i`: the column is checked before the direction. */
  function OffenceError(cols: seq<string>, dirs: seq<string>, i: nat): HttpError
    requires |cols| == |dirs| && i < |cols|
  {
    if ParseColumn(cols[i]).None? then InvalidSortBy(cols[i]) else InvalidSortOrder(dirs[i])
  }

  /** The `sortByArray.map(...)` step: pair the columns with the directions, index by index. */
  function PairUp(cols: seq<string>, dirs: seq<string>): (r: Result<SortingOrder, HttpError>)
    requires |cols| == |dirs|
    ensures r.Success? ==> |r.value| == |cols|
  {
    if |cols| == 0 then Success([])
    else
      match ParseColumn(cols[0])
      case None => Failure(InvalidSortBy(cols[0]))
      case Some(c) =>
        match ParseDirection(dirs[0])
        case None => Failure(InvalidSortOrder(dirs[0]))
        case Some(d) =>
          match PairUp(cols[1..], dirs[1..])
          case Success(rest) => Success([(c, d)] + rest)
          case Failure(e) => Failure(e)
  }

  /** Pairing succeeds exactly when every column and every direction is recognised. */
  lemma {:induction false} PairUpSucceeds(cols: seq<string>, dirs: seq<string>)
    requires |cols| == |dirs|
    ensures PairUp(cols, dirs).Success? <==>
      forall i :: 0 <= i < |cols| ==> ParseColumn(cols[i]).Some? && ParseDirection(dirs[i]).Some?
  {
    if |cols| > 0 {
      PairUpSucceeds(cols[1..], dirs[1..]);
      assert forall i :: 1 <= i < |cols| ==> cols[i] == cols[1..][i - 1] && dirs[i] == dirs[1..][i - 1];
    }
  }

  /** On success pair `i` names the `i`-th column and the `i`-th direction. */
  lemma {:induction false} PairUpNames(cols: seq<string>, dirs: seq<string>)
    requires |cols| == |dirs| && PairUp(cols, dirs).Success?
    ensures var r := PairUp(cols, dirs).value;
      forall i :: 0 <= i < |cols| ==> r[i].0.Name() == cols[i] && r[i].1.Name() == dirs[i]
  {
    if |cols| > 0 {
      PairUpNames(cols[1..], dirs[1..]);
      var r := PairUp(cols, dirs).value;
      var rest := PairUp(cols[1..], dirs[1..]).value;
      assert r == [r[0]] + rest;
      assert forall i :: 1 <= i < |cols| ==> r[i] == rest[i - 1] && cols[i] == cols[1..][i - 1] && dirs[i] == dirs[1..][i - 1];
    }
  }

  /** A failure reports the first unrecognised position, its column before its direction. */
  lemma {:induction false} PairUpFirstOffence(cols: seq<string>, dirs: seq<string>, i: nat)
    requires |cols| == |dirs| && FirstOffence(cols, dirs, i)
    ensures PairUp(cols, dirs) == Failure(OffenceError(cols, dirs, i))
  {
    if i > 0 {
      assert forall j :: 0 <= j < i - 1 ==> cols[1..][j] == cols[j + 1] && dirs[1..][j] == dirs[j + 1];
      assert FirstOffence(cols[1..], dirs[1..], i - 1);
      PairUpFirstOffence(cols[1..], dirs[1..], i - 1);
    }
  }

  /** `parseSortParams(sort_by, sort_order)`. */
  function ParseSortParams(sortBy: string, sortOrder: string): (r: Result<SortingOrder, HttpError>)
    ensures var cols, dirs := SplitAndTrim(Some(sortBy), None), SplitAndTrim(Some(sortOrder), None);
      && (|cols| != |dirs| ==> r == Failure(HttpError(BadRequest, CountMismatchMessage)))
      && (|cols| == |dirs| ==> r == PairUp(cols, dirs))
  {
    var cols := SplitAndTrim(Some(sortBy), None);
    var dirs := SplitAndTrim(Some(sortOrder), None);
    if |cols| != |dirs| then
      Failure(HttpError(BadRequest, CountMismatchMessage))
    else if |cols| == 0 || |dirs| == 0 then
      Success([(Id, Asc)])
    else
      PairUp(cols, dirs)
  }

  /**
   * On success the order has one pair per comma-separated piece, and pair `i`
   * holds the `i`-th trimmed column and direction; the fallback `[[id, ASC]]`
   * branch never fires because splitting always yields at least one piece.
   */
  lemma ParseSortSuccess(sortBy: string, sortOrder: string)
    ensures var r := ParseSortParams(sortBy, sortOrder);
      var cols, dirs := SplitAndTrim(Some(sortBy), None), SplitAndTrim(Some(sortOrder), None);
      r.Success? ==>
        && |r.value| == |cols| == |dirs| == Occurrences(sortBy, ',') + 1
        && forall i :: 0 <= i < |cols| ==> r.value[i].0.Name() == cols[i] && r.value[i].1.Name() == dirs[i]
  {
    var cols, dirs := SplitAndTrim(Some(sortBy), None), SplitAndTrim(Some(sortOrder), None);
    if |cols| == |dirs| && PairUp(cols, dirs).Success? {
      PairUpNames(cols, dirs);
    }
  }

  /** Empty parameters are not turned into the default order: `""` is an invalid column. */
  lemma EmptySortParamsRejected()
    ensures ParseSortParams("", "") == Failure(InvalidSortBy(""))
  {
    var cols := SplitAndTrim(Some(""), None);
    assert |cols| == 1;
    assert Trim(Split("", ',')[0]) == "";
    assert cols[0] == "";
    assert FirstOffence(cols, cols, 0);
  }

  /** `query.key || fallback`: an absent or empty value is replaced. */
  function OrDefault(q: Query, key: string, fallback: string): string {
    if key in q && q[key] != "" then q[key] else fallback
  }

  const PaginationMessage: string :=
    "Invalid pagination parameters. Both page_size and page_number must be valid numbers."

  /** `validatePaginationParamsMiddleware`. */
  function ValidatePaginationParams(q: Query): (r: Result<Query, HttpError>)
    ensures var size, number := OrDefault(q, "page_size", "10"), OrDefault(q, "page_number", "1");
      && (r.Failure? <==> IsInvalidNumber(number) || IsInvalidNumber(size))
      && (r.Failure? ==> r.error == HttpError(BadRequest, PaginationMessage))
      && (r.Success? ==>
        && r.value.Keys == q.Keys + {"page_size", "page_number"}
        && r.value["page_size"] == size && r.value["page_number"] == number
        && forall k :: k in q && k != "page_size" && k != "page_number" ==> r.value[k] == q[k])
  {
    var q1 := q["page_size" := OrDefault(q, "page_size", "10")];
    var q2 := q1["page_number" := OrDefault(q, "page_number", "1")];
    if IsInvalidNumber(q2["page_number"]) || IsInvalidNumber(q2["page_size"]) then
      Failure(HttpError(BadRequest, PaginationMessage))
    else
      Success(q2)
  }

  /** Running the pagination check on its own output changes nothing. */
  lemma PaginationIdempotent(q: Query)
    requires ValidatePaginationParams(q).Success?
    ensures ValidatePaginationParams(ValidatePaginationParams(q).value) == ValidatePaginationParams(q)
  {
    PaginationFixed(ValidatePaginationParams(q).value);
  }

  /** A query whose paging parameters are present and valid passes unchanged. */
  lemma PaginationFixed(q: Query)
    requires "page_size" in q && q["page_size"] != "" && !IsInvalidNumber(q["page_size"])
    requires "page_number" in q && q["page_number"] != "" && !IsInvalidNumber(q["page_number"])
    ensures ValidatePaginationParams(q) == Success(q)
  {
    var r := ValidatePaginationParams(q);
    assert r.Success? && r.value.Keys == q.Keys;
    assert forall k :: k in q ==> r.value[k] == q[k];
    assert r.value == q;
  }

  /** Without paging parameters the defaults `page_size=10`, `page_number=1` are filled in. */
  lemma PaginationDefaults(q: Query)
    requires "page_size" !in q && "page_number" !in q
    ensures ValidatePaginationParams(q) == Success(q["page_size" := "10"]["page_number" := "1"])
  {
    NonNegativeLiteralValid(Literal(false, "10", None));
    assert Literal(false, "10", None).Text() == "10";
    NonNegativeLiteralValid(Literal(false, "1", None));
    assert Literal(false, "1", None).Text() == "1";
  }

  /** Zero is admitted for both parameters; a negative page size is refused. */
  lemma PaginationZeroAndNegative(q: Query)
    ensures ValidatePaginationParams(q["page_size" := "0"]["page_number" := "0"]).Success?
    ensures ValidatePaginationParams(q["page_size" := "-1"]["page_number" := "0"]).Failure?
  {
    NonNegativeLiteralValid(Literal(false, "0", None));
    assert Literal(false, "0", None).Text() == "0";
    MinusOneInvalid();
  }

  /** The request after the sort middleware: its query bag and `req.order`. */
  datatype SortedRequest = SortedRequest(query: Query, order: SortingOrder)

  /** `validateSortParamsMiddleware`; a parse failure is forwarded with its own status. */
  function ValidateSortParams(q: Query): (r: Result<SortedRequest, HttpError>)
    ensures var cols, dirs := OrDefault(q, "sort_by", "id"), OrDefault(q, "sort_order", "ASC");
      && (r.Success? <==> ParseSortParams(cols, dirs).Success?)
      && (r.Failure? ==> r.error == ParseSortParams(cols, dirs).error)
      && (r.Success? ==> r.value.order == ParseSortParams(cols, dirs).value)
  {
    var q2 := SortDefaulted(q);
    match ParseSortParams(q2["sort_by"], q2["sort_order"])
    case Success(order) => Success(SortedRequest(q2, order))
    case Failure(e) => Failure(e)
  }

  /** The query bag with `sort_by` and `sort_order` defaulted. */
  function SortDefaulted(q: Query): (q2: Query)
    ensures "sort_by" in q2 && "sort_order" in q2
    ensures q2["sort_by"] == OrDefault(q, "sort_by", "id")
    ensures q2["sort_order"] == OrDefault(q, "sort_order", "ASC")
  {
    q["sort_by" := OrDefault(q, "sort_by", "id")]["sort_order" := OrDefault(q, "sort_order", "ASC")]
  }

  /** Only the two sort keys are defaulted; every other parameter is left as it was. */
  lemma SortQueryFrame(q: Query)
    requires ValidateSortParams(q).Success?
    ensures var q2 := ValidateSortParams(q).value.query;
      && q2.Keys == q.Keys + {"sort_by", "sort_order"}
      && q2["sort_by"] == OrDefault(q, "sort_by", "id")
      && q2["sort_order"] == OrDefault(q, "sort_order", "ASC")
      && forall k :: k in q && k != "sort_by" && k != "sort_order" ==> q2[k] == q[k]
  {
  }

  /** With neither parameter supplied the order is `[[id, ASC]]`. */
  lemma SortDefaults(q: Query)
    requires "sort_by" !in q && "sort_order" !in q
    ensures ValidateSortParams(q).Success?
    ensures ValidateSortParams(q).value.order == [(Id, Asc)]
  {
    DefaultOrderParses();
  }

  lemma DefaultOrderParses()
    ensures ParseSortParams("id", "ASC") == Success([(Id, Asc)])
  {
    SingleWord("id");
    SingleWord("ASC");
    PairUpSingle("id", "ASC", Id, Asc);
  }

  lemma PairUpSingle(col: string, dir: string, c: SortColumn, d: SortDirection)
    requires ParseColumn(col) == Some(c) && ParseDirection(dir) == Some(d)
    ensures PairUp([col], [dir]) == Success([(c, d)])
  {
    assert [col][1..] == [] && [dir][1..] == [];
    assert PairUp([], []) == Success([]);
    assert [(c, d)] + [] == [(c, d)];
  }

  /** A comma-free word splits into itself alone. */
  lemma SingleWord(w: string)
    requires |w| > 0 && forall i :: 0 <= i < |w| ==> 'A' <= w[i] <= 'z'
    ensures SplitAndTrim(Some(w), None) == [w]
  {
    SplitAndTrimPieces(Some(w), None);
    SplitSegment(w, ',');
    TrimOfLiteral(w);
  }

  lemma TrimOfLiteral(s: string)
    requires |s| > 0 && forall i :: 0 <= i < |s| ==> 'A' <= s[i] <= 'z'
    ensures Trim(s) == s
  {
    assert "" + s + "" == s;
    TrimUnique("", s, "");
  }

  /**
   * Several columns with `sort_order` omitted: the default is a single `ASC`,
   * so the request fails with the count mismatch.
   */
  lemma SortOrderOmittedWithSeveralColumns(q: Query)
    requires "sort_by" in q && "sort_order" !in q
    requires Occurrences(q["sort_by"], ',') > 0
    ensures ValidateSortParams(q) == Failure(HttpError(BadRequest, CountMismatchMessage))
  {
    var dirs := SplitAndTrim(Some("ASC"), None);
    assert |Split("ASC", ',')| == 1 by { SplitSegment("ASC", ','); }
  }

  /** The sort check is idempotent: re-running it on its output gives the same request. */
  lemma SortIdempotent(q: Query)
    requires ValidateSortParams(q).Success?
    ensures ValidateSortParams(ValidateSortParams(q).value.query) == ValidateSortParams(q)
  {
    SortDefaultedIdempotent(q);
  }

  lemma SortDefaultedIdempotent(q: Query)
    ensures SortDefaulted(SortDefaulted(q)) == SortDefaulted(q)
  {
    var q2 := SortDefaulted(q);
    assert OrDefault(q2, "sort_by", "id") == q2["sort_by"];
    assert OrDefault(q2, "sort_order", "ASC") == q2["sort_order"];
  }
}

=== FILE: ranking.dfy ===
/**
 * The materialized views `RankedPropertiesForSale` and
 * `RankedPropertiesForRent` (src/migrations/20240716012345-create-best-properties-view.js).
 * Both take the properties of one purpose, number them per `location_id`
 * by (price ASC, area DESC, bath DESC, bedroom DESC), keep the first three
 * of each location and attach the location's name through an inner join.
 *
 * The `locations` table is given as a list with distinct ids; `View` lists
 * the ranked rows location by location, in the order of that list.
 */
module Ranking {
  import opened Wrappers
  import opened Pagination
  import opened Filters
  import opened Ordering

  datatype Location = Location(id: int, name: string)

  /** A row of a ranking view: `rp.*` with its `rank` and `l.name AS location`. */
  datatype RankedRow = RankedRow(property: Property, rank: nat, location: string)

  /** `ORDER BY p.price ASC, p.area DESC, p.bath DESC, p.bedroom DESC`. */
  const RankOrder: OrderBy :=
    [(PriceColumn, Asc), (AreaColumn, Desc), (BathColumn, Desc), (BedroomColumn, Desc)]

  /** `WHERE rp.rank <= 3`. */
  const MaxRank: nat := 3

  function Min(a: nat, b: nat): nat {
    if a <= b then a else b
  }

  predicate InPartition(x: Property, purpose: string, locationId: int) {
    x.purpose == Some(purpose) && x.locationId == Some(locationId)
  }

  /** The rows of one `PARTITION BY p.location_id` window of the purpose's properties. */
  function Partition(table: seq<Property>, purpose: string, locationId: int): (r: seq<Property>)
    ensures forall k :: 0 <= k < |r| ==> InPartition(r[k], purpose, locationId)
  {
    if |table| == 0 then []
    else
      var rest := Partition(table[1..], purpose, locationId);
      if InPartition(table[0], purpose, locationId) then [table[0]] + rest else rest
  }

  /** `ROW_NUMBER()` over an ordered window, cut at `rank <= 3`, with the location name joined on. */
  function RankWindow(ordered: seq<Property>, name: string): (r: seq<RankedRow>)
    ensures |r| == Min(|ordered|, MaxRank)
  {
    seq(Min(|ordered|, MaxRank), i requires 0 <= i < Min(|ordered|, MaxRank) => RankedRow(ordered[i], i + 1, name))
  }

  /**
   * One location's block of the view: at most three rows, ranked 1, 2, ...,
   * each of the purpose and the location and named after it.
   */
  function Block(table: seq<Property>, purpose: string, l: Location): (r: seq<RankedRow>)
    ensures |r| <= MaxRank
    ensures forall i :: 0 <= i < |r| ==>
      r[i].rank == i + 1 && r[i].location == l.name && InPartition(r[i].property, purpose, l.id)
  {
    var window := Partition(table, purpose, l.id);
    var sorted := SortRows(window, RankOrder);
    var r := RankWindow(sorted, l.name);
    assert forall i :: 0 <= i < |r| ==> r[i].property == sorted[i];
    assert forall i :: 0 <= i < |r| ==> sorted[i] in multiset(window);
    r
  }

  /** The view of one purpose (`'for_sale'` or `'for_rent'`): at most three rows per location. */
  function View(table: seq<Property>, purpose: string, locations: seq<Location>): (r: seq<RankedRow>)
    ensures |r| <= MaxRank * |locations|
  {
    if |locations| == 0 then []
    else Block(table, purpose, locations[0]) + View(table, purpose, locations[1..])
  }

  predicate DistinctIds(locations: seq<Location>) {
    forall i, j :: 0 <= i < j < |locations| ==> locations[i].id != locations[j].id
  }

  /** The view's rows of one location. */
  function AtLocation(view: seq<RankedRow>, locationId: int): (r: seq<RankedRow>)
    ensures |r| <= |view|
  {
    if |view| == 0 then []
    else
      var rest := AtLocation(view[1..], locationId);
      if view[0].property.locationId == Some(locationId) then [view[0]] + rest else rest
  }

  // -------------------------------------------------------------- partition

  /** A window holds exactly the table's rows of that purpose and location. */
  lemma {:induction false} PartitionMembers(table: seq<Property>, purpose: string, locationId: int, x: Property)
    ensures x in Partition(table, purpose, locationId) <==> x in table && InPartition(x, purpose, locationId)
  {
    if |table| > 0 {
      PartitionMembers(table[1..], purpose, locationId, x);
      assert table == [table[0]] + table[1..];
    }
  }

  // -------------------------------------------------------- one window ranked

  /**
   * Whatever order Postgres picks among full ties, a ranked window keeps
   * min(n, 3) rows, numbered 1, 2, ... in key order, drawn from the window.
   */
  lemma RankWindowSpec(ordered: seq<Property>, window: seq<Property>, name: string)
    requires IsOrdering(ordered, window, RankOrder)
    ensures var r := RankWindow(ordered, name);
      && |r| == Min(|window|, MaxRank)
      && (forall i :: 0 <= i < |r| ==> r[i].rank == i + 1 && r[i].location == name)
      && (forall i :: 0 <= i < |r| ==> r[i].property in window)
      && (forall i, j :: 0 <= i < j < |r| ==> RowLe(r[i].property, r[j].property, RankOrder))
  {
    assert |ordered| == |window| by {
      assert |multiset(ordered)| == |multiset(window)|;
    }
    var r := RankWindow(ordered, name);
    forall i | 0 <= i < |r| ensures r[i].property in window {
      assert ordered[i] in multiset(ordered);
    }
  }

  /** Every row left out of a ranked window ranks no better than every row kept. */
  lemma RankWindowComplete(ordered: seq<Property>, window: seq<Property>, name: string, y: Property)
    requires IsOrdering(ordered, window, RankOrder)
    requires y in multiset(window) - multiset(ordered[..Min(|ordered|, MaxRank)])
    ensures var r := RankWindow(ordered, name);
      forall i :: 0 <= i < |r| ==> RowLe(r[i].property, y, RankOrder)
  {
    var k := Min(|ordered|, MaxRank);
    assert ordered == ordered[..k] + ordered[k..];
    assert multiset(ordered) == multiset(ordered[..k]) + multiset(ordered[k..]);
    assert y in multiset(ordered[k..]);
    var j :| 0 <= j < |ordered[k..]| && ordered[k..][j] == y;
    assert ordered[k + j] == y;
  }

  // ------------------------------------------------------------ whole view

  /** Every row of the view has the view's purpose, comes from the table, and carries its location's name. */
  lemma {:induction false} ViewRows(table: seq<Property>, purpose: string, locations: seq<Location>, i: nat)
    requires i < |View(table, purpose, locations)|
    ensures var row := View(table, purpose, locations)[i];
      && row.property.purpose == Some(purpose)
      && row.property in table
      && exists l :: l in locations && row.property.locationId == Some(l.id) && row.location == l.name
  {
    var b := Block(table, purpose, locations[0]);
    var v := View(table, purpose, locations);
    if i < |b| {
      var l := locations[0];
      var ordered := SortRows(Partition(table, purpose, l.id), RankOrder);
      SortRowsIsOrdering(Partition(table, purpose, l.id), RankOrder);
      RankWindowSpec(ordered, Partition(table, purpose, l.id), l.name);
      assert v[i] == b[i];
      PartitionMembers(table, purpose, l.id, b[i].property);
      var k :| 0 <= k < |Partition(table, purpose, l.id)| && Partition(table, purpose, l.id)[k] == b[i].property;
      assert InPartition(b[i].property, purpose, l.id);
    } else {
      ViewRows(table, purpose, locations[1..], i - |b|);
      assert v[i] == View(table, purpose, locations[1..])[i - |b|];
    }
  }

  /** The inner join drops a row whose location does not exist. */
  lemma ViewDropsUnknownLocation(table: seq<Property>, purpose: string, locations: seq<Location>, x: Property)
    requires forall l :: l in locations ==> x.locationId != Some(l.id)
    ensures forall i :: 0 <= i < |View(table, purpose, locations)| ==> View(table, purpose, locations)[i].property != x
  {
    forall i | 0 <= i < |View(table, purpose, locations)|
      ensures View(table, purpose, locations)[i].property != x
    {
      ViewRows(table, purpose, locations, i);
    }
  }

  /** Every row of a location's block belongs to that location. */
  lemma BlockLocation(table: seq<Property>, purpose: string, l: Location)
    ensures var b := Block(table, purpose, l);
      forall i :: 0 <= i < |b| ==> b[i].property.locationId == Some(l.id)
  {
    var window := Partition(table, purpose, l.id);
    var ordered := SortRows(window, RankOrder);
    SortRowsIsOrdering(window, RankOrder);
    RankWindowSpec(ordered, window, l.name);
    var b := Block(table, purpose, l);
    forall i | 0 <= i < |b| ensures b[i].property.locationId == Some(l.id) {
      var k :| 0 <= k < |window| && window[k] == b[i].property;
    }
  }

  lemma {:induction false} AtLocationAppend(a: seq<RankedRow>, b: seq<RankedRow>, id: int)
    ensures AtLocation(a + b, id) == AtLocation(a, id) + AtLocation(b, id)
  {
    if |a| > 0 {
      assert (a + b)[1..] == a[1..] + b;
      AtLocationAppend(a[1..], b, id);
    } else {
      assert a + b == b;
    }
  }

  lemma {:induction false} AtLocationAll(rows: seq<RankedRow>, id: int)
    requires forall i :: 0 <= i < |rows| ==> rows[i].property.locationId == Some(id)
    ensures AtLocation(rows, id) == rows
  {
    if |rows| > 0 {
      AtLocationAll(rows[1..], id);
      assert rows == [rows[0]] + rows[1..];
    }
  }

  lemma {:induction false} AtLocationNone(rows: seq<RankedRow>, id: int)
    requires forall i :: 0 <= i < |rows| ==> rows[i].property.locationId != Some(id)
    ensures AtLocation(rows, id) == []
  {
    if |rows| > 0 {
      AtLocationNone(rows[1..], id);
    }
  }

  /** A location's rows in the view are exactly its own ranked window. */
  lemma {:induction false} ViewAtLocation(table: seq<Property>, purpose: string, locations: seq<Location>, n: nat)
    requires DistinctIds(locations) && n < |locations|
    ensures AtLocation(View(table, purpose, locations), locations[n].id) == Block(table, purpose, locations[n])
  {
    var id := locations[n].id;
    var b := Block(table, purpose, locations[0]);
    var rest := View(table, purpose, locations[1..]);
    AtLocationAppend(b, rest, id);
    BlockLocation(table, purpose, locations[0]);
    if n == 0 {
      AtLocationAll(b, id);
      ViewWithoutLocation(table, purpose, locations[1..], id);
    } else {
      AtLocationNone(b, id);
      assert DistinctIds(locations[1..]);
      assert locations[1..][n - 1] == locations[n];
      ViewAtLocation(table, purpose, locations[1..], n - 1);
    }
  }

  /** A location id not in the list has no rows in the view. */
  lemma {:induction false} ViewWithoutLocation(table: seq<Property>, purpose: string, locations: seq<Location>, id: int)
    requires forall l :: l in locations ==> l.id != id
    ensures AtLocation(View(table, purpose, locations), id) == []
  {
    if |locations| > 0 {
      var b := Block(table, purpose, locations[0]);
      AtLocationAppend(b, View(table, purpose, locations[1..]), id);
      BlockLocation(table, purpose, locations[0]);
      AtLocationNone(b, id);
      ViewWithoutLocation(table, purpose, locations[1..], id);
    }
  }

  /**
   * Per location the view keeps min(n, 3) rows of its window of n, ranked
   * 1, 2, ... in key order; in particular never more than three.
   */
  lemma ViewLocationRanks(table: seq<Property>, purpose: string, locations: seq<Location>, n: nat)
    requires DistinctIds(locations) && n < |locations|
    ensures var rows := AtLocation(View(table, purpose, locations), locations[n].id);
      && |rows| == Min(|Partition(table, purpose, locations[n].id)|, MaxRank)
      && |rows| <= MaxRank
      && (forall i :: 0 <= i < |rows| ==> rows[i].rank == i + 1 && rows[i].location == locations[n].name)
      && (forall i, j :: 0 <= i < j < |rows| ==> RowLe(rows[i].property, rows[j].property, RankOrder))
  {
    var l := locations[n];
    ViewAtLocation(table, purpose, locations, n);
    var window := Partition(table, purpose, l.id);
    SortRowsIsOrdering(window, RankOrder);
    RankWindowSpec(SortRows(window, RankOrder), window, l.name);
  }

  /** With distinct location ids, no location has more than three rows in the view. */
  lemma ViewPerLocationCap(table: seq<Property>, purpose: string, locations: seq<Location>, id: int)
    requires DistinctIds(locations)
    ensures |AtLocation(View(table, purpose, locations), id)| <= MaxRank
  {
    if n :| 0 <= n < |locations| && locations[n].id == id {
      ViewLocationRanks(table, purpose, locations, n);
    } else {
      ViewWithoutLocation(table, purpose, locations, id);
    }
  }
}

=== FILE: service.dfy ===
/**
 * The query side of `PropertyService` (src/services/property.service.ts):
 * paging, the two listings, the grouped count map, the enrichment of a
 * property with three remote lookups, lookup by id, and the "best
 * properties" selection over the ranking views.
 *
 * The database is the `table` of property rows (and the `locations` list
 * for the views); the city lookup, the grouped counts and the settled
 * outcomes of the HTTP requests are parameters.
 */
module PropertyService {
  import opened Wrappers
  import opened Strings
  import opened Pagination
  import opened Filters
  import opened Ordering
  import opened Ranking
  import opened SqlInput

  // ------------------------------------------------------------------ paging

  /** `page_size = 10` */
  const DefaultPageSize: int := 10

  /** `sorting_order = [[SORT_COLUMNS.ID, SORT_ORDER.ASC]]` */
  const DefaultOrder: SortingOrder := [(Id, Asc)]

  /** Status of an error that carries none (src/middlewares/error.middleware.ts). */
  const ServerError: nat := 500

  const NegativeOffsetMessage: string := "OFFSET must not be negative"
  const NegativeLimitMessage: string := "LIMIT must not be negative"

  /** The error of a query whose clause Postgres cannot read (see `Readable`). */
  const InvalidInputMessage: string := "invalid input syntax"

  const Refused: HttpError := HttpError(ServerError, InvalidInputMessage)

  /** `offset` and `limit` of a query. */
  datatype Window = Window(offset: int, limit: int)

  /** `offset: (page_number - 1) * page_size, limit: page_size`. */
  function PageWindow(pageNumber: int, pageSize: int): Window {
    Window((pageNumber - 1) * pageSize, pageSize)
  }

  function Clamp(n: int, hi: nat): (r: nat)
    ensures r <= hi
  {
    if n < 0 then 0 else if n > hi then hi else n
  }

  /**
   * `OFFSET ... LIMIT ...` over an ordered result.  Postgres refuses a
   * negative offset or limit, and the error middleware answers 500.
   */
  function Page<T>(rows: seq<T>, w: Window): (r: Result<seq<T>, HttpError>)
    ensures r.Success? <==> w.offset >= 0 && w.limit >= 0
    ensures r.Failure? ==> r.error.status == ServerError
    ensures r.Success? ==> |r.value| == Clamp(|rows| - w.offset, w.limit)
    ensures r.Success? ==> forall i :: 0 <= i < |r.value| ==> r.value[i] == rows[w.offset + i]
  {
    if w.offset < 0 then Failure(HttpError(ServerError, NegativeOffsetMessage))
    else if w.limit < 0 then Failure(HttpError(ServerError, NegativeLimitMessage))
    else
      var from := Clamp(w.offset, |rows|);
      var to := Clamp(w.offset + w.limit, |rows|);
      Success(rows[from..to])
  }

  /** The pages 1..k of a given size, one after another. */
  function FirstPages<T>(rows: seq<T>, size: nat, k: nat): seq<T> {
    if k == 0 then []
    else FirstPages(rows, size, k - 1) + Page(rows, PageWindow(k, size)).value
  }

  /** Consecutive pages tile the ordered result: pages 1..k are exactly its first k * size rows. */
  lemma {:induction false} PagesTile<T>(rows: seq<T>, size: nat, k: nat)
    ensures FirstPages(rows, size, k) == rows[..Clamp(k * size, |rows|)]
  {
    if k > 0 {
      PagesTile(rows, size, k - 1);
      var from := Clamp((k - 1) * size, |rows|);
      var to := Clamp(k * size, |rows|);
      assert (k - 1) * size + size == k * size;
      assert Page(rows, PageWindow(k, size)).value == rows[from..to];
      assert rows[..from] + rows[from..to] == rows[..to];
    }
  }

  /** Page 0, which the pagination middleware admits, asks for a negative offset and fails. */
  lemma PageZeroFails<T>(rows: seq<T>, size: int)
    requires size > 0
    ensures Page(rows, PageWindow(0, size)) == Failure(HttpError(ServerError, NegativeOffsetMessage))
  {
  }

  // ---------------------------------------------------------------- listings

  /** `{ rows, count }` of `findAndCountAll`. */
  datatype Listing<T> = Listing(rows: seq<T>, count: nat)

  /** The rows of the table a clause admits, in table order. */
  function Select(table: seq<Property>, w: Where, timeOf: string -> Option<int>): (r: seq<Property>)
    ensures |r| <= |table|
    ensures forall k :: 0 <= k < |r| ==> Matches(r[k], w, timeOf)
  {
    if |table| == 0 then []
    else
      var rest := Select(table[1..], w, timeOf);
      if Matches(table[0], w, timeOf) then [table[0]] + rest else rest
  }

  lemma {:induction false} SelectMembers(table: seq<Property>, w: Where, timeOf: string -> Option<int>, x: Property)
    ensures x in Select(table, w, timeOf) <==> x in table && Matches(x, w, timeOf)
  {
    if |table| > 0 {
      SelectMembers(table[1..], w, timeOf, x);
      assert table == [table[0]] + table[1..];
    }
  }

  /**
   * `findAndCountAll`: the page of the ordered matching rows, and the
   * number of matching rows regardless of the page.  A clause Postgres
   * cannot read is refused before any row is looked at.
   */
  function FindAndCountAll(table: seq<Property>, w: Where, ob: OrderBy, window: Window, timeOf: string -> Option<int>): (r: Result<Listing<Property>, HttpError>)
    ensures r.Success? <==> Readable(w, timeOf) && window.offset >= 0 && window.limit >= 0
    ensures r.Failure? ==> r.error.status == ServerError
    ensures !Readable(w, timeOf) ==> r == Failure(Refused)
    ensures r.Success? ==> r.value.count == |Select(table, w, timeOf)| && |r.value.rows| <= window.limit
  {
    if !Readable(w, timeOf) then Failure(Refused)
    else
      var matched := Select(table, w, timeOf);
      var page := Page(SortRows(matched, ob), window);
      if page.Failure? then Failure(page.error) else Success(Listing(page.value, |matched|))
  }

  /**
   * `findAllProperties`: positive price, the purpose, and the city if one is
   * given.  Its only literal Postgres might refuse is the purpose.
   */
  function FindAllProperties(
    table: seq<Property>, city: Option<string>, pageNumber: int, pageSize: Option<int>,
    sortingOrder: Option<SortingOrder>, purpose: string,
    cityLookup: string -> Option<int>, timeOf: string -> Option<int>): (r: Result<Listing<Property>, HttpError>)
    ensures var window := PageWindow(pageNumber, pageSize.GetOr(DefaultPageSize));
      r.Success? <==> purpose in PurposeLabels && window.offset >= 0 && window.limit >= 0
    ensures purpose !in PurposeLabels ==> r == Failure(Refused)
    ensures r.Success? ==>
      r.value.count == |Select(table, FindAllWhere(purpose, city, FindCityId(city, cityLookup)), timeOf)|
  {
    var cityId := FindCityId(city, cityLookup);
    FindAllWhereReadable(purpose, city, cityId, timeOf);
    FindAndCountAll(table, FindAllWhere(purpose, city, cityId),
      FromSortingOrder(sortingOrder.GetOr(DefaultOrder)),
      PageWindow(pageNumber, pageSize.GetOr(DefaultPageSize)), timeOf)
  }

  /** `searchProperties`: the full `getWhereClause` filter. */
  function SearchProperties(
    table: seq<Property>, p: WhereParams, pageNumber: int, pageSize: Option<int>,
    sortingOrder: Option<SortingOrder>,
    cityLookup: string -> Option<int>, timeOf: string -> Option<int>): (r: Result<Listing<Property>, HttpError>)
    ensures var w := BuildWhere(p, FindCityId(p.city, cityLookup));
      var window := PageWindow(pageNumber, pageSize.GetOr(DefaultPageSize));
      && (r.Success? <==> Readable(w, timeOf) && window.offset >= 0 && window.limit >= 0)
      && (r.Success? ==> r.value.count == |Select(table, w, timeOf)|)
    ensures r.Failure? ==> r.error.status == ServerError
  {
    var cityId := FindCityId(p.city, cityLookup);
    FindAndCountAll(table, BuildWhere(p, cityId),
      FromSortingOrder(sortingOrder.GetOr(DefaultOrder)),
      PageWindow(pageNumber, pageSize.GetOr(DefaultPageSize)), timeOf)
  }

  /**
   * A blank `price_min` or a purpose outside the enum, both of which the
   * service passes on unchecked, makes the search fail with 500.
   */
  lemma SearchRefused(table: seq<Property>, p: WhereParams, pageNumber: int, pageSize: Option<int>,
                      sortingOrder: Option<SortingOrder>,
                      cityLookup: string -> Option<int>, timeOf: string -> Option<int>)
    requires || p.purpose !in PurposeLabels
             || (p.priceMin.Some? && p.priceMin.value != "" && AllCSpace(p.priceMin.value))
    ensures SearchProperties(table, p, pageNumber, pageSize, sortingOrder, cityLookup, timeOf) == Failure(Refused)
  {
    var cityId := FindCityId(p.city, cityLookup);
    if p.purpose !in PurposeLabels {
      UnknownPurposeRefused(p, cityId, timeOf);
    } else {
      BlankPriceMinRefused(p, cityId, timeOf);
    }
  }

  /**
   * A listing page is a window of an admissible `ORDER BY` answer over the
   * matching rows: it sits at its offset in the ordered result.
   */
  lemma {:induction false} ListingRows(table: seq<Property>, w: Where, ob: OrderBy, window: Window, timeOf: string -> Option<int>)
    requires Readable(w, timeOf) && window.offset >= 0 && window.limit >= 0
    ensures var r := FindAndCountAll(table, w, ob, window, timeOf);
      var ordered := SortRows(Select(table, w, timeOf), ob);
      && r.Success?
      && IsOrdering(ordered, Select(table, w, timeOf), ob)
      && WindowAt(r.value.rows, ordered, window)
  {
    var matched := Select(table, w, timeOf);
    var ordered := SortRows(matched, ob);
    SortRowsIsOrdering(matched, ob);
    var page := Page(ordered, window);
    PageIsWindow(ordered, window);
    assert FindAndCountAll(table, w, ob, window, timeOf) == Success(Listing(page.value, |matched|));
  }

  /** `page` is what `OFFSET w.offset LIMIT w.limit` leaves of `rows`. */
  ghost predicate WindowAt<T>(page: seq<T>, rows: seq<T>, w: Window)
    requires w.offset >= 0 && w.limit >= 0
  {
    && |page| == Clamp(|rows| - w.offset, w.limit)
    && forall i :: 0 <= i < |page| ==> page[i] == rows[w.offset + i]
  }

  lemma PageIsWindow<T>(rows: seq<T>, w: Window)
    requires w.offset >= 0 && w.limit >= 0
    ensures Page(rows, w).Success? && WindowAt(Page(rows, w).value, rows, w)
  {
  }

  /** Every row of a listing page comes from the table and satisfies the clause. */
  lemma ListingRowsMatch(table: seq<Property>, w: Where, ob: OrderBy, window: Window, timeOf: string -> Option<int>, i: nat)
    requires FindAndCountAll(table, w, ob, window, timeOf).Success?
    requires i < |FindAndCountAll(table, w, ob, window, timeOf).value.rows|
    ensures var x := FindAndCountAll(table, w, ob, window, timeOf).value.rows[i];
      x in table && Matches(x, w, timeOf)
  {
    var matched := Select(table, w, timeOf);
    var ordered := SortRows(matched, ob);
    var x := FindAndCountAll(table, w, ob, window, timeOf).value.rows[i];
    assert x == ordered[window.offset + i];
    assert x in multiset(ordered);
    SelectMembers(table, w, timeOf, x);
  }

  /** Without page size or order, page 1 holds the first ten matching rows by ascending id. */
  lemma FindAllDefaults(table: seq<Property>, city: Option<string>, purpose: string,
                        cityLookup: string -> Option<int>, timeOf: string -> Option<int>)
    requires purpose in PurposeLabels
    ensures var w := FindAllWhere(purpose, city, FindCityId(city, cityLookup));
      var r := FindAllProperties(table, city, 1, None, None, purpose, cityLookup, timeOf);
      && r.Success?
      && r.value.count == |Select(table, w, timeOf)|
      && r.value.rows == SortRows(Select(table, w, timeOf), [(IdColumn, Asc)])[..Clamp(|Select(table, w, timeOf)|, 10)]
  {
    var w := FindAllWhere(purpose, city, FindCityId(city, cityLookup));
    FindAllWhereReadable(purpose, city, FindCityId(city, cityLookup), timeOf);
    var matched := Select(table, w, timeOf);
    var ordered := SortRows(matched, [(IdColumn, Asc)]);
    assert FromSortingOrder(DefaultOrder) == [(IdColumn, Asc)];
    assert PageWindow(1, DefaultPageSize) == Window(0, 10);
    var page := Page(ordered, Window(0, 10));
    assert page.Success? && page.value == ordered[..Clamp(|ordered|, 10)];
  }

  /** `findAllProperties` is `searchProperties` with only city and purpose supplied. */
  lemma FindAllIsSearch(table: seq<Property>, city: Option<string>, pageNumber: int, pageSize: Option<int>,
                        sortingOrder: Option<SortingOrder>, purpose: string,
                        cityLookup: string -> Option<int>, timeOf: string -> Option<int>)
    ensures FindAllProperties(table, city, pageNumber, pageSize, sortingOrder, purpose, cityLookup, timeOf) ==
      SearchProperties(table, WhereParams(city, None, None, None, None, None, None, None, None, purpose, None),
        pageNumber, pageSize, sortingOrder, cityLookup, timeOf)
  {
    FindAllIsBuildWhere(purpose, city, FindCityId(city, cityLookup));
  }

  /** The count does not depend on the page asked for. */
  lemma CountIgnoresPage(table: seq<Property>, p: WhereParams, n1: int, n2: int, size: Option<int>,
                         order: Option<SortingOrder>, cityLookup: string -> Option<int>, timeOf: string -> Option<int>)
    requires SearchProperties(table, p, n1, size, order, cityLookup, timeOf).Success?
    requires SearchProperties(table, p, n2, size, order, cityLookup, timeOf).Success?
    ensures SearchProperties(table, p, n1, size, order, cityLookup, timeOf).value.count ==
            SearchProperties(table, p, n2, size, order, cityLookup, timeOf).value.count
  {
  }

  // --------------------------------------------------------------- count map

  /** A row of `COUNT ... GROUP BY type`. */
  datatype GroupCount = GroupCount(propertyType: Option<string>, count: nat)

  /** `acc[item.type as string]`: a null type becomes the key "null". */
  function TypeKey(t: Option<string>): string {
    t.GetOr("null")
  }

  /** `countMap.reduce((acc, item) => { acc[item.type] = item.count; return acc }, {})`. */
  function CountMap(groups: seq<GroupCount>): (m: map<string, nat>)
    ensures |groups| > 0 ==> TypeKey(groups[|groups| - 1].propertyType) in m
  {
    if |groups| == 0 then map[]
    else
      var last := groups[|groups| - 1];
      CountMap(groups[..|groups| - 1])[TypeKey(last.propertyType) := last.count]
  }

  /** The keys of the map are exactly the keys of the grouped rows. */
  lemma {:induction false} CountMapKeys(groups: seq<GroupCount>, k: string)
    ensures k in CountMap(groups) <==> exists i :: 0 <= i < |groups| && TypeKey(groups[i].propertyType) == k
  {
    if |groups| > 0 {
      var init := groups[..|groups| - 1];
      CountMapKeys(init, k);
      if exists i :: 0 <= i < |groups| && TypeKey(groups[i].propertyType) == k {
        var i :| 0 <= i < |groups| && TypeKey(groups[i].propertyType) == k;
        if i < |init| {
          assert init[i] == groups[i];
        }
      }
      if exists i :: 0 <= i < |init| && TypeKey(init[i].propertyType) == k {
        var i :| 0 <= i < |init| && TypeKey(init[i].propertyType) == k;
        assert groups[i] == init[i];
      }
    }
  }

  /** A key holds the count of the last grouped row with that key. */
  lemma {:induction false} CountMapLastWins(groups: seq<GroupCount>, i: nat)
    requires i < |groups|
    requires forall j :: i < j < |groups| ==> TypeKey(groups[j].propertyType) != TypeKey(groups[i].propertyType)
    ensures TypeKey(groups[i].propertyType) in CountMap(groups)
    ensures CountMap(groups)[TypeKey(groups[i].propertyType)] == groups[i].count
  {
    if i < |groups| - 1 {
      var init := groups[..|groups| - 1];
      assert init[i] == groups[i];
      CountMapLastWins(init, i);
    }
  }

  /** With distinct keys, as `GROUP BY type` gives unless a type is spelled "null", every row keeps its count. */
  lemma CountMapDistinct(groups: seq<GroupCount>, i: nat)
    requires i < |groups|
    requires forall a, b :: 0 <= a < b < |groups| ==> TypeKey(groups[a].propertyType) != TypeKey(groups[b].propertyType)
    ensures TypeKey(groups[i].propertyType) in CountMap(groups)
    ensures CountMap(groups)[TypeKey(groups[i].propertyType)] == groups[i].count
  {
    CountMapLastWins(groups, i);
  }

  /**
   * The grouped rows answer `GROUP BY type` over the rows a clause admits:
   * one row per type, and exactly the types of those rows.
   */
  predicate GroupsOf(groups: seq<GroupCount>, matched: seq<Property>) {
    && (forall a, b :: 0 <= a < b < |groups| ==> groups[a].propertyType != groups[b].propertyType)
    && (forall i :: 0 <= i < |groups| ==> exists r :: r in matched && r.propertyType == groups[i].propertyType)
    && (forall r :: r in matched ==> exists i :: 0 <= i < |groups| && groups[i].propertyType == r.propertyType)
  }

  /**
   * `getPropertiesCountMap`: the count clause drops the type filter; the
   * grouped counts come from the database, which refuses a clause it
   * cannot read.
   */
  function GetPropertiesCountMap(p: WhereParams, cityLookup: string -> Option<int>,
                                 countQuery: Where -> seq<GroupCount>,
                                 timeOf: string -> Option<int>): (r: Result<map<string, nat>, HttpError>)
    ensures r.Success? <==> Readable(CountWhere(p, FindCityId(p.city, cityLookup)), timeOf)
    ensures r.Failure? ==> r.error == Refused
  {
    var w := CountWhere(p, FindCityId(p.city, cityLookup));
    if !Readable(w, timeOf) then Failure(Refused) else Success(CountMap(countQuery(w)))
  }

  /** Every type of an admitted row has a key in the map of its grouped counts. */
  lemma CountMapCovers(groups: seq<GroupCount>, matched: seq<Property>, t: Option<string>)
    requires GroupsOf(groups, matched)
    ensures (exists r :: r in matched && r.propertyType == t) ==> TypeKey(t) in CountMap(groups)
  {
    if exists r :: r in matched && r.propertyType == t {
      var r :| r in matched && r.propertyType == t;
      var i :| 0 <= i < |groups| && groups[i].propertyType == r.propertyType;
      CountMapKeys(groups, TypeKey(t));
    }
  }

  /** Every key of the map of grouped counts is the key of an admitted row's type. */
  lemma CountMapOnly(groups: seq<GroupCount>, matched: seq<Property>, k: string)
    requires GroupsOf(groups, matched) && k in CountMap(groups)
    ensures exists r :: r in matched && TypeKey(r.propertyType) == k
  {
    CountMapKeys(groups, k);
    var i :| 0 <= i < |groups| && TypeKey(groups[i].propertyType) == k;
    var r :| r in matched && r.propertyType == groups[i].propertyType;
  }

  /**
   * The count map of `getPropertiesCountMap` has a key exactly for the types
   * of the rows its clause, which has no type filter, admits.
   */
  lemma CountMapOfClause(table: seq<Property>, p: WhereParams, cityLookup: string -> Option<int>,
                         countQuery: Where -> seq<GroupCount>, timeOf: string -> Option<int>, k: string)
    requires var w := CountWhere(p, FindCityId(p.city, cityLookup));
      Readable(w, timeOf) && GroupsOf(countQuery(w), Select(table, w, timeOf))
    ensures GetPropertiesCountMap(p, cityLookup, countQuery, timeOf).Success?
    ensures var w := CountWhere(p, FindCityId(p.city, cityLookup));
      k in GetPropertiesCountMap(p, cityLookup, countQuery, timeOf).value <==>
      exists r :: r in Select(table, w, timeOf) && TypeKey(r.propertyType) == k
  {
    var w := CountWhere(p, FindCityId(p.city, cityLookup));
    var matched := Select(table, w, timeOf);
    var groups := countQuery(w);
    if k in CountMap(groups) {
      CountMapOnly(groups, matched, k);
    }
    if exists r :: r in matched && TypeKey(r.propertyType) == k {
      var r :| r in matched && TypeKey(r.propertyType) == k;
      CountMapCovers(groups, matched, r.propertyType);
    }
  }

  // -------------------------------------------------------------- enrichment

  /** `url.split('-').slice(-3)[0]`; `undefined` when the row has no url. */
  function ExternalId(url: Option<string>): (r: Option<string>)
    ensures r.Some? <==> url.Some?
    ensures r.Some? ==> '-' !in r.value
  {
    match url
    case None => None
    case Some(u) =>
      var parts := Split(u, '-');
      SplitSepFree(u, '-');
      Some(parts[if |parts| >= 3 then |parts| - 3 else 0])
  }

  /** For a url made of dash-free segments, the external id is the third segment from the end. */
  lemma ExternalIdOfSegments(parts: seq<string>)
    requires |parts| >= 3
    requires forall i :: 0 <= i < |parts| ==> '-' !in parts[i]
    ensures ExternalId(Some(Join(parts, '-'))) == Some(parts[|parts| - 3])
  {
    SplitJoin(parts, '-');
  }

  /** With fewer than three segments, `slice(-3)` keeps them all and the first one is taken. */
  lemma ExternalIdOfShortUrl(parts: seq<string>)
    requires 1 <= |parts| < 3
    requires forall i :: 0 <= i < |parts| ==> '-' !in parts[i]
    ensures ExternalId(Some(Join(parts, '-'))) == Some(parts[0])
  {
    SplitJoin(parts, '-');
  }

  /** `PromiseSettledResult`. */
  datatype Settled<T> = Fulfilled(value: T) | Rejected(reason: string)

  /** `formatResponse`: the data of a fulfilled request, or `null`. */
  function FormatResponse(s: Settled<string>): (r: Option<string>)
    ensures r.Some? <==> s.Fulfilled?
    ensures r.Some? ==> r.value == s.value
  {
    if s.Fulfilled? then Some(s.value) else None
  }

  /** The settled outcomes of the popularity, area and contact requests of one property. */
  datatype Lookups = Lookups(popularity: Settled<string>, area: Settled<string>, contact: Settled<string>)

  /** A property spread out with `popularity_trends`, `area_trends`, `external_id` and `contact`. */
  datatype Detailed = Detailed(
    property: Property,
    popularityTrends: Option<string>,
    areaTrends: Option<string>,
    externalId: Option<string>,
    contact: Option<string>)

  /** The object one property becomes: each lookup independently its data or `null`. */
  function Enrich(p: Property, l: Lookups): (d: Detailed)
    ensures d.property == p && d.externalId == ExternalId(p.url)
    ensures d.popularityTrends.Some? <==> l.popularity.Fulfilled?
    ensures d.areaTrends.Some? <==> l.area.Fulfilled?
    ensures d.contact.Some? <==> l.contact.Fulfilled?
    ensures l.popularity.Fulfilled? ==> d.popularityTrends == Some(l.popularity.value)
    ensures l.area.Fulfilled? ==> d.areaTrends == Some(l.area.value)
    ensures l.contact.Fulfilled? ==> d.contact == Some(l.contact.value)
  {
    Detailed(p, FormatResponse(l.popularity), FormatResponse(l.area), ExternalId(p.url), FormatResponse(l.contact))
  }

  /** `promises.map(p => fulfilled ? p.value : null).filter(v => v != null)`. */
  function Combine<T>(outcomes: seq<Settled<T>>): (r: seq<T>)
    ensures |r| <= |outcomes|
  {
    if |outcomes| == 0 then []
    else
      var rest := Combine(outcomes[1..]);
      if outcomes[0].Fulfilled? then [outcomes[0].value] + rest else rest
  }

  /** A single outcome contributes its value when fulfilled and nothing when rejected. */
  lemma CombineSingle<T>(o: Settled<T>)
    ensures Combine([o]) == if o.Fulfilled? then [o.value] else []
  {
  }

  /** Combining distributes over concatenation, so the kept values stay in their original order. */
  lemma {:induction false} CombineAppend<T>(a: seq<Settled<T>>, b: seq<Settled<T>>)
    ensures Combine(a + b) == Combine(a) + Combine(b)
  {
    if |a| > 0 {
      assert (a + b)[1..] == a[1..] + b;
      CombineAppend(a[1..], b);
    } else {
      assert a + b == b;
    }
  }

  /** When nothing is rejected nothing is dropped. */
  lemma {:induction false} CombineAllFulfilled<T>(values: seq<T>)
    ensures Combine(seq(|values|, i requires 0 <= i < |values| => Fulfilled(values[i]))) == values
  {
    if |values| > 0 {
      var outcomes := seq(|values|, i requires 0 <= i < |values| => Fulfilled(values[i]));
      CombineAllFulfilled(values[1..]);
      assert outcomes[1..] == seq(|values[1..]|, i requires 0 <= i < |values[1..]| => Fulfilled(values[1..][i]));
      assert values == [values[0]] + values[1..];
    }
  }

  /**
   * `mapPropertiesDetails`: every property is enriched with its own lookups.
   * Enriching a property cannot fail, so every item's outcome is fulfilled.
   */
  function MapPropertiesDetails(properties: seq<Property>, lookups: seq<Lookups>): (r: seq<Detailed>)
    requires |lookups| == |properties|
    ensures |r| == |properties|
    ensures forall i :: 0 <= i < |r| ==> r[i] == Enrich(properties[i], lookups[i])
  {
    var values := seq(|properties|, i requires 0 <= i < |properties| => Enrich(properties[i], lookups[i]));
    CombineAllFulfilled(values);
    assert seq(|values|, i requires 0 <= i < |values| => Fulfilled(values[i])) ==
           seq(|properties|, i requires 0 <= i < |properties| => Fulfilled(Enrich(properties[i], lookups[i])));
    Combine(seq(|properties|, i requires 0 <= i < |properties| => Fulfilled(Enrich(properties[i], lookups[i]))))
  }

  // -------------------------------------------------------------- find by id

  /** `findByPk`: the row with that primary key, if any. */
  function FindByPk(table: seq<Property>, id: int): (r: Option<Property>)
    ensures r.Some? ==> r.value in table && r.value.id == id
  {
    if |table| == 0 then None
    else if table[0].id == id then Some(table[0])
    else FindByPk(table[1..], id)
  }

  lemma {:induction false} FindByPkFinds(table: seq<Property>, id: int)
    ensures FindByPk(table, id).Some? <==> exists k :: 0 <= k < |table| && table[k].id == id
  {
    if |table| > 0 {
      FindByPkFinds(table[1..], id);
      if table[0].id != id {
        if exists k :: 0 <= k < |table| && table[k].id == id {
          var k :| 0 <= k < |table| && table[k].id == id;
          assert table[1..][k - 1] == table[k];
        }
      }
    }
  }

  /** `findPropertyById`: the enriched property in a one-element list, or `[]`. */
  function FindPropertyById(table: seq<Property>, id: int, lookups: Lookups): (r: seq<Detailed>)
    ensures |r| <= 1
    ensures forall d :: d in r ==> d.property in table && d.property.id == id
  {
    var found := FindByPk(table, id);
    if found.Some? then MapPropertiesDetails([found.value], [lookups]) else []
  }

  /** A known id gives exactly its property, enriched; an unknown id gives `[]`. */
  lemma FindPropertyByIdResult(table: seq<Property>, id: int, lookups: Lookups)
    ensures var r := FindPropertyById(table, id, lookups);
      && (|r| == 1 <==> exists k :: 0 <= k < |table| && table[k].id == id)
      && (|r| == 0 <==> !exists k :: 0 <= k < |table| && table[k].id == id)
      && (|r| == 1 ==> r[0].property.id == id && r[0].property in table && r[0] == Enrich(r[0].property, lookups))
  {
    FindByPkFinds(table, id);
  }

  // --------------------------------------------------------- best properties

  /** `limit = 5` */
  const DefaultRankLimit: int := 5

  /** The arguments of `getBestProperties`. */
  datatype BestParams = BestParams(
    purpose: string,
    propertyType: Option<string>,
    city: Option<string>,
    areaMin: Option<string>,
    areaMax: Option<string>,
    pageNumber: int,
    pageSize: int,
    limit: Option<int>)

  /** `purpose === 'for_sale' ? RankedPropertyForSaleView : RankedPropertyForRentView`. */
  function ViewPurpose(purpose: string): (v: string)
    ensures v == "for_sale" || v == "for_rent"
    ensures v == "for_sale" <==> purpose == "for_sale"
  {
    if purpose == "for_sale" then "for_sale" else "for_rent"
  }

  /** The view rows that satisfy the clause and `rank <= limit`, in view order. */
  function SelectRanked(view: seq<RankedRow>, w: Where, limit: int, timeOf: string -> Option<int>): (r: seq<RankedRow>)
    ensures |r| <= |view|
    ensures forall k :: 0 <= k < |r| ==> Matches(r[k].property, w, timeOf) && r[k].rank <= limit
  {
    if |view| == 0 then []
    else
      var rest := SelectRanked(view[1..], w, limit, timeOf);
      if Matches(view[0].property, w, timeOf) && view[0].rank <= limit then [view[0]] + rest else rest
  }

  /** The clause of `getBestProperties`: purpose, type, city and area only. */
  function BestWhere(q: BestParams, cityLookup: string -> Option<int>): Where {
    BuildWhere(WhereParams(q.city, None, q.areaMin, q.areaMax, None, None, None, None, None, q.purpose, q.propertyType),
      FindCityId(q.city, cityLookup))
  }

  /** The selected rows before paging. */
  function BestSelection(table: seq<Property>, locations: seq<Location>, q: BestParams,
                         cityLookup: string -> Option<int>, timeOf: string -> Option<int>): seq<RankedRow>
  {
    SelectRanked(View(table, ViewPurpose(q.purpose), locations), BestWhere(q, cityLookup),
      q.limit.GetOr(DefaultRankLimit), timeOf)
  }

  /**
   * `getBestProperties`.  `ORDER BY location_id, rank` is the view's own
   * order when the locations are listed by ascending id (`BestOrdered`).
   * Postgres refuses a clause it cannot read before it looks at the page.
   */
  function GetBestProperties(table: seq<Property>, locations: seq<Location>, q: BestParams,
                             cityLookup: string -> Option<int>, timeOf: string -> Option<int>): (r: Result<Listing<RankedRow>, HttpError>)
    ensures var window := PageWindow(q.pageNumber, q.pageSize);
      r.Success? <==> Readable(BestWhere(q, cityLookup), timeOf) && window.offset >= 0 && window.limit >= 0
    ensures !Readable(BestWhere(q, cityLookup), timeOf) ==> r == Failure(Refused)
    ensures r.Failure? ==> r.error.status == ServerError
    ensures r.Success? ==>
      var selected := BestSelection(table, locations, q, cityLookup, timeOf);
      r.value.count == |selected| && WindowAt(r.value.rows, selected, PageWindow(q.pageNumber, q.pageSize))
  {
    var selected := BestSelection(table, locations, q, cityLookup, timeOf);
    var window := PageWindow(q.pageNumber, q.pageSize);
    if !Readable(BestWhere(q, cityLookup), timeOf) then Failure(Refused)
    else
      var page := Page(selected, window);
      if page.Failure? then Failure(page.error)
      else
        PageIsWindow(selected, window);
        Success(Listing(page.value, |selected|))
  }

  /** The purpose picks the view; one outside the enum is refused rather than read as "for_rent". */
  lemma BestRefusesUnknownPurpose(table: seq<Property>, locations: seq<Location>, q: BestParams,
                                  cityLookup: string -> Option<int>, timeOf: string -> Option<int>)
    requires q.purpose !in PurposeLabels
    ensures GetBestProperties(table, locations, q, cityLookup, timeOf) == Failure(Refused)
  {
  }

  /**
   * A page of the best properties is strictly ordered by location id, then
   * rank, and holds the selected rows from its offset on.
   */
  lemma BestPageOrdered(table: seq<Property>, locations: seq<Location>, q: BestParams,
                        cityLookup: string -> Option<int>, timeOf: string -> Option<int>)
    requires AscendingIds(locations)
    requires GetBestProperties(table, locations, q, cityLookup, timeOf).Success?
    ensures var rows := GetBestProperties(table, locations, q, cityLookup, timeOf).value.rows;
      var selected := BestSelection(table, locations, q, cityLookup, timeOf);
      var offset := PageWindow(q.pageNumber, q.pageSize).offset;
      && InOrder(rows)
      && (forall i :: 0 <= i < |rows| ==> offset + i < |selected| && rows[i] == selected[offset + i])
  {
    var rows := GetBestProperties(table, locations, q, cityLookup, timeOf).value.rows;
    var selected := BestSelection(table, locations, q, cityLookup, timeOf);
    var w := PageWindow(q.pageNumber, q.pageSize);
    assert WindowAt(rows, selected, w);
    BestOrdered(table, locations, q, cityLookup, timeOf);
    WindowInOrder(rows, selected, w);
  }

  /** A window of an ordered sequence is ordered. */
  lemma WindowInOrder(page: seq<RankedRow>, rows: seq<RankedRow>, w: Window)
    requires w.offset >= 0 && w.limit >= 0
    requires InOrder(rows) && WindowAt(page, rows, w)
    ensures InOrder(page)
  {
    forall i, j | 0 <= i < j < |page| ensures Before(page[i], page[j]) {
      assert page[i] == rows[w.offset + i] && page[j] == rows[w.offset + j];
    }
  }

  lemma {:induction false} SelectRankedMembers(view: seq<RankedRow>, w: Where, limit: int, timeOf: string -> Option<int>, x: RankedRow)
    ensures x in SelectRanked(view, w, limit, timeOf) <==> x in view && Matches(x.property, w, timeOf) && x.rank <= limit
  {
    if |view| > 0 {
      SelectRankedMembers(view[1..], w, limit, timeOf, x);
      assert view == [view[0]] + view[1..];
    }
  }

  /**
   * Every selected row has the requested purpose and comes from the view of
   * that purpose; only the two labels of the enum can be selected at all.
   */
  lemma BestPurpose(table: seq<Property>, locations: seq<Location>, q: BestParams,
                    cityLookup: string -> Option<int>, timeOf: string -> Option<int>, x: RankedRow)
    requires x in BestSelection(table, locations, q, cityLookup, timeOf)
    ensures x.property.purpose == Some(q.purpose)
    ensures q.purpose == "for_sale" || q.purpose == "for_rent"
    ensures x in View(table, ViewPurpose(q.purpose), locations)
  {
    var view := View(table, ViewPurpose(q.purpose), locations);
    SelectRankedMembers(view, BestWhere(q, cityLookup), q.limit.GetOr(DefaultRankLimit), timeOf, x);
    var i :| 0 <= i < |view| && view[i] == x;
    ViewRows(table, ViewPurpose(q.purpose), locations, i);
  }

  /** A view row is selected exactly when it satisfies the clause and its rank is within the limit (default 5). */
  lemma BestSelectionComplete(table: seq<Property>, locations: seq<Location>, q: BestParams,
                              cityLookup: string -> Option<int>, timeOf: string -> Option<int>, x: RankedRow)
    ensures x in BestSelection(table, locations, q, cityLookup, timeOf) <==>
      && x in View(table, ViewPurpose(q.purpose), locations)
      && Matches(x.property, BestWhere(q, cityLookup), timeOf)
      && x.rank <= q.limit.GetOr(5)
  {
    SelectRankedMembers(View(table, ViewPurpose(q.purpose), locations), BestWhere(q, cityLookup),
      q.limit.GetOr(DefaultRankLimit), timeOf, x);
  }

  // ------------------------------------------------------- per-location cap

  function Max0(n: int): nat {
    if n < 0 then 0 else n
  }

  /** Filtering a run of consecutive ranks base, base+1, ... by `rank <= limit` keeps at most limit - base + 1 rows. */
  lemma {:induction false} SelectRankedConsecutive(s: seq<RankedRow>, base: int, w: Where, limit: int, timeOf: string -> Option<int>)
    requires forall i :: 0 <= i < |s| ==> s[i].rank == base + i
    ensures |SelectRanked(s, w, limit, timeOf)| <= Max0(limit - base + 1)
  {
    if |s| > 0 {
      assert forall i :: 0 <= i < |s[1..]| ==> s[1..][i].rank == (base + 1) + i by {
        forall i | 0 <= i < |s[1..]| ensures s[1..][i].rank == (base + 1) + i {
          assert s[1..][i] == s[i + 1];
        }
      }
      SelectRankedConsecutive(s[1..], base + 1, w, limit, timeOf);
    }
  }

  /** Selecting and restricting to one location commute. */
  lemma {:induction false} SelectAtLocation(view: seq<RankedRow>, w: Where, limit: int, timeOf: string -> Option<int>, id: int)
    ensures AtLocation(SelectRanked(view, w, limit, timeOf), id) == SelectRanked(AtLocation(view, id), w, limit, timeOf)
  {
    if |view| > 0 {
      SelectAtLocation(view[1..], w, limit, timeOf, id);
    }
  }

  /** Per location at most min(limit, 3) rows are selected: the view's three and the service's limit. */
  lemma BestPerLocationCap(table: seq<Property>, locations: seq<Location>, q: BestParams,
                           cityLookup: string -> Option<int>, timeOf: string -> Option<int>, id: int)
    requires DistinctIds(locations)
    ensures var lim := q.limit.GetOr(DefaultRankLimit);
      && |AtLocation(BestSelection(table, locations, q, cityLookup, timeOf), id)| <= MaxRank
      && |AtLocation(BestSelection(table, locations, q, cityLookup, timeOf), id)| <= Max0(lim)
  {
    var purpose := ViewPurpose(q.purpose);
    var view := View(table, purpose, locations);
    var w := BestWhere(q, cityLookup);
    var lim := q.limit.GetOr(DefaultRankLimit);
    SelectAtLocation(view, w, lim, timeOf, id);
    if n :| 0 <= n < |locations| && locations[n].id == id {
      ViewAtLocation(table, purpose, locations, n);
      var b := Block(table, purpose, locations[n]);
      assert forall i :: 0 <= i < |b| ==> b[i].rank == 1 + i;
      SelectRankedConsecutive(b, 1, w, lim, timeOf);
    } else {
      ViewWithoutLocation(table, purpose, locations, id);
    }
  }

  // ----------------------------------------------------------------- order

  /** `ORDER BY location_id ASC, rank ASC`, strictly: no two view rows share both. */
  predicate Before(a: RankedRow, b: RankedRow) {
    && a.property.locationId.Some? && b.property.locationId.Some?
    && (a.property.locationId.value < b.property.locationId.value
        || (a.property.locationId.value == b.property.locationId.value && a.rank < b.rank))
  }

  predicate InOrder(s: seq<RankedRow>) {
    forall i, j :: 0 <= i < j < |s| ==> Before(s[i], s[j])
  }

  predicate AscendingIds(locations: seq<Location>) {
    forall i, j :: 0 <= i < j < |locations| ==> locations[i].id < locations[j].id
  }

  lemma InOrderAppend(a: seq<RankedRow>, b: seq<RankedRow>)
    requires InOrder(a) && InOrder(b)
    requires forall i, j :: 0 <= i < |a| && 0 <= j < |b| ==> Before(a[i], b[j])
    ensures InOrder(a + b)
  {
    var s := a + b;
    forall i, j | 0 <= i < j < |s| ensures Before(s[i], s[j]) {
      if j < |a| {
      } else if i >= |a| {
        assert s[i] == b[i - |a|] && s[j] == b[j - |a|];
      } else {
        assert s[j] == b[j - |a|];
      }
    }
  }

  /** Listed by ascending location id, the view is in `location_id, rank` order. */
  lemma {:induction false} ViewInOrder(table: seq<Property>, purpose: string, locations: seq<Location>)
    requires AscendingIds(locations)
    ensures InOrder(View(table, purpose, locations))
  {
    if |locations| > 0 {
      var l := locations[0];
      var b := Block(table, purpose, l);
      var rest := View(table, purpose, locations[1..]);
      assert AscendingIds(locations[1..]);
      ViewInOrder(table, purpose, locations[1..]);
      BlockLocation(table, purpose, l);
      forall i, j | 0 <= i < |b| && 0 <= j < |rest| ensures Before(b[i], rest[j]) {
        ViewRows(table, purpose, locations[1..], j);
        var m :| m in locations[1..] && rest[j].property.locationId == Some(m.id) && rest[j].location == m.name;
        var k :| 0 <= k < |locations[1..]| && locations[1..][k] == m;
        assert locations[k + 1] == m;
      }
      InOrderAppend(b, rest);
    }
  }

  lemma {:induction false} SelectRankedInOrder(view: seq<RankedRow>, w: Where, limit: int, timeOf: string -> Option<int>)
    requires InOrder(view)
    ensures InOrder(SelectRanked(view, w, limit, timeOf))
  {
    if |view| > 0 {
      var rest := SelectRanked(view[1..], w, limit, timeOf);
      assert InOrder(view[1..]);
      SelectRankedInOrder(view[1..], w, limit, timeOf);
      if Matches(view[0].property, w, timeOf) && view[0].rank <= limit {
        forall j | 0 <= j < |rest| ensures Before(view[0], rest[j]) {
          SelectRankedMembers(view[1..], w, limit, timeOf, rest[j]);
          var k :| 0 <= k < |view[1..]| && view[1..][k] == rest[j];
          assert view[k + 1] == rest[j];
        }
        InOrderAppend([view[0]], rest);
      }
    }
  }

  /** The selection, and so every page of it, is strictly ordered by location id, then rank. */
  lemma BestOrdered(table: seq<Property>, locations: seq<Location>, q: BestParams,
                    cityLookup: string -> Option<int>, timeOf: string -> Option<int>)
    requires AscendingIds(locations)
    ensures InOrder(BestSelection(table, locations, q, cityLookup, timeOf))
  {
    var view := View(table, ViewPurpose(q.purpose), locations);
    ViewInOrder(table, ViewPurpose(q.purpose), locations);
    SelectRankedInOrder(view, BestWhere(q, cityLookup), q.limit.GetOr(DefaultRankLimit), timeOf);
  }
}

=== FILE: sqlinput.dfy ===
/**
 * How Postgres reads a quoted numeric literal that Sequelize puts into a
 * clause, such as `price >= '1'` on a `double precision` column. `float8in`
 * skips C white space around the literal and then demands a number. It
 * refuses an empty or blank literal, which JavaScript's `Number` reads as 0.
 *
 * The literal grammar is the plain decimal one of `Numbers`. `None` stands
 * for Postgres's "invalid input syntax for type double precision".
 */
module SqlInput {
  import opened Wrappers
  import opened Strings
  import opened Numbers

  /** C `isspace` in the C locale: what `float8in` skips around a number. */
  predicate IsCSpace(c: char) {
    c == ' ' || c == '\t' || c == '\n' || c == '\U{B}' || c == '\U{C}' || c == '\r'
  }

  predicate AllCSpace(s: string) {
    forall i :: 0 <= i < |s| ==> IsCSpace(s[i])
  }

  /** Drops leading C white space: what is dropped is blank, and what is kept starts with a non-blank. */
  function SkipLeading(s: string): (r: string)
    ensures |r| <= |s| && r == s[|s| - |r|..]
    ensures AllCSpace(s[..|s| - |r|])
    ensures |r| > 0 ==> !IsCSpace(r[0])
    ensures AllCSpace(s) ==> r == ""
  {
    if |s| > 0 && IsCSpace(s[0]) then
      var r := SkipLeading(s[1..]);
      assert forall i :: 1 <= i < |s| ==> s[i] == s[1..][i - 1];
      r
    else
      s
  }

  /** Drops trailing C white space: what is dropped is blank, and what is kept ends with a non-blank. */
  function SkipTrailing(s: string): (r: string)
    ensures |r| <= |s| && r == s[..|r|]
    ensures AllCSpace(s[|r|..])
    ensures |r| > 0 ==> !IsCSpace(r[|r| - 1])
    ensures s == "" ==> r == ""
  {
    if |s| > 0 && IsCSpace(s[|s| - 1]) then
      var r := SkipTrailing(s[..|s| - 1]);
      assert forall i :: 0 <= i < |s| - 1 - |r| ==> s[|r|..][i] == s[..|s| - 1][|r|..][i];
      r
    else
      s
  }

  /** `float8in`: a non-empty literal between C white space, read as a number; `None` is an input-syntax error. */
  function Float8(s: string): (r: Option<real>)
    ensures AllCSpace(s) ==> r.None?
  {
    var a := SkipLeading(s);
    var t := SkipTrailing(a);
    if |t| == 0 then None else ParseTrimmed(t)
  }

  // ----------------------------------------------------------------- lemmas

  /**
   * A blank bound passes the middleware, because `Number` reads it as 0, but
   * Postgres cannot read it.
   */
  lemma BlankReadDifferently(s: string)
    requires AllCSpace(s)
    ensures Float8(s).None?
    ensures ToNumber(s) == Some(0.0) && !IsInvalidNumber(s)
  {
    assert AllSpace(s);
    BlankIsZero(s);
  }

  /** Whatever Postgres reads, JavaScript's `Number` reads the same way. */
  lemma Float8AgreesWithNumber(s: string)
    ensures Float8(s).Some? ==> ToNumber(s) == Float8(s)
  {
    var t := SkipTrailing(SkipLeading(s));
    if Float8(s).Some? {
      var lead, trail := Surrounding(s);
      ParsedEnds(t);
      TrimUnique(lead, t, trail);
    }
  }

  /** What the two skips drop is white space around what they keep. */
  lemma Surrounding(s: string) returns (lead: string, trail: string)
    ensures s == lead + SkipTrailing(SkipLeading(s)) + trail
    ensures AllSpace(lead) && AllSpace(trail)
  {
    var a := SkipLeading(s);
    var t := SkipTrailing(a);
    lead, trail := s[..|s| - |a|], a[|t|..];
    SplitThree(s, a, t);
    CSpaceIsSpace(lead);
    CSpaceIsSpace(trail);
  }

  lemma SplitThree(s: string, a: string, t: string)
    requires |a| <= |s| && a == s[|s| - |a|..]
    requires |t| <= |a| && t == a[..|t|]
    ensures s == s[..|s| - |a|] + t + a[|t|..]
  {
    assert a == t + a[|t|..];
    assert s == s[..|s| - |a|] + a;
    assert s[..|s| - |a|] + t + a[|t|..] == s[..|s| - |a|] + (t + a[|t|..]);
  }

  lemma CSpaceIsSpace(s: string)
    requires AllCSpace(s)
    ensures AllSpace(s)
  {
    forall i | 0 <= i < |s| ensures IsSpace(s[i]) {
      assert IsCSpace(s[i]);
    }
  }

  /** Every rendered literal is read by Postgres as exactly its value. */
  lemma Float8OfLiteral(lit: Literal)
    requires lit.Valid()
    ensures Float8(lit.Text()) == Some(lit.Value())
  {
    var t := lit.Text();
    LiteralRoundTrip(lit);
    LiteralTrimmed(lit);
    TrimFacts(t);
    assert |t| > 0 by {
      assert |lit.whole| > 0 || (lit.frac.Some? && |lit.frac.value| > 0);
    }
    assert !IsCSpace(t[0]) && !IsCSpace(t[|t| - 1]);
    assert SkipLeading(t) == t;
    assert SkipTrailing(t) == t;
  }

  /** A literal the conversion accepts neither starts nor ends with white space. */
  lemma ParsedEnds(t: string)
    requires |t| > 0 && ParseTrimmed(t).Some?
    ensures Trimmed(t)
  {
    var u := if t[0] == '-' || t[0] == '+' then t[1..] else t;
    assert UnsignedDecimal(u).Some?;
    assert |u| > 0;
    UnsignedChar(u, u[0]);
    UnsignedChar(u, u[|u| - 1]);
    assert t[|t| - 1] == u[|u| - 1];
  }

  /** An unsigned literal holds only digits and the point. */
  lemma UnsignedChar(u: string, c: char)
    requires c in u && UnsignedDecimal(u).Some?
    ensures IsDigit(c) || c == '.'
  {
    if !IsDigit(c) && c != '.' {
      UnsignedOnlyDigitsAndPoint(u, c);
    }
  }
}

=== FILE: strings.dfy ===
/**
 * The JavaScript string operations the request layer relies on:
 * `String.prototype.trim`, `String.prototype.split` with a one-character
 * separator, `Array.prototype.join`, and the project's `splitAndTrimString`
 * helper (src/utils/index.ts) built from them.
 */
module Strings {
  import opened Wrappers

  /** The code points `trim` removes: ECMAScript WhiteSpace and LineTerminator. */
  predicate IsSpace(c: char) {
    || c == '\t' || c == '\n' || c == '\U{B}' || c == '\U{C}' || c == '\r' || c == ' '
    || c == '\U{A0}' || c == '\U{1680}' || ('\U{2000}' <= c <= '\U{200A}')
    || c == '\U{2028}' || c == '\U{2029}' || c == '\U{202F}' || c == '\U{205F}'
    || c == '\U{3000}' || c == '\U{FEFF}'
  }

  predicate AllSpace(s: string) {
    forall i :: 0 <= i < |s| ==> IsSpace(s[i])
  }

  /** Neither starts nor ends with white space. */
  predicate Trimmed(s: string) {
    |s| == 0 || (!IsSpace(s[0]) && !IsSpace(s[|s| - 1]))
  }

  /** Drops leading white space. */
  function TrimStart(s: string): string
  {
    if |s| > 0 && IsSpace(s[0]) then TrimStart(s[1..]) else s
  }

  /** What `TrimStart` keeps is a suffix, what it drops is blank, and it stops at a non-blank. */
  lemma {:induction false} TrimStartSpec(s: string)
    ensures var r := TrimStart(s);
      && |r| <= |s| && r == s[|s| - |r|..]
      && AllSpace(s[..|s| - |r|])
      && (|r| > 0 ==> !IsSpace(r[0]))
    decreases |s|
  {
    if |s| > 0 && IsSpace(s[0]) {
      TrimStartSpec(s[1..]);
      var r := TrimStart(s);
      var dropped, rest := s[..|s| - |r|], s[1..][..|s| - 1 - |r|];
      forall i | 0 <= i < |dropped| ensures IsSpace(dropped[i]) {
        if i > 0 {
          assert dropped[i] == rest[i - 1];
        }
      }
    }
  }

  /** Drops trailing white space. */
  function TrimEnd(s: string): string
  {
    if |s| > 0 && IsSpace(s[|s| - 1]) then TrimEnd(s[..|s| - 1]) else s
  }

  /** What `TrimEnd` keeps is a prefix, what it drops is blank, and it stops at a non-blank. */
  lemma {:induction false} TrimEndSpec(s: string)
    ensures var r := TrimEnd(s);
      && |r| <= |s| && r == s[..|r|]
      && AllSpace(s[|r|..])
      && (|r| > 0 ==> !IsSpace(r[|r| - 1]))
    decreases |s|
  {
    if |s| > 0 && IsSpace(s[|s| - 1]) {
      TrimEndSpec(s[..|s| - 1]);
      var r := TrimEnd(s);
      assert forall i :: 0 <= i < |s| - 1 - |r| ==> s[|r|..][i] == s[..|s| - 1][|r|..][i];
    }
  }

  /** `String.prototype.trim`: drop the blank ends. */
  function Trim(s: string): string
  {
    TrimEnd(TrimStart(s))
  }

  /**
   * `trim` leaves no blank end, keeps only characters of its input, and
   * empties exactly the blank strings.
   */
  lemma TrimFacts(s: string)
    ensures Trimmed(Trim(s))
    ensures forall c :: c in Trim(s) ==> c in s
    ensures |Trim(s)| == 0 <==> AllSpace(s)
  {
    var a := TrimStart(s);
    var r := TrimEnd(a);
    TrimStartSpec(s);
    TrimEndSpec(a);
    var j := |s| - |a|;
    assert forall c :: c in r ==> c in s by {
      assert forall c :: c in r ==> c in a;
      assert forall c :: c in a ==> c in s;
    }
    if |r| == 0 {
      TrimPiecesBlank(s, a, j);
    } else {
      assert r[0] == a[0] == s[j];
    }
  }

  lemma TrimPiecesBlank(s: string, a: string, j: nat)
    requires j <= |s| && a == s[j..] && AllSpace(s[..j]) && AllSpace(a)
    ensures AllSpace(s)
  {
    forall i | 0 <= i < |s| ensures IsSpace(s[i]) {
      if i >= j {
        assert s[i] == a[i - j];
      } else {
        assert s[i] == s[..j][i];
      }
    }
  }

  /** Removing blank ends from `lead + t + trail` gives back `t` when `t` has no blank ends. */
  lemma {:induction false} TrimUnique(lead: string, t: string, trail: string)
    requires AllSpace(lead) && AllSpace(trail) && Trimmed(t)
    ensures Trim(lead + t + trail) == t
  {
    TrimStartOfBlank(lead, t + trail);
    assert lead + t + trail == lead + (t + trail);
    if |t| == 0 {
      assert t + trail == trail;
      TrimStartAllSpace(trail);
    } else {
      TrimEndOfBlank(t, trail);
    }
  }

  lemma {:induction false} TrimStartAllSpace(s: string)
    requires AllSpace(s)
    ensures TrimStart(s) == ""
    decreases |s|
  {
    if |s| > 0 {
      TrimStartAllSpace(s[1..]);
    }
  }

  lemma {:induction false} TrimStartOfBlank(lead: string, rest: string)
    requires AllSpace(lead)
    requires |rest| == 0 || !IsSpace(rest[0]) || AllSpace(rest)
    ensures AllSpace(rest) ==> TrimStart(lead + rest) == ""
    ensures !AllSpace(rest) ==> TrimStart(lead + rest) == rest
    decreases |lead|
  {
    if |lead| == 0 {
      assert lead + rest == rest;
      if AllSpace(rest) {
        TrimStartAllSpace(rest);
      }
    } else {
      assert (lead + rest)[1..] == lead[1..] + rest;
      TrimStartOfBlank(lead[1..], rest);
    }
  }

  lemma {:induction false} TrimEndOfBlank(t: string, trail: string)
    requires AllSpace(trail) && |t| > 0 && !IsSpace(t[|t| - 1])
    ensures TrimEnd(t + trail) == t
    decreases |trail|
  {
    if |trail| == 0 {
      assert t + trail == t;
    } else {
      assert (t + trail)[..|t + trail| - 1] == t + trail[..|trail| - 1];
      TrimEndOfBlank(t, trail[..|trail| - 1]);
    }
  }

  /** Trimming a trimmed string changes nothing, so `trim` is idempotent. */
  lemma TrimIdempotent(s: string)
    ensures Trim(Trim(s)) == Trim(s)
  {
    var t := Trim(s);
    TrimFacts(s);
    assert "" + t + "" == t;
    TrimUnique("", t, "");
  }

  /** Number of occurrences of `c` in `s`. */
  function Occurrences(s: string, c: char): nat {
    multiset(s)[c]
  }

  /**
   * `s.split(sep)` for a one-character separator: the maximal separator-free
   * segments, left to right.  Joining them back with `sep` rebuilds `s`.
   */
  function Split(s: string, sep: char): (parts: seq<string>)
    ensures |parts| >= 1
    decreases |s|
  {
    if |s| == 0 then [""]
    else
      var rest := Split(s[1..], sep);
      if s[0] == sep then [""] + rest else [[s[0]] + rest[0]] + rest[1..]
  }

  /** No segment contains the separator. */
  lemma {:induction false} SplitSepFree(s: string, sep: char)
    ensures forall i :: 0 <= i < |Split(s, sep)| ==> sep !in Split(s, sep)[i]
    decreases |s|
  {
    if |s| > 0 {
      SplitSepFree(s[1..], sep);
    }
  }

  /** One more segment than there are separators. */
  lemma {:induction false} SplitCount(s: string, sep: char)
    ensures |Split(s, sep)| == Occurrences(s, sep) + 1
    decreases |s|
  {
    if |s| > 0 {
      SplitCount(s[1..], sep);
      assert s == [s[0]] + s[1..];
      assert multiset(s) == multiset{s[0]} + multiset(s[1..]);
    }
  }

  /** Joining the segments with the separator rebuilds the input. */
  lemma {:induction false} JoinSplit(s: string, sep: char)
    ensures Join(Split(s, sep), sep) == s
    decreases |s|
  {
    if |s| > 0 {
      var rest := Split(s[1..], sep);
      JoinSplit(s[1..], sep);
      assert s == [s[0]] + s[1..];
      if s[0] != sep && |rest| > 1 {
        assert Join(rest, sep) == rest[0] + [sep] + Join(rest[1..], sep);
        var parts := Split(s, sep);
        assert parts[1..] == rest[1..];
      }
    }
  }

  /** `parts.join(sep)`. */
  function Join(parts: seq<string>, sep: char): string
  {
    if |parts| == 0 then ""
    else if |parts| == 1 then parts[0]
    else parts[0] + [sep] + Join(parts[1..], sep)
  }

  /** `parts.join(sep)` for a separator of any length, as used in error messages. */
  function JoinWith(parts: seq<string>, sep: string): string
  {
    if |parts| == 0 then ""
    else if |parts| == 1 then parts[0]
    else parts[0] + sep + JoinWith(parts[1..], sep)
  }

  /** Splitting a join of separator-free segments gives the segments back. */
  lemma {:induction false} SplitJoin(parts: seq<string>, sep: char)
    requires |parts| >= 1
    requires forall i :: 0 <= i < |parts| ==> sep !in parts[i]
    ensures Split(Join(parts, sep), sep) == parts
    decreases |parts|
  {
    if |parts| == 1 {
      SplitSegment(parts[0], sep);
    } else {
      SplitJoin(parts[1..], sep);
      SplitSegmentThen(parts[0], Join(parts[1..], sep), sep);
      assert [parts[0]] + parts[1..] == parts;
    }
  }

  /** A separator-free string is a single segment. */
  lemma {:induction false} SplitSegment(p: string, sep: char)
    requires sep !in p
    ensures Split(p, sep) == [p]
    decreases |p|
  {
    if |p| > 0 {
      SplitSegment(p[1..], sep);
      assert [p[0]] + p[1..] == p;
    }
  }

  /** A separator-free prefix followed by a separator is the first segment. */
  lemma {:induction false} SplitSegmentThen(p: string, rest: string, sep: char)
    requires sep !in p
    ensures Split(p + [sep] + rest, sep) == [p] + Split(rest, sep)
    decreases |p|
  {
    if |p| == 0 {
      SplitCons(sep, rest, sep);
      assert p + [sep] + rest == [sep] + rest;
    } else {
      var u := p + [sep] + rest;
      var t := p[1..] + [sep] + rest;
      SplitSegmentThen(p[1..], rest, sep);
      SplitCons(p[0], t, sep);
      assert u == [p[0]] + t by {
        assert u == p + ([sep] + rest);
        TailOfConcat(p, [sep] + rest);
        assert u[1..] == t;
        assert u == [u[0]] + u[1..];
      }
      assert [p[0]] + p[1..] == p;
    }
  }

  /** One unfolding of `Split` on a string with a known first character. */
  lemma SplitCons(c: char, t: string, sep: char)
    ensures c == sep ==> Split([c] + t, sep) == [""] + Split(t, sep)
    ensures c != sep ==> Split([c] + t, sep) == [[c] + Split(t, sep)[0]] + Split(t, sep)[1..]
  {
    assert ([c] + t)[1..] == t;
  }

  lemma TailOfConcat(x: string, y: string)
    requires |x| > 0
    ensures (x + y)[1..] == x[1..] + y
  {
  }

  /**
   * `splitAndTrimString(str = '', sep = ',')`: split, then trim every piece.
   * `None` stands for an omitted (undefined) argument.
   */
  function SplitAndTrim(str: Option<string>, sep: Option<char>): (r: seq<string>)
    ensures |r| == Occurrences(str.GetOr(""), sep.GetOr(',')) + 1
  {
    var s, c := str.GetOr(""), sep.GetOr(',');
    SplitCount(s, c);
    var parts := Split(s, c);
    seq(|parts|, i requires 0 <= i < |parts| => Trim(parts[i]))
  }

  /** Piece `i` is the `i`-th separator-delimited segment with white space trimmed,
      so it is itself trimmed and free of the separator. */
  lemma SplitAndTrimPieces(str: Option<string>, sep: Option<char>)
    ensures var s, c, r := str.GetOr(""), sep.GetOr(','), SplitAndTrim(str, sep);
      && |r| == |Split(s, c)|
      && (forall i :: 0 <= i < |r| ==> r[i] == Trim(Split(s, c)[i]))
      && (forall i :: 0 <= i < |r| ==> Trimmed(r[i]) && c !in r[i])
  {
    var s, c, r := str.GetOr(""), sep.GetOr(','), SplitAndTrim(str, sep);
    var parts := Split(s, c);
    SplitSepFree(s, c);
    forall i | 0 <= i < |r| ensures Trimmed(r[i]) && c !in r[i] {
      TrimFacts(parts[i]);
    }
  }

  /** Re-trimming the pieces is the identity. */
  lemma SplitAndTrimIdempotent(str: Option<string>, sep: Option<char>)
    ensures var r := SplitAndTrim(str, sep);
      forall i :: 0 <= i < |r| ==> Trim(r[i]) == r[i]
  {
    var r := SplitAndTrim(str, sep);
    SplitAndTrimPieces(str, sep);
    forall i | 0 <= i < |r| ensures Trim(r[i]) == r[i] {
      assert "" + r[i] + "" == r[i];
      TrimUnique("", r[i], "");
    }
  }

  /** ASCII lower-casing (`toLowerCase` restricted to A-Z). */
  function AsciiLower(s: string): (r: string)
    ensures |r| == |s|
  {
    seq(|s|, i requires 0 <= i < |s| => LowerChar(s[i]))
  }

  function LowerChar(c: char): char {
    if 'A' <= c <= 'Z' then (c as int - 'A' as int + 'a' as int) as char else c
  }
}

=== FILE: validation.dfy ===
/**
 * The request validators of src/middlewares/validation.middleware.ts:
 * `validateCityParam`, `validateSearchQueryParamMiddleware`,
 * `validateSearchFiltersMiddleware`, `validatePropertyId` and
 * `validatePurposeFilter`.  Each is a pure function from the request's
 * parameters (and the lists the middleware would look up) to either the
 * normalised query bag or the 400 answer it sends.
 *
 * These middlewares default a parameter only when it is absent
 * (`== null`), unlike the pagination middlewares, which also replace "".
 */
module Validation {
  import opened Wrappers
  import opened Strings
  import opened Numbers
  import opened Pagination

  /** `req.query.key ??= value`. */
  function SetIfAbsent(q: Query, key: string, value: string): (r: Query)
    ensures key in r && r[key] == (if key in q then q[key] else value)
    ensures r.Keys == q.Keys + {key}
    ensures forall k :: k in q && k != key ==> r[k] == q[k]
  {
    if key in q then q else q[key := value]
  }

  // ---------------------------------------------------------------- city

  /** `AVAILABLE_CITIES` (src/types/index.ts). */
  datatype City = Islamabad | Rawalpindi | Lahore | Karachi {
    function Name(): string {
      match this
      case Islamabad => "islamabad"
      case Rawalpindi => "rawalpindi"
      case Lahore => "lahore"
      case Karachi => "karachi"
    }
  }

  /** `Object.values(AVAILABLE_CITIES)`, in declaration order. */
  const CityNames: seq<string> := ["islamabad", "rawalpindi", "lahore", "karachi"]

  const CityMessage: string :=
    "Invalid city parameter. It must be one of following: " + JoinWith(CityNames, ", ")

  /** `validateCityParam`: an absent city, or exactly one of the city names, passes. */
  function ValidateCityParam(city: Option<string>): (r: Result<(), HttpError>)
    ensures r.Failure? ==> r.error == HttpError(BadRequest, CityMessage)
  {
    if city.None? || city.value in CityNames then Success(())
    else Failure(HttpError(BadRequest, CityMessage))
  }

  /** A given city passes exactly when it is the name of an `AVAILABLE_CITIES` member. */
  lemma CityAccepted(s: string)
    ensures ValidateCityParam(Some(s)).Success? <==> exists c: City :: c.Name() == s
  {
    if s in CityNames {
      var c := if s == "islamabad" then Islamabad else if s == "rawalpindi" then Rawalpindi
        else if s == "lahore" then Lahore else Karachi;
      assert c.Name() == s;
    }
  }

  /** An absent city passes; the comparison is case-sensitive. */
  lemma CityExamples()
    ensures ValidateCityParam(None).Success?
    ensures ValidateCityParam(Some("Lahore")).Failure?
    ensures ValidateCityParam(Some("")).Failure?
  {
  }

  // -------------------------------------------------------- search query

  /** A query-string value as the parser delivers it: a string, or a repeated key's list. */
  datatype Param = Text(text: string) | Listed(items: seq<string>)

  type ParamBag = map<string, Param>

  const QueryMessage: string := "Invalid query search parameter. It must be a string."

  /** `validateSearchQueryParamMiddleware`: `query` defaults to "" and must be a string. */
  function ValidateSearchQueryParam(q: ParamBag): (r: Result<ParamBag, HttpError>)
    ensures r.Success? <==> "query" !in q || q["query"].Text?
    ensures r.Failure? ==> r.error == HttpError(BadRequest, QueryMessage)
    ensures r.Success? ==> "query" in r.value && r.value["query"].Text?
  {
    var q2 := if "query" in q then q else q["query" := Text("")];
    if q2["query"].Text? then Success(q2) else Failure(HttpError(BadRequest, QueryMessage))
  }

  /** Only `query` may be added; a supplied string passes unchanged and a missing one becomes "". */
  lemma SearchQueryNormalised(q: ParamBag)
    requires ValidateSearchQueryParam(q).Success?
    ensures var r := ValidateSearchQueryParam(q).value;
      && r.Keys == q.Keys + {"query"}
      && r["query"] == (if "query" in q then q["query"] else Text(""))
      && forall k :: k in q ==> r[k] == q[k]
  {
  }

  // ------------------------------------------------------ search filters

  const PriceMessage: string :=
    "Invalid price parameters. Both price_min and price_max must be valid numbers."
  const BedroomsMessage: string := "Invalid bedrooms parameter. It must be a valid number."
  const AreaMessage: string :=
    "Invalid area parameters. Both area_min and area_max must be valid numbers (in square feet)."
  const StartDateMessage: string :=
    "Invalid start_date parameter. It must be a valid date in iso string format."
  const EndDateMessage: string :=
    "Invalid end_date parameter. It must be a valid date in iso string format."

  function PropertyTypeMessage(knownTypes: seq<string>): string {
    "Invalid property_type parameter. It must be one of following: " + JoinWith(knownTypes, ", ")
  }

  /** A `bedrooms` value that means "no bedroom filter", compared case-insensitively. */
  predicate AnyBedrooms(b: string) {
    AsciiLower(b) == "all" || AsciiLower(b) == "studio"
  }

  /** The eight filter parameters once the middleware has defaulted them. */
  datatype SearchFilters = SearchFilters(
    propertyType: string,
    areaMin: string,
    areaMax: string,
    priceMin: string,
    priceMax: string,
    bedrooms: string,
    startDate: string,
    endDate: string)

  /** `q[key]`, or `fallback` when the key is absent (`== null`). */
  function Lookup(q: Query, key: string, fallback: string): (v: string)
    ensures key in q ==> v == q[key]
    ensures key !in q ==> v == fallback
  {
    if key in q then q[key] else fallback
  }

  /** The defaulting half of `validateSearchFiltersMiddleware`. */
  function FilterDefaults(q: Query): (f: SearchFilters)
    ensures f.bedrooms == "" <==> "bedrooms" !in q || q["bedrooms"] == "" || AnyBedrooms(q["bedrooms"])
  {
    var bedrooms := Lookup(q, "bedrooms", "");
    SearchFilters(
      Lookup(q, "property_type", ""),
      Lookup(q, "area_min", "0"),
      Lookup(q, "area_max", ""),
      Lookup(q, "price_min", "1"),
      Lookup(q, "price_max", ""),
      if AnyBedrooms(bedrooms) then "" else bedrooms,
      Lookup(q, "start_date", ""),
      Lookup(q, "end_date", ""))
  }

  /** `js && ...` on strings: the empty string is the only falsy one. */
  predicate Truthy(s: string) {
    s != ""
  }

  /** `values.some(isInvalidNumber)`. */
  function SomeInvalidNumber(values: seq<string>): (b: bool)
    ensures b <==> exists i :: 0 <= i < |values| && IsInvalidNumber(values[i])
  {
    if |values| == 0 then false
    else
      var rest := SomeInvalidNumber(values[1..]);
      assert forall i :: 1 <= i < |values| ==> values[i] == values[1..][i - 1];
      IsInvalidNumber(values[0]) || rest
  }

  /** The checks of the `switch (true)` statement, in the order they are tried. */
  datatype FilterCheck = PriceCheck | BedroomsCheck | AreaCheck | StartDateCheck | EndDateCheck | TypeCheck

  const CheckOrder: seq<FilterCheck> :=
    [PriceCheck, BedroomsCheck, AreaCheck, StartDateCheck, EndDateCheck, TypeCheck]

  /**
   * Whether a check rejects the defaulted filters; a falsy optional value skips
   * its check, and `bedrooms` is split on commas without trimming (each piece
   * is trimmed by the number conversion itself).
   */
  predicate Rejects(check: FilterCheck, f: SearchFilters, knownTypes: seq<string>, dateParse: string -> Option<int>) {
    match check
    case PriceCheck => IsInvalidNumber(f.priceMin) || (Truthy(f.priceMax) && IsInvalidNumber(f.priceMax))
    case BedroomsCheck =>
      var pieces := Split(f.bedrooms, ',');
      Truthy(f.bedrooms) && exists i :: 0 <= i < |pieces| && IsInvalidNumber(pieces[i])
    case AreaCheck => IsInvalidNumber(f.areaMin) || (Truthy(f.areaMax) && IsInvalidNumber(f.areaMax))
    case StartDateCheck => Truthy(f.startDate) && dateParse(f.startDate).None?
    case EndDateCheck => Truthy(f.endDate) && dateParse(f.endDate).None?
    case TypeCheck => f.propertyType != "" && f.propertyType !in knownTypes
  }

  function CheckError(check: FilterCheck, knownTypes: seq<string>): HttpError {
    match check
    case PriceCheck => HttpError(BadRequest, PriceMessage)
    case BedroomsCheck => HttpError(BadRequest, BedroomsMessage)
    case AreaCheck => HttpError(BadRequest, AreaMessage)
    case StartDateCheck => HttpError(BadRequest, StartDateMessage)
    case EndDateCheck => HttpError(BadRequest, EndDateMessage)
    case TypeCheck => HttpError(BadRequest, PropertyTypeMessage(knownTypes))
  }

  /** The `switch (true)` statement on the defaulted filters: the answer it sends, if any. */
  function CheckFilters(f: SearchFilters, knownTypes: seq<string>, dateParse: string -> Option<int>): (r: Option<HttpError>)
    ensures r.Some? ==> r.value.status == BadRequest
  {
    if IsInvalidNumber(f.priceMin) || (Truthy(f.priceMax) && IsInvalidNumber(f.priceMax)) then
      Some(HttpError(BadRequest, PriceMessage))
    else if Truthy(f.bedrooms) && SomeInvalidNumber(Split(f.bedrooms, ',')) then
      Some(HttpError(BadRequest, BedroomsMessage))
    else if IsInvalidNumber(f.areaMin) || (Truthy(f.areaMax) && IsInvalidNumber(f.areaMax)) then
      Some(HttpError(BadRequest, AreaMessage))
    else if Truthy(f.startDate) && dateParse(f.startDate).None? then
      Some(HttpError(BadRequest, StartDateMessage))
    else if Truthy(f.endDate) && dateParse(f.endDate).None? then
      Some(HttpError(BadRequest, EndDateMessage))
    else if f.propertyType != "" && f.propertyType !in knownTypes then
      Some(HttpError(BadRequest, PropertyTypeMessage(knownTypes)))
    else
      None
  }

  /**
   * `validateSearchFiltersMiddleware`.  `knownTypes` is what `getPropertyTypes`
   * returns and `dateParse` stands for `Date.parse` (`None` is NaN).  On
   * success the defaulted filters are handed on.
   */
  function ValidateSearchFilters(q: Query, knownTypes: seq<string>, dateParse: string -> Option<int>): (r: Result<SearchFilters, HttpError>)
    ensures r.Success? ==> r.value == FilterDefaults(q)
    ensures r.Failure? ==> r.error.status == BadRequest
    ensures r.Failure? <==>
      exists i :: 0 <= i < |CheckOrder| && Rejects(CheckOrder[i], FilterDefaults(q), knownTypes, dateParse)
    ensures forall i :: 0 <= i < |CheckOrder| && FirstRejecting(i, FilterDefaults(q), knownTypes, dateParse) ==>
      r == Failure(CheckError(CheckOrder[i], knownTypes))
  {
    var f := FilterDefaults(q);
    FiltersPass(f, knownTypes, dateParse);
    FirstRejectingDecides(f, knownTypes, dateParse);
    match CheckFilters(f, knownTypes, dateParse)
    case Some(e) => Failure(e)
    case None => Success(f)
  }

  /** The filters pass exactly when none of the checks rejects them. */
  lemma FiltersPass(f: SearchFilters, knownTypes: seq<string>, dateParse: string -> Option<int>)
    ensures CheckFilters(f, knownTypes, dateParse).None? <==>
      forall i :: 0 <= i < |CheckOrder| ==> !Rejects(CheckOrder[i], f, knownTypes, dateParse)
  {
    if CheckFilters(f, knownTypes, dateParse).None? {
      NoCheckRejects(f, knownTypes, dateParse);
    } else {
      var i := SomeCheckRejects(f, knownTypes, dateParse);
    }
  }

  lemma NoCheckRejects(f: SearchFilters, knownTypes: seq<string>, dateParse: string -> Option<int>)
    requires CheckFilters(f, knownTypes, dateParse).None?
    ensures forall i :: 0 <= i < |CheckOrder| ==> !Rejects(CheckOrder[i], f, knownTypes, dateParse)
  {
    forall i | 0 <= i < |CheckOrder| ensures !Rejects(CheckOrder[i], f, knownTypes, dateParse) {
      assert CheckOrder[i] in CheckOrder;
    }
  }

  lemma SomeCheckRejects(f: SearchFilters, knownTypes: seq<string>, dateParse: string -> Option<int>) returns (i: nat)
    requires CheckFilters(f, knownTypes, dateParse).Some?
    ensures i < |CheckOrder| && Rejects(CheckOrder[i], f, knownTypes, dateParse)
  {
    var pieces := Split(f.bedrooms, ',');
    if Rejects(PriceCheck, f, knownTypes, dateParse) {
      i := 0;
    } else if Truthy(f.bedrooms) && SomeInvalidNumber(pieces) {
      i := 1;
      assert Rejects(BedroomsCheck, f, knownTypes, dateParse);
    } else if Rejects(AreaCheck, f, knownTypes, dateParse) {
      i := 2;
    } else if Rejects(StartDateCheck, f, knownTypes, dateParse) {
      i := 3;
    } else if Rejects(EndDateCheck, f, knownTypes, dateParse) {
      i := 4;
    } else {
      i := 5;
      assert Rejects(TypeCheck, f, knownTypes, dateParse);
    }
    assert CheckOrder[i] == [PriceCheck, BedroomsCheck, AreaCheck, StartDateCheck, EndDateCheck, TypeCheck][i];
  }

  /** Check `i` rejects the filters and no earlier check does. */
  predicate FirstRejecting(i: nat, f: SearchFilters, knownTypes: seq<string>, dateParse: string -> Option<int>)
    requires i < |CheckOrder|
  {
    && Rejects(CheckOrder[i], f, knownTypes, dateParse)
    && forall j :: 0 <= j < i ==> !Rejects(CheckOrder[j], f, knownTypes, dateParse)
  }

  lemma FirstRejectingDecides(f: SearchFilters, knownTypes: seq<string>, dateParse: string -> Option<int>)
    ensures forall i :: 0 <= i < |CheckOrder| && FirstRejecting(i, f, knownTypes, dateParse) ==>
      CheckFilters(f, knownTypes, dateParse) == Some(CheckError(CheckOrder[i], knownTypes))
  {
    forall i | 0 <= i < |CheckOrder| && FirstRejecting(i, f, knownTypes, dateParse)
      ensures CheckFilters(f, knownTypes, dateParse) == Some(CheckError(CheckOrder[i], knownTypes))
    {
      FiltersFirstFailure(f, knownTypes, dateParse, i);
    }
  }

  /** The first check that rejects decides the answer: later checks are not consulted. */
  lemma FiltersFirstFailure(f: SearchFilters, knownTypes: seq<string>, dateParse: string -> Option<int>, i: nat)
    requires i < |CheckOrder|
    requires Rejects(CheckOrder[i], f, knownTypes, dateParse)
    requires forall j :: 0 <= j < i ==> !Rejects(CheckOrder[j], f, knownTypes, dateParse)
    ensures CheckFilters(f, knownTypes, dateParse) == Some(CheckError(CheckOrder[i], knownTypes))
  {
    if i > 0 { assert !Rejects(CheckOrder[0], f, knownTypes, dateParse); }
    if i > 1 { assert !Rejects(CheckOrder[1], f, knownTypes, dateParse); }
    if i > 2 { assert !Rejects(CheckOrder[2], f, knownTypes, dateParse); }
    if i > 3 { assert !Rejects(CheckOrder[3], f, knownTypes, dateParse); }
    if i > 4 { assert !Rejects(CheckOrder[4], f, knownTypes, dateParse); }
  }

  /** The defaults of the filter middleware, for a request that supplies none of the filters. */
  lemma FilterDefaultValues(q: Query)
    requires "property_type" !in q && "area_min" !in q && "area_max" !in q && "price_min" !in q
    requires "price_max" !in q && "bedrooms" !in q && "start_date" !in q && "end_date" !in q
    ensures FilterDefaults(q) == SearchFilters("", "0", "", "1", "", "", "", "")
  {
    assert AsciiLower("") == "";
  }

  /** A supplied value is taken as it is, even when empty; only `bedrooms` meaning "any" is cleared. */
  lemma FilterDefaultsKeepSupplied(q: Query)
    ensures "price_min" in q ==> FilterDefaults(q).priceMin == q["price_min"]
    ensures "area_min" in q ==> FilterDefaults(q).areaMin == q["area_min"]
    ensures "bedrooms" in q && !AnyBedrooms(q["bedrooms"]) ==> FilterDefaults(q).bedrooms == q["bedrooms"]
  {
  }

  /** `bedrooms=All` and `bedrooms=STUDIO` turn off the bedroom filter. */
  lemma BedroomsAnyCase(q: Query)
    ensures FilterDefaults(q["bedrooms" := "All"]).bedrooms == ""
    ensures FilterDefaults(q["bedrooms" := "STUDIO"]).bedrooms == ""
  {
    assert AsciiLower("All") == "all";
    assert AsciiLower("STUDIO") == "studio";
  }

  /** An explicitly empty `price_min` converts to 0 and so passes, where an absent one becomes 1. */
  lemma EmptyPriceMinAdmitted(q: Query, knownTypes: seq<string>, dateParse: string -> Option<int>)
    requires q == map["price_min" := ""]
    ensures ValidateSearchFilters(q, knownTypes, dateParse) == Success(SearchFilters("", "0", "", "", "", "", "", ""))
  {
    BlankIsZero("");
    NonNegativeLiteralValid(Literal(false, "0", None));
    assert Literal(false, "0", None).Text() == "0";
    assert AsciiLower("") == "";
  }

  // ------------------------------------------------------------ property id

  const IdMessage: string := "Invalid property id parameter. It must be a valid number."

  /** `validatePropertyId`: `Number(id)` must not be NaN; a missing id is `Number(undefined)`, NaN. */
  function ValidatePropertyId(id: Option<string>): (r: Result<(), HttpError>)
    ensures r.Failure? ==> r.error == HttpError(BadRequest, IdMessage)
  {
    if id.None? || ToNumber(id.value).None? then Failure(HttpError(BadRequest, IdMessage))
    else Success(())
  }

  /** Every decimal literal passes, negative ones included; only NaN is refused. */
  lemma PropertyIdAcceptsLiterals(lit: Literal)
    requires lit.Valid()
    ensures ValidatePropertyId(Some(lit.Text())).Success?
  {
    LiteralRoundTrip(lit);
  }

  /** A missing id and a word are refused; an empty or blank id converts to 0 and passes. */
  lemma PropertyIdExamples()
    ensures ValidatePropertyId(None).Failure?
    ensures ValidatePropertyId(Some("abc")).Failure?
    ensures ValidatePropertyId(Some("")).Success?
    ensures ValidatePropertyId(Some(" ")).Success?
  {
    WordInvalid();
    TrimOfTrimmed("abc");
    ForeignCharIsNaN("abc", 0);
    BlankIsZero("");
    BlankIsZero(" ");
  }

  // ---------------------------------------------------------------- purpose

  function PurposeMessage(knownPurposes: seq<string>): string {
    "Invalid purpose parameter. It must be one of following: " + JoinWith(knownPurposes, ",") + "."
  }

  const InternalError: nat := 500

  /**
   * `validatePurposeFilter`.  `lookup` is the outcome of `getPropertyPurpose`:
   * the purposes present in the table, or the message of the error it threw,
   * which the error middleware answers with status 500.
   */
  function ValidatePurposeFilter(q: Query, lookup: Result<seq<string>, string>): (r: Result<Query, HttpError>)
    ensures lookup.Failure? ==> r == Failure(HttpError(InternalError, lookup.error))
    ensures lookup.Success? ==>
      && (r.Success? <==> SetIfAbsent(q, "purpose", "for_sale")["purpose"] in lookup.value)
      && (r.Failure? ==> r.error == HttpError(BadRequest, PurposeMessage(lookup.value)))
    ensures r.Success? ==>
      && r.value == SetIfAbsent(q, "purpose", "for_sale")
      && r.value["purpose"] == (if "purpose" in q then q["purpose"] else "for_sale")
      && r.value.Keys == q.Keys + {"purpose"}
      && (forall k :: k in q && k != "purpose" ==> r.value[k] == q[k])
  {
    var n := SetIfAbsent(q, "purpose", "for_sale");
    match lookup
    case Failure(msg) => Failure(HttpError(InternalError, msg))
    case Success(known) =>
      if n["purpose"] in known then Success(n)
      else Failure(HttpError(BadRequest, PurposeMessage(known)))
  }

  /**
   * A missing purpose is read as `for_sale` and handed on as `for_sale`; a
   * supplied one is kept, even when empty.
   */
  lemma PurposeDefault(q: Query, known: seq<string>)
    ensures "purpose" !in q ==>
      (ValidatePurposeFilter(q, Success(known)).Success? <==> "for_sale" in known)
    ensures "purpose" !in q && "for_sale" in known ==>
      ValidatePurposeFilter(q, Success(known)) == Success(q["purpose" := "for_sale"])
    ensures "purpose" in q && q["purpose"] in known ==>
      ValidatePurposeFilter(q, Success(known)) == Success(q)
  {
  }
}

=== FILE: wrappers.dfy ===
/**
 * Failure-compatible wrappers shared by every module of the model:
 * `Option` stands for a JavaScript value that may be `undefined`/`null`
 * (or a number that may be `NaN`), `Result` for an operation that either
 * produces a value or answers the HTTP request with an error.
 */
module Wrappers {

  datatype Option<+T> = None | Some(value: T) {

    predicate IsFailure() {
      None?
    }

    function PropagateFailure<U>(): Option<U>
      requires None?
    {
      None
    }

    function Extract(): T
      requires Some?
    {
      value
    }

    /** The value, or `default` when absent (a JavaScript default parameter). */
    function GetOr(default: T): T {
      match this
      case Some(v) => v
      case None => default
    }
  }

  datatype Result<+R, +E> = Success(value: R) | Failure(error: E) {

    predicate IsFailure() {
      Failure?
    }

    function PropagateFailure<U>(): Result<U, E>
      requires Failure?
    {
      Failure(error)
    }

    function Extract(): R
      requires Success?
    {
      value
    }
  }

  /** An HTTP error answer: the status code and the `message` of the JSON body. */
  datatype HttpError = HttpError(status: nat, message: string)

  const BadRequest: nat := 400
}
